=== FILE: README.md ===
# Project State Engine of the mission-control control center

This project is a Dafny model of the part of the `create-agent-os` control
center that works out where a project stands and what to do next.

- **The backend** (`backend/index.js`) does three things:
  - It parses each markdown file of an `agent-os` directory into a checklist
    status: checkbox counts, the ordered items, the next open item, and a
    boilerplate flag.
  - It aggregates those statuses, the spec directories and the design and app
    milestones into one status report.
  - It serves four small handlers: create a spec, delete a spec, read a file,
    and write a file.
- **The frontend** turns the report into a recommended "next step" card and
  status badges. It also decides:
  - which roadmap items are listed as planned;
  - what spec name a roadmap item proposes;
  - when the "generate specs" banner or the empty state is shown;
  - which name the create-spec dialog posts.

Everything is a pure function over immutable data. The filesystem is a map
from absolute paths to file contents plus a set of directories. A path is a
list of segments. Node's `path.normalize` and `path.join` are modelled as
operations on those lists, including the trailing-separator flag. Each
handler returns an `Outcome`: 200, 400, 403, 404 or 500, with the message the
handler sends.

Modules, in dependency order:

| module | file | what it holds |
|---|---|---|
| `Wrappers` | wrappers.dfy | `Option`, `Result`, and a fail-fast map over a sequence |
| `JsText` | jstext.dfy | JavaScript's white space, `trim`, `includes`, global `match` counts, `replace`, `split`/`join`, `toLowerCase`, and number printing |
| `Checklist` | checklist.dfy | `parseStatus` on a file's content: counts, item lines, `nextItem`, boilerplate markers |
| `NodePath` | nodepath.dfy | POSIX `path.normalize`, `path.join`, and the `..` strip of the file handlers |
| `Fs` | fs.dfy | the abstract filesystem: `existsSync`, `readFileSync`, `writeFileSync`, recursive `mkdirSync` and `rmSync` |
| `ProjectModel` | project.dfy | the status report's datatypes, following `frontend/src/types.ts` |
| `Server` | server.dfy | the project root, `AGENT_OS_DIR`, and the handler outcome with its messages |
| `StatusApi` | statusapi.dfy | `GET /api/status` |
| `FileApi` | fileapi.dfy | `GET /api/files` and `POST /api/files` |
| `SpecApi` | specapi.dfy | `POST /api/scaffold/spec` and `DELETE /api/scaffold/spec/:name` |
| `Recommender` | recommender.dfy | the next-step card |
| `Badges` | badges.dfy | both `StatusItem` badges |
| `Dashboard` | dashboard.dfy | the product-panel button, roadmap slugs, the planned list, the banner, the empty state, the posted spec name |
| `Lifecycle` | lifecycle.dfy | how creating a spec changes the next report and the next card |

The next-step card exists twice in the source. `NextStepCard.tsx` lines 9-102
and the inline copy in `App.tsx` lines 178-271 are the same code line for
line. The inline `StatusItem` in `App.tsx` lines 118-145 likewise repeats the
control center's `StatusItem.tsx`. One model therefore covers each pair, and
the rows below cite whichever copy a property is read from.

Paths in the table are relative to the repository root. Below,
`index.js` means `packages/create-agent-os/src/template/control-center/backend/index.js`.

## Model

| member | source | states |
|---|---|---|
| Checklist.Parse | packages/create-agent-os/src/template/control-center/backend/index.js:33-72 | An existing file always parses. `completed` is the number of `- [x]` occurrences. `total` also counts `- [ ]` occurrences, so `completed <= total`. Everything is done (`completed == total`) exactly when no `- [ ]` occurs, and `total` is 0 exactly when neither box occurs. `nextItem` is absent exactly when every parsed item is checked. Otherwise it is the first open item with a non-empty name, when there is one. The file is boilerplate exactly when it contains one of the nine markers. |
| JsText.CountZeroIffAbsent | packages/create-agent-os/src/template/control-center/backend/index.js:34-35 | A non-empty pattern is counted zero times exactly when it does not occur in the text. |
| Checklist.OpenBoxLineTail | packages/create-agent-os/src/template/control-center/backend/index.js:43 | A line that starts with `- [ ]` is an item exactly when what follows the box matches `\s*(.+)$`. |
| Checklist.GluedDashIsItemNotCount | packages/create-agent-os/src/template/control-center/backend/index.js:34-43 | `-[ ] a` gives an item but adds nothing to the open-box count. |
| Checklist.BareBoxIsCountNotItem | packages/create-agent-os/src/template/control-center/backend/index.js:34-43 | A bare `- [ ]` adds one to the open-box count but gives no item. |
| Checklist.CrLineIsCountNotItem | packages/create-agent-os/src/template/control-center/backend/index.js:34-43 | `- [ ] a` followed by a carriage return adds one to the open-box count but gives no item. |
| Checklist.ContainsAny | packages/create-agent-os/src/template/control-center/backend/index.js:70 | `some(marker => content.includes(marker))` holds exactly when some marker occurs in the content. |
| Checklist.NotBoilerplateWithout | packages/create-agent-os/src/template/control-center/backend/index.js:59-69 | Text missing the letters Y, D, R, F, A, U and V is never boilerplate, because each marker contains one of them. |
| Checklist.MatchTailIsRegex | packages/create-agent-os/src/template/control-center/backend/index.js:43-46 | The greedy scan for `\s*(.+)$` succeeds exactly when some white-space prefix leaves a non-empty tail without line terminators. The captured group trims to the same text as the whole tail. |
| Checklist.ItemLineIsRegex | packages/create-agent-os/src/template/control-center/backend/index.js:43-45 | The left-to-right line scanner matches exactly the lines `/^\s*-\s*\[([ x])\]\s*(.+)$/` matches. An item is completed exactly when its box holds `x`. |
| Checklist.ItemLineFound | packages/create-agent-os/src/template/control-center/backend/index.js:43-45 | Wherever the item expression matches a line, the scanner matches it and reads the same box character. |
| Checklist.ItemLineOf | packages/create-agent-os/src/template/control-center/backend/index.js:43 | Every line the scanner accepts has the expression's shape: white space, a dash, white space, a box, and a matching tail. |
| Checklist.CaptureStartIsMaximal | packages/create-agent-os/src/template/control-center/backend/index.js:43 | The greedy `\s*` before group 2 stops no earlier than any white-space split that still leaves a tail. |
| Checklist.StripOrdinalShape | packages/create-agent-os/src/template/control-center/backend/index.js:48 | Stripping `^\d+\.\s*` either leaves the name as it is, or removes one run of digits, a dot, and the white space after it. |
| Checklist.CleanItemNameNoBold | packages/create-agent-os/src/template/control-center/backend/index.js:46-48 | An item's display name never contains `**`. |
| Checklist.CleanItemNameChars | packages/create-agent-os/src/template/control-center/backend/index.js:46-48 | Cleaning an item name only deletes characters and never introduces one. |
| Checklist.CleanItemNameOneLine | packages/create-agent-os/src/template/control-center/backend/index.js:46-48 | A display name cleaned from single-line text is single-line. |
| Checklist.ItemsOfAppend | packages/create-agent-os/src/template/control-center/backend/index.js:40-56 | Items keep file order: the items of a concatenation of line blocks are the items of the first block followed by the items of the second. |
| Checklist.NextItemFromFalsy | packages/create-agent-os/src/template/control-center/backend/index.js:38-54 | The `nextItem` loop treats `null` and `""` alike. It yields the first unchecked item with a non-empty name. Failing that, it yields `""` if any item is unchecked, and otherwise keeps its start value. |
| Checklist.NextItemSpec | packages/create-agent-os/src/template/control-center/backend/index.js:52-54 | `nextItem` is null exactly when every item is checked. When the first unchecked item has a non-empty name, `nextItem` is that name. |
| Checklist.FirstNamedOpen | packages/create-agent-os/src/template/control-center/backend/index.js:52 | Finds the first unchecked item whose name is non-empty: it is one, and no earlier item is. |
| StatusApi.ParseStatusAt | packages/create-agent-os/src/template/control-center/backend/index.js:26-33 | A missing file reports `exists: false` with zero counts, no next item and no items, and never fails. An existing file is parsed. Reading a directory is the only failure. |
| StatusApi.WithFallback | packages/create-agent-os/src/template/control-center/backend/index.js:103-104 | The primary file's status if it exists, otherwise the legacy file's status. Fails only when a file it has to read is a directory. |
| StatusApi.ReadProduct | packages/create-agent-os/src/template/control-center/backend/index.js:102-106 | Mission falls back from `mission.md` to `product-overview.md`, and the roadmap from `roadmap.md` to `product-roadmap.md`. The tech stack has no fallback. |
| StatusApi.ReadSpec | packages/create-agent-os/src/template/control-center/backend/index.js:110-117 | A spec entry carries the directory's name and the parsed status of its spec file and its task file. |
| StatusApi.ReadSpecs | packages/create-agent-os/src/template/control-center/backend/index.js:109-117 | The spec list has one entry per listed directory, in listing order. It fails exactly when some spec's file is a directory. |
| StatusApi.StatusListsEverySpecOnce | packages/create-agent-os/src/template/control-center/backend/index.js:109-111 | The report lists every visible directory under `agent-os/specs` exactly once, and nothing else. |
| StatusApi.DesignOf | packages/create-agent-os/src/template/control-center/backend/index.js:127-156 | Each design flag is the existence check the handler makes. `exists` equals `tokens`. `initialized` holds when the overview or the mission exists under `design-system/product`. |
| StatusApi.GetStatus | packages/create-agent-os/src/template/control-center/backend/index.js:100-166 | The report succeeds exactly when every file it reads is not a directory. The API is always up, and the two service flags are the probes' answers. `product` holds the parsed mission, roadmap and tech-stack files, each with its fallback file. `design` records which of the design and export files exist. The specs are the listing's entries. `scaffolded` means `app/src/lib/utils.ts` exists. |
| SpecApi.CreateSpec | packages/create-agent-os/src/template/control-center/backend/index.js:170-183 | A missing or empty name gives 400 "Spec name required". A name whose joined path holds U+0000 gives 500 and changes nothing, because `existsSync` answers false and `mkdirSync` throws. An existing path gives 400 "Spec already exists" and changes nothing. Success answers the new directory's path, which did not exist before. |
| SpecApi.WriteStarters | packages/create-agent-os/src/template/control-center/backend/index.js:179-182 | Answers 200 or 500. On success it writes exactly the spec file, holding "# Spec: " + name, and the seeded task file. No other file and no directory changes. |
| SpecApi.CreateSpecEffect | packages/create-agent-os/src/template/control-center/backend/index.js:174-180 | After a successful create, the files are the old files plus the two starter files inside the spec directory, and the directories gain that directory and its ancestors. |
| SpecApi.CreateSpecKeepsFiles | packages/create-agent-os/src/template/control-center/backend/index.js:175-180 | Creating a spec never changes or removes a file that already existed, whatever the outcome. |
| SpecApi.CreateSpecSucceeds | packages/create-agent-os/src/template/control-center/backend/index.js:174-182 | For a name that is one plain path segment, a create succeeds exactly when the name holds no U+0000, `agent-os/specs/<name>` does not exist, and no regular file sits on one of its ancestors. |
| SpecApi.FreeNameIsCreatable | packages/create-agent-os/src/template/control-center/backend/index.js:174-177 | Inside an existing `agent-os/specs`, an untaken name has nothing in its way exactly when it holds no U+0000. |
| SpecApi.CreateAddsOnlyBelow | packages/create-agent-os/src/template/control-center/backend/index.js:174-180 | Inside an existing `agent-os/specs`, a create under an untaken name that is one plain path segment without U+0000 succeeds. It adds files and directories only at or below `agent-os/specs/<name>`. |
| SpecApi.NulNameIsServerError | packages/create-agent-os/src/template/control-center/backend/index.js:174-177 | A plain name holding U+0000 is answered with 500 and creates nothing. |
| SpecApi.CreateSpecWellFormed | packages/create-agent-os/src/template/control-center/backend/index.js:177-180 | Creating a spec keeps the filesystem well formed: every entry has a parent directory, and no path is both a file and a directory. |
| SpecApi.NamedCreateNotMissing | packages/create-agent-os/src/template/control-center/backend/index.js:172 | A non-empty name is never answered with "Spec name required". |
| SpecApi.SeedTasksStatus | packages/create-agent-os/src/template/control-center/backend/index.js:180 | The seeded task list holds one `- [ ]` and no `- [x]`. |
| SpecApi.DeleteSpec | packages/create-agent-os/src/template/control-center/backend/index.js:186-208 | An empty name gives 400. A name outside `[a-zA-Z0-9-_]+` gives 400 before the filesystem is consulted. An absent directory gives 404. Otherwise the answer is 200 and the directory and everything below it are removed. Every failure leaves the filesystem unchanged. |
| SpecApi.ValidSpecNameIsPlain | packages/create-agent-os/src/template/control-center/backend/index.js:192 | A name that passes the delete check is one plain path segment without U+0000: never `.` or `..`, and without `/`. |
| SpecApi.SpecDirOfValidName | packages/create-agent-os/src/template/control-center/backend/index.js:196 | For such a name, the spec directory is exactly `agent-os/specs/<name>`. |
| SpecApi.DeleteSpecWellFormed | packages/create-agent-os/src/template/control-center/backend/index.js:201-203 | Deleting a spec keeps the filesystem well formed. |
| SpecApi.DeleteUndoesCreate | packages/create-agent-os/src/template/control-center/backend/index.js:170-208 | Inside an existing `agent-os/specs`, creating a spec under a delete-safe, untaken name and then deleting it succeeds and restores the filesystem exactly. |
| SpecApi.CreatedButNotDeletable | packages/create-agent-os/src/template/control-center/backend/index.js:170-194 | A plain name outside `[a-zA-Z0-9-_]+` with nothing in its way is created, but the delete handler then refuses it with 400 "Invalid spec name" and changes nothing. |
| SpecApi.SpacedNameIsPlainButInvalid | packages/create-agent-os/src/template/control-center/backend/index.js:192 | "User Profile" is one plain path segment that the delete check rejects. |
| SpecApi.CreateNameCanClimbOut | packages/create-agent-os/src/template/control-center/backend/index.js:174 | The create handler joins `../../x` to `agent-os/specs` and gets `<project root>/x`, outside `agent-os`. |
| FileApi.GetFile | packages/create-agent-os/src/template/control-center/backend/index.js:211-233 | A missing or empty path gives 400. A 200 answer carries the content of the target file, whose path holds no U+0000. A 404 means the target does not exist or its path holds U+0000. A 500 means the target is a directory. |
| FileApi.PutFile | packages/create-agent-os/src/template/control-center/backend/index.js:236-254 | A missing path or absent content gives 400. A target path holding U+0000 gives 500. Success overwrites exactly the target file with the content and creates no directory. Every failure leaves the filesystem unchanged. |
| FileApi.TargetConfined | packages/create-agent-os/src/template/control-center/backend/index.js:215-219 | After normalising, stripping leading `..` and joining, the target always lies inside the agent-os directory, as segments and as a string prefix. |
| FileApi.NeverForbidden | packages/create-agent-os/src/template/control-center/backend/index.js:219-221 | Neither file handler can answer 403: the prefix check always passes. |
| FileApi.GetFileCases | packages/create-agent-os/src/template/control-center/backend/index.js:223-232 | For a non-empty path, the read answers 200 exactly when the target path holds no U+0000 and names a file. It answers 404 exactly when the path holds U+0000 or nothing exists there. |
| FileApi.PlainNameTarget | packages/create-agent-os/src/template/control-center/backend/index.js:216-217 | A path that is one plain name not starting with `.` targets that name directly inside `agent-os`. |
| FileApi.NulPathRefused | packages/create-agent-os/src/template/control-center/backend/index.js:223-253 | For such a name holding U+0000, the write answers 500 and the read answers 404, and the filesystem is unchanged. |
| FileApi.PutThenGet | packages/create-agent-os/src/template/control-center/backend/index.js:249 | A successful write is read back unchanged. |
| FileApi.PutSameContentIsNoop | packages/create-agent-os/src/template/control-center/backend/index.js:249 | Writing a file's current content back changes nothing. |
| NodePath.NormalizeCanonical | packages/create-agent-os/src/template/control-center/backend/index.js:216 | `path.normalize` yields no empty or `.` segments. `..` segments appear only at the front of a relative path. |
| NodePath.StrippedHasNoParent | packages/create-agent-os/src/template/control-center/backend/index.js:216 | After normalising and stripping the leading run of `../`, no `..` component is left. |
| NodePath.JoinBelow | packages/create-agent-os/src/template/control-center/backend/index.js:217 | Joining a path free of `..` onto a directory stays below that directory. |
| NodePath.RenderPrefix | packages/create-agent-os/src/template/control-center/backend/index.js:219 | A path below a directory renders to a string starting with the directory's string. |
| NodePath.JoinPlainNames | packages/create-agent-os/src/template/control-center/backend/index.js:174 | Joining plain names onto a directory appends exactly those names. |
| NodePath.ResolveAppend | packages/create-agent-os/src/template/control-center/backend/index.js:216 | Normalising a path in two pieces gives the same result as normalising it whole. |
| Server.AgentDirIsJoin | packages/create-agent-os/src/template/control-center/backend/index.js:13-15 | `AGENT_OS_DIR` is the directory `agent-os` directly below the project root. |
| Fs.ReadFile | packages/create-agent-os/src/template/control-center/backend/index.js:228 | Reading succeeds exactly on a file and returns its content. Reading a directory fails. |
| Fs.WriteFile | packages/create-agent-os/src/template/control-center/backend/index.js:249 | Writing succeeds exactly when the target is not a directory, is not written with a trailing `/`, and its parent is a directory. It replaces only that file's content. |
| Fs.MakeDirs | packages/create-agent-os/src/template/control-center/backend/index.js:177 | A recursive `mkdir` fails exactly when a file sits on the path. Otherwise it adds the path and its ancestors as directories. |
| Fs.RemoveTree | packages/create-agent-os/src/template/control-center/backend/index.js:202 | A recursive, forced `rm` removes exactly the entries at or below the path and keeps every other entry as it was. |
| Fs.RemoveTreeRestores | packages/create-agent-os/src/template/control-center/backend/index.js:202 | Removing a tree that was added on top of a filesystem, without touching anything else, restores that filesystem. |
| Recommender.FirstIncomplete | packages/create-agent-os/src/template/control-center/frontend/src/components/NextStepCard.tsx:68 | `specs.find(...)` returns the first spec that has open tasks or no task file, or none when there is no such spec. |
| Recommender.FirstUnmetMilestoneDecides | packages/create-agent-os/src/template/control-center/frontend/src/components/NextStepCard.tsx:12-66 | The first unmet milestone picks the step, whatever holds after it. The milestones, in order: product settled, design initialised, design exported, app scaffolded, some spec exists. |
| Recommender.SpecsPhaseAfterSetup | packages/create-agent-os/src/template/control-center/frontend/src/App.tsx:236-271 | Once all milestones are met, the card stays in phase 4. It names the first incomplete spec. With none, it names the roadmap's next item if that is non-empty and the roadmap is not boilerplate, and otherwise asks to verify. |
| Recommender.PlanningDominates | packages/create-agent-os/src/template/control-center/frontend/src/components/NextStepCard.tsx:12-26 | A missing or boilerplate mission, tech stack or roadmap always yields "Plan Your Product" with the planning prompt. |
| Recommender.PromptEmptyOnlyForVisuals | packages/create-agent-os/src/template/control-center/frontend/src/components/NextStepCard.tsx:37-46 | Only the visuals step has an empty prompt. |
| Recommender.VisualsTitleOnlyForVisuals | packages/create-agent-os/src/template/control-center/frontend/src/components/NextStepCard.tsx:40 | No other step, including the quoted spec and roadmap titles, is titled "Define Your Visuals". |
| Recommender.OnlyVisualsLacksPrompt | packages/create-agent-os/src/template/control-center/frontend/src/App.tsx:206-215 | A card has an empty prompt exactly when it is "Define Your Visuals". |
| Recommender.OnlyVisualsHasAction | packages/create-agent-os/src/template/control-center/frontend/src/components/NextStepCard.tsx:44-45 | A card has an action label exactly when it is "Define Your Visuals". That label is "Open Design OS" and its action opens Design OS. Every other card has no action. |
| Recommender.RoadmapLineNoBold | packages/create-agent-os/src/template/control-center/frontend/src/components/NextStepCard.tsx:81 | Removing `**`, dropping the ordinal and keeping the first line leaves no `**`. |
| Recommender.CleanRoadmapNameShape | packages/create-agent-os/src/template/control-center/frontend/src/components/NextStepCard.tsx:80-81 | The cleaned roadmap name is one line without `**` and has no white space at either end. |
| Badges.TemplateBadge | packages/create-agent-os/src/template/control-center/frontend/src/components/StatusItem.tsx:11-38 | Nothing renders for an absent status. Otherwise the badge reads "Done" or "Pending", and "Done" is a green pill. A boilerplate file always gets the flat "Pending" box. |
| Badges.ParsedFileBadge | packages/create-agent-os/src/template/control-center/frontend/src/App.tsx:118-145 | A parsed file reads "Done" exactly when it holds no boilerplate marker and no `- [ ]`. A missing file reads "Pending". |
| Badges.UiBadge | packages/agent-os-ui/src/components/StatusItem.tsx:19-45 | Nothing renders for an absent status. Every badge is a pill, and it is stone exactly when the file does not exist, reading "Missing". For an existing file the badge is emerald exactly when the status is complete. With a positive total it reads `completed/total`, and both numbers read back. Otherwise it shows the label when the label is non-empty, and "Done" when it is not. |
| Badges.CounterReadsBack | packages/agent-os-ui/src/components/StatusItem.tsx:37 | The `completed/total` counter splits at its one slash into two numbers that read back as the counts. |
| Badges.BadgesAgree | packages/agent-os-ui/src/components/StatusItem.tsx:21-37 | On an existing, filled-in file the UI badge is green exactly when the control center's badge says "Done". It shows the counter when the file has boxes and "Done" otherwise. |
| Dashboard.ProductButtonAgreesWithCard | packages/create-agent-os/src/template/control-center/frontend/src/App.tsx:643-648 | While the card is on planning or the design sync, the product button copies the card's prompt. It reads "Next: Design System" and is primary exactly when the card has moved on to the design sync. |
| Dashboard.CollapseSpaceLeavesNoSpace | packages/create-agent-os/src/template/control-center/frontend/src/App.tsx:826 | `.replace(/\s+/g, '-')` leaves no white space. |
| Dashboard.KeepSlugChars | packages/create-agent-os/src/template/control-center/frontend/src/App.tsx:826 | `.replace(/[^a-z0-9-]/g, '')` keeps only `a-z`, `0-9` and `-`, and never lengthens the text. |
| Dashboard.SlugIsSpecName | packages/create-agent-os/src/template/control-center/frontend/src/App.tsx:826 | A non-empty proposed spec name passes the backend's delete-name check. |
| Dashboard.SlugIdempotent | packages/create-agent-os/src/template/control-center/frontend/src/App.tsx:826 | Slugging a slug gives it back unchanged. |
| Dashboard.KeyInSlug | packages/create-agent-os/src/template/control-center/frontend/src/App.tsx:810 | The trimmed match key of an item appears inside the item's proposed name. |
| Dashboard.OpenItems | packages/create-agent-os/src/template/control-center/frontend/src/App.tsx:750-752 | The banner counts exactly the unchecked items of a roadmap that is not boilerplate, and never more items than the roadmap has. |
| Dashboard.PlannedItems | packages/create-agent-os/src/template/control-center/frontend/src/App.tsx:807-811 | The planned list holds exactly the unchecked items of a roadmap that is not boilerplate, minus those whose key some lower-cased spec name contains. |
| Dashboard.OpenItemsAppend | packages/create-agent-os/src/template/control-center/frontend/src/App.tsx:750-752 | The unchecked items of two lists in a row are the first list's followed by the second's, so filtering keeps order and repeats. |
| Dashboard.PlannedItemsAppend | packages/create-agent-os/src/template/control-center/frontend/src/App.tsx:807-811 | The same for the planned list: it is computed item by item and keeps order and repeats. |
| Dashboard.PlannedItemsSingle | packages/create-agent-os/src/template/control-center/frontend/src/App.tsx:807-811 | A single item is planned exactly when it is unchecked, the roadmap is not boilerplate, and no spec covers it. |
| Dashboard.BannerCondition | packages/create-agent-os/src/template/control-center/frontend/src/App.tsx:750-753 | The banner shows exactly when there is no spec, the roadmap is not boilerplate, and some roadmap item is unchecked. |
| Dashboard.BannerExcludesEmptyState | packages/create-agent-os/src/template/control-center/frontend/src/App.tsx:838 | The banner and the empty state never show together. |
| Dashboard.NoSpecsPlannedIsOpen | packages/create-agent-os/src/template/control-center/frontend/src/App.tsx:807-810 | Without specs, the planned list is exactly the list the banner counts. |
| Dashboard.BoilerplateRoadmapListsNothing | packages/create-agent-os/src/template/control-center/frontend/src/App.tsx:809 | A boilerplate roadmap lists no planned item and raises no banner. |
| Dashboard.EmptyKeyIsAlwaysCovered | packages/create-agent-os/src/template/control-center/frontend/src/App.tsx:810 | An item whose key is empty is hidden as soon as any spec exists. |
| Dashboard.ShapedItemLeavesPlanned | packages/create-agent-os/src/template/control-center/frontend/src/App.tsx:807-828 | Once a spec exists under an item's proposed name, the item leaves the planned list. |
| Dashboard.PostedSpecName | packages/create-agent-os/src/template/control-center/frontend/src/App.tsx:484-487 | The dialog posts nothing when the input is all white space. Otherwise it posts the trimmed input, which is non-empty. |
| Dashboard.PostedNameIsTrimmed | packages/create-agent-os/src/template/control-center/frontend/src/App.tsx:508-511 | The posted name has no white space at either end, so posting it again would send the same name. |
| Dashboard.PostedNameNeverMissing | packages/create-agent-os/src/template/control-center/frontend/src/App.tsx:485-487 | A name the dialog posts never trips the create handler's missing-name check. |
| Lifecycle.CreatedFilesAreFiles | packages/create-agent-os/src/template/control-center/backend/index.js:177-180 | For a name that is one plain path segment with nothing in the way of its directory (no U+0000, nothing there yet, no file on an ancestor), the create leaves the two starter paths as plain files holding the starter texts. |
| Lifecycle.CreatedSpecIsOpen | packages/create-agent-os/src/template/control-center/frontend/src/components/NextStepCard.tsx:68 | After such a create, reading the spec gives its spec file and one open task, so the card counts it as incomplete. When the name does not start with `.`, the spec glob matches the new directory, so every listing holds the spec. |

## Left out

- HTTP and Express plumbing is not modelled: routing, CORS, JSON parsing, `listen` and console logging. Each handler is a function from its request fields to an `Outcome` and the new filesystem.
- The service health probes (`index.js` lines 76-97) make network calls with timeouts. Their two answers are parameters of `GetStatus`; `api` is always true.
- The order in which `glob` lists spec directories is not modelled, because the filesystem chooses it. It is a parameter constrained to list every visible child directory of `agent-os/specs` exactly once.
- Request fields that are not strings are out of scope. A `name`, `path` or `content` that is a number or an object is not modelled, since the JavaScript coercions it would meet are not part of this core.
- The delete handler's 500 branch is not reachable in the model. `rmSync` with `force` on an existing directory cannot fail here, because the model has no permissions, locks or I/O errors.
- File permissions and I/O errors other than "is a directory" are not modelled. Reading a directory is the one failure kept, and it turns `GET /api/status` into a 500.
- Strings are sequences of Unicode code points, not UTF-16 code units, so surrogate pairs are not modelled.
- ToLower: covers ASCII and the two code points that lower-case into ASCII letters (U+212A and U+0130). Every other character is left as it is. Those characters can neither survive the slug's `[a-z0-9-]` filter nor equal an ASCII character, so the slug and the spec-name match do not depend on them.
- Styling, icons, theme toggles, polling, clipboard, toasts, deep links and the modals are not modelled. The client's delete request URL is also left out.
- The implementation extras `tests`, `coverage` and `git` of the report's type are left out, because the backend never produces them.
- Badges.UiBadge: counts are integers. Counts that are not integers (a fractional or `NaN` total) are not modelled.
- StatusApi.GetStatus: `projectRoot` is the rendered project root, an absolute path of plain names. How `path.resolve(__dirname, '../..')` computes it is not modelled. The root is taken to hold no U+0000, as the path of an actual directory cannot.
- Node's U+0000 check on path arguments is modelled where caller strings reach the filesystem: the create handler and the two file handlers. The status report reads only paths built from the project root and from directory names the glob returns, which hold no U+0000, so its reads are not guarded.

## Notes on the code

- The file handlers' 403 "Access denied" branch is unreachable on POSIX. Normalising, stripping the leading `../` run and joining onto the agent-os directory always yields a path whose string starts with that directory's string (`FileApi.NeverForbidden`). So a request for `../../etc/passwd` is served from `agent-os/etc/passwd`: 404 if that path is absent, never 403.
- `GET /api/status` is not infallible. When a product, spec or task file path is a directory, `readFileSync` throws and the whole report becomes a 500 (`StatusApi.ParseStatusAt`, `StatusApi.GetStatus`).
- `nextItem` is set while it is still falsy, so an unchecked item whose cleaned name is empty does not stop a later unchecked item from being chosen (`Checklist.NextItemFromFalsy`).
- The `total` count and the item list come from different patterns, so `items` may be longer or shorter than `total`. Three cases:
  - `-[ ] a` is an item, but it is not counted, because the count needs `- [` (`Checklist.GluedDashIsItemNotCount`).
  - A bare `- [ ]` is counted, but it is no item, because `(.+)` needs a character after the box (`Checklist.BareBoxIsCountNotItem`). The same holds for a box in mid-line, such as `x - [ ] a`.
  - A box line ending in a carriage return is counted, but it is no item, because `.` and `$` stop at the `\r` (`Checklist.CrLineIsCountNotItem`). In a CRLF file this is every box line followed by a line break. So when the last box line is also followed by one, the file has no items and no `nextItem`, while `total` still counts every box.
- The create handler accepts names the delete handler refuses. Any name that is one plain path segment is created, but delete only takes `[a-zA-Z0-9-_]+`. So a spec created as "User Profile" cannot be deleted through the API (`SpecApi.CreatedButNotDeletable`, `SpecApi.SpacedNameIsPlainButInvalid`).
- A spec whose name starts with `.` is created but never listed, since the spec glob skips hidden directories (`Lifecycle.CreatedSpecIsOpen` promises the listing only for other names).
- The create handler does not check its name at all. `path.join` resolves `..`, so a name like `../../x` creates `x` with its two starter files directly in the project root (`SpecApi.CreateNameCanClimbOut`).

=== FILE: badges.dfy ===
/**
 * The status badge shown next to every tracked file. The control center's
 * own `StatusItem` says "Done" or "Pending"; the shared UI package's
 * `StatusItem` shows a task counter, a label, or "Missing". Neither renders
 * anything for an absent status object.
 */
module Badges {
  import opened Wrappers
  import opened JsText
  import opened Checklist

  /** The badge's colour scheme. */
  datatype Tone = Emerald | Muted | Amber | Stone

  /** What the badge shows: its text, its colours, and whether it is drawn
      as a rounded pill or as a flat box. */
  datatype Badge = Badge(text: string, tone: Tone, pill: bool)

  const DoneText: string := "Done"
  const PendingText: string := "Pending"
  const MissingText: string := "Missing"

  /** Both components' `isComplete`: the file exists and, when it has boxes,
      every box is ticked. */
  predicate IsComplete(s: Status) {
    s.present && (s.total > 0 ==> s.completed == s.total)
  }

  /** The control center's badge. A filled-in file is a pill, green when
      complete; a missing or boilerplate file gets a flat "Pending" box. */
  function TemplateBadge(status: Option<Status>): (b: Option<Badge>)
    ensures b.None? <==> status.None?
    ensures b.Some? ==> b.value.text == DoneText || b.value.text == PendingText
    ensures b.Some? && b.value.text == DoneText ==> b.value.tone == Emerald && b.value.pill
    ensures b.Some? && status.value.isBoilerplate ==> b.value == Badge(PendingText, Muted, false)
  {
    match status
    case None => None
    case Some(s) =>
      if s.present && !s.isBoilerplate then
        if IsComplete(s) then Some(Badge(DoneText, Emerald, true))
        else Some(Badge(PendingText, Muted, true))
      else Some(Badge(PendingText, Muted, false))
  }

  /** A parsed file reads "Done" exactly when it holds no template marker
      and no open box; a missing file reads "Pending". */
  lemma ParsedFileBadge(content: string)
    ensures TemplateBadge(Some(Parse(content))).value.text == DoneText
            <==> !ContainsAny(content, BoilerplateMarkers) && CountOccurrences(content, UncheckedBox) == 0
    ensures TemplateBadge(Some(MissingStatus())) == Some(Badge(PendingText, Muted, false))
  {
    var s := Parse(content);
    assert s.total > 0 ==> (s.completed == s.total <==> CountOccurrences(content, UncheckedBox) == 0);
    assert DoneText != PendingText by { assert DoneText[0] != PendingText[0]; }
  }

  /** The UI package's status: every field but `exists` may be missing; `caption` is its `label`. */
  datatype UiStatus = UiStatus(present: bool, completed: Option<int>, total: Option<int>, caption: Option<string>)

  /** The UI package's `isComplete`; an absent count never equals a present one. */
  predicate UiComplete(s: UiStatus) {
    s.present && (s.total.Some? && s.total.value > 0 ==> s.completed == Some(s.total.value))
  }

  /** `${completed}/${total}`; an absent count prints as `undefined`. */
  function CounterText(completed: Option<int>, total: int): string {
    (if completed.Some? then IntToString(completed.value) else "undefined") + "/" + IntToString(total)
  }

  /** The UI package's badge. */
  function UiBadge(status: Option<UiStatus>): (b: Option<Badge>)
    ensures b.None? <==> status.None?
    ensures b.Some? ==> b.value.pill
    ensures b.Some? ==> (b.value.tone == Stone <==> !status.value.present)
    ensures b.Some? && !status.value.present ==> b.value.text == MissingText
    ensures b.Some? && status.value.present ==> (b.value.tone == Emerald <==> UiComplete(status.value))
    ensures b.Some? && status.value.present && status.value.total.Some? && status.value.total.value > 0
            && status.value.completed.Some?
            ==> var parts := Split(b.value.text, '/');
                && |parts| == 2
                && ReadInt(parts[0]) == status.value.completed
                && ReadInt(parts[1]) == status.value.total
    ensures b.Some? && status.value.present && !(status.value.total.Some? && status.value.total.value > 0)
            ==> b.value.text == (if status.value.caption.Some? && status.value.caption.value != ""
                                 then status.value.caption.value else DoneText)
  {
    match status
    case None => None
    case Some(s) =>
      if !s.present then Some(Badge(MissingText, Stone, true))
      else
        var text :=
          if s.total.Some? && s.total.value > 0 then CounterText(s.completed, s.total.value)
          else if s.caption.Some? && s.caption.value != "" then s.caption.value
          else DoneText;
        CountsReadBack(s.completed, s.total);
        Some(Badge(text, if UiComplete(s) then Emerald else Amber, true))
  }

  /** `CounterReadsBack` for counts that may be absent. */
  lemma CountsReadBack(completed: Option<int>, total: Option<int>)
    ensures completed.Some? && total.Some?
            ==> var parts := Split(CounterText(completed, total.value), '/');
                && |parts| == 2
                && ReadInt(parts[0]) == completed
                && ReadInt(parts[1]) == total
  {
    if completed.Some? && total.Some? {
      CounterReadsBack(completed.value, total.value);
    }
  }

  /** The counter splits at its one slash into two numbers that read back as
      the counts. */
  lemma CounterReadsBack(completed: int, total: int)
    ensures var parts := Split(CounterText(Some(completed), total), '/');
            && |parts| == 2
            && ReadInt(parts[0]) == Some(completed)
            && ReadInt(parts[1]) == Some(total)
  {
    var a, b := IntToString(completed), IntToString(total);
    assert CounterText(Some(completed), total) == Join([a, b], '/');
    SplitJoin([a, b], '/');
    IntToStringRoundTrip(completed);
    IntToStringRoundTrip(total);
  }

  /** A parser status seen by the UI package. */
  function AsUiStatus(s: Status): UiStatus {
    UiStatus(s.present, Some(s.completed), Some(s.total), None)
  }

  /** On a filled-in file the two badges agree: the UI badge is green exactly
      when the template's says "Done", and it shows the counter when the file
      has boxes and "Done" when it has none. */
  lemma BadgesAgree(s: Status)
    requires s.present && !s.isBoilerplate
    ensures (UiBadge(Some(AsUiStatus(s))).value.tone == Emerald) <==> (TemplateBadge(Some(s)).value.text == DoneText)
    ensures UiBadge(Some(AsUiStatus(s))).value.text
            == if s.total > 0 then CounterText(Some(s.completed), s.total) else DoneText
  {
    assert UiComplete(AsUiStatus(s)) <==> IsComplete(s);
    assert DoneText != PendingText by { assert DoneText[0] != PendingText[0]; }
  }
}

=== FILE: checklist.dfy ===
/**
 * The checklist parser and boilerplate detector of the control-center
 * backend (`parseStatus` without its file access): from the text of one
 * markdown file it derives checkbox counts, the ordered list of checklist
 * items, the next open item and whether the file still holds template text.
 */
module Checklist {
  import opened Wrappers
  import opened JsText

  /** One parsed checklist line. */
  datatype Item = Item(name: string, completed: bool)

  /** What `parseStatus` reports for one file; `present` is the JSON field
      `exists`. A missing file's JSON has no
      `isBoilerplate` field; every reader treats that absence as false, which
      is the value held here. */
  datatype Status = Status(
    present: bool,
    isBoilerplate: bool,
    completed: nat,
    total: nat,
    nextItem: Option<string>,
    items: seq<Item>)

  const UncheckedBox: string := "- [ ]"
  const CheckedBox: string := "- [x]"

  /** The fixed placeholder phrases of the product templates. */
  const BoilerplateMarkers: seq<string> := [
    "[Your Product Name]",
    "[Database choice]",
    "[Role]",
    "[Feature 1]",
    "[Target Audience]",
    "[Unique Value Proposition",
    "MVP Launch",
    "First User",
    "Feature A"
  ]

  /** The status of a file that does not exist. */
  function MissingStatus(): Status {
    Status(false, false, 0, 0, None, [])
  }

  /** `markers.some(marker => content.includes(marker))`. */
  function ContainsAny(content: string, markers: seq<string>): (r: bool)
    ensures r <==> exists i :: 0 <= i < |markers| && Contains(content, markers[i])
  {
    if |markers| == 0 then false
    else if Contains(content, markers[0]) then true
    else
      assert forall i :: 1 <= i < |markers| ==> markers[i] == markers[1..][i - 1];
      ContainsAny(content, markers[1..])
  }

  /** The boilerplate detector: a plain substring test against the markers. */
  function IsBoilerplate(content: string): bool {
    ContainsAny(content, BoilerplateMarkers)
  }

  /** Where the greedy `\s*` in front of group 2 stops: after all leading
      white space, backing off one character when that would leave nothing
      for `.+`. */
  function CaptureStart(rest: string): (k: nat)
    requires |rest| > 0
    ensures k < |rest|
  {
    var lead := |rest| - |TrimStart(rest)|;
    if lead < |rest| then lead else |rest| - 1
  }

  /** `\s*(.+)$` applied to what follows the box: group 2 if it matches. */
  function MatchTail(rest: string): Option<string> {
    if |rest| == 0 then None
    else
      var k := CaptureStart(rest);
      if NoLineTerminator(rest[k..]) then Some(rest[k..]) else None
  }

  /** The regular-expression meaning of `\s*(.+)$`: some white-space prefix
      leaves a non-empty remainder free of line terminators. */
  ghost predicate TailMatches(rest: string) {
    exists k :: 0 <= k < |rest| && AllSpace(rest[..k]) && NoLineTerminator(rest[k..])
  }

  /** The greedy capture starts after white space only. */
  lemma CaptureStartAfterSpace(rest: string)
    requires |rest| > 0
    ensures AllSpace(rest[..CaptureStart(rest)])
  {
    var k := CaptureStart(rest);
    var lead := |rest| - |TrimStart(rest)|;
    TrimStartDropsSpace(rest);
    assert rest[..k] == rest[..lead][..k];
  }

  /** The greedy capture starts no later than any white-space split. */
  lemma CaptureStartIsMaximal(rest: string, k0: nat)
    requires k0 < |rest| && AllSpace(rest[..k0])
    ensures k0 <= CaptureStart(rest)
  {
    var lead := |rest| - |TrimStart(rest)|;
    if lead < |rest| {
      assert TrimStart(rest)[0] == rest[lead];
      SpacePrefixEndsBefore(rest, k0, lead);
    }
  }

  /** The greedy matcher agrees with the regular expression, and the group
      it captures trims to the trimmed tail. */
  lemma MatchTailIsRegex(rest: string)
    ensures MatchTail(rest).Some? <==> TailMatches(rest)
    ensures MatchTail(rest).Some? ==> Trim(MatchTail(rest).value) == Trim(rest)
  {
    if |rest| > 0 {
      var k := CaptureStart(rest);
      CaptureStartAfterSpace(rest);
      if TailMatches(rest) {
        var k0 :| 0 <= k0 < |rest| && AllSpace(rest[..k0]) && NoLineTerminator(rest[k0..]);
        CaptureStartIsMaximal(rest, k0);
        forall j | 0 <= j < |rest| - k
          ensures !IsLineTerminator(rest[k..][j])
        {
          assert rest[k..][j] == rest[k0..][j + k - k0];
        }
      }
      if NoLineTerminator(rest[k..]) {
        TrimAfterSpacePrefix(rest, k);
      }
    }
  }

  /** The first position at or after `k` that does not hold white space:
      where a greedy `\s*` starting at `k` stops. */
  function SkipSpace(s: string, k: nat): (r: nat)
    requires k <= |s|
    ensures k <= r <= |s|
    ensures forall m :: k <= m < r ==> IsSpace(s[m])
    ensures r == |s| || !IsSpace(s[r])
    decreases |s| - k
  {
    if k < |s| && IsSpace(s[k]) then SkipSpace(s, k + 1) else k
  }

  /** `/^\s*-\s*\[([ x])\]\s*(.+)$/` against one line: whether the box is
      checked, and group 2. Each leading `\s*` is followed by a character
      that is not white space, so neither can give back characters and the
      match is decided left to right. */
  function MatchItemLine(line: string): Option<(bool, string)> {
    var i := SkipSpace(line, 0);
    if i == |line| || line[i] != '-' then None else MatchBoxAt(line, SkipSpace(line, i + 1))
  }

  /** `\[([ x])\]\s*(.+)$` from position `j` of the line. */
  function MatchBoxAt(line: string, j: nat): Option<(bool, string)>
    requires j <= |line|
  {
    if j + 3 > |line| || line[j] != '[' || (line[j + 1] != ' ' && line[j + 1] != 'x') || line[j + 2] != ']' then None
    else
      match MatchTail(line[j + 3..])
      case None => None
      case Some(g) => Some((line[j + 1] == 'x', g))
  }

  /** The regular expression's meaning on one line: white space, a dash at
      `i`, white space, a box `[ ]` or `[x]` starting at `j`, and a tail that
      `\s*(.+)$` matches. */
  ghost predicate ItemLineAt(line: string, i: nat, j: nat) {
    && i < j && j + 3 <= |line|
    && (forall m :: 0 <= m < i ==> IsSpace(line[m])) && line[i] == '-'
    && (forall m :: i < m < j ==> IsSpace(line[m]))
    && line[j] == '[' && (line[j + 1] == ' ' || line[j + 1] == 'x') && line[j + 2] == ']'
    && TailMatches(line[j + 3..])
  }

  /** A white-space run from `k` that ends at a character that is not white
      space is the one `SkipSpace` finds. */
  lemma SkipSpaceUnique(s: string, k: nat, r: nat)
    requires k <= r < |s| && !IsSpace(s[r])
    requires forall m :: k <= m < r ==> IsSpace(s[m])
    ensures SkipSpace(s, k) == r
  {
  }

  /** The box and the tail decide the match from `j` on. */
  lemma BoxFound(line: string, j: nat)
    requires j + 3 <= |line| && line[j] == '[' && (line[j + 1] == ' ' || line[j + 1] == 'x') && line[j + 2] == ']'
    requires TailMatches(line[j + 3..])
    ensures MatchBoxAt(line, j).Some? && MatchBoxAt(line, j).value.0 == (line[j + 1] == 'x')
  {
    MatchTailIsRegex(line[j + 3..]);
  }

  /** A dash after the first white-space run hands the line to the box matcher. */
  lemma DashThenBox(line: string, i: nat, j: nat)
    requires i == SkipSpace(line, 0) && i < |line| && line[i] == '-' && j == SkipSpace(line, i + 1)
    ensures MatchItemLine(line) == MatchBoxAt(line, j)
  {
  }

  /** Wherever the expression matches, the scanner matches too, and reads
      the box at the same place. */
  lemma ItemLineFound(line: string, i: nat, j: nat)
    requires ItemLineAt(line, i, j)
    ensures MatchItemLine(line).Some? && MatchItemLine(line).value.0 == (line[j + 1] == 'x')
  {
    SkipSpaceUnique(line, 0, i);
    SkipSpaceUnique(line, i + 1, j);
    BoxFound(line, j);
    DashThenBox(line, i, j);
  }

  /** Wherever the scanner matches, the expression matches. */
  lemma ItemLineOf(line: string) returns (i: nat, j: nat)
    requires MatchItemLine(line).Some?
    ensures ItemLineAt(line, i, j)
  {
    i := SkipSpace(line, 0);
    j := SkipSpace(line, i + 1);
    DashThenBox(line, i, j);
    MatchTailIsRegex(line[j + 3..]);
  }

  /** The scanner matches a line exactly when `/^\s*-\s*\[([ x])\]\s*(.+)$/`
      does, and the item is checked exactly when the box holds `x`. */
  lemma ItemLineIsRegex(line: string)
    ensures MatchItemLine(line).Some? <==> exists i: nat, j: nat :: ItemLineAt(line, i, j)
    ensures forall i: nat, j: nat :: ItemLineAt(line, i, j)
                                     ==> MatchItemLine(line).Some? && MatchItemLine(line).value.0 == (line[j + 1] == 'x')
  {
    if MatchItemLine(line).Some? {
      var i, j := ItemLineOf(line);
    }
    forall i: nat, j: nat | ItemLineAt(line, i, j)
      ensures MatchItemLine(line).Some? && MatchItemLine(line).value.0 == (line[j + 1] == 'x')
    {
      ItemLineFound(line, i, j);
    }
  }

  /** Number of leading ASCII digits. */
  function LeadingDigits(s: string): (d: nat)
    ensures d <= |s|
    ensures forall i :: 0 <= i < d ==> IsDigit(s[i])
    ensures d == |s| || !IsDigit(s[d])
  {
    if |s| > 0 && IsDigit(s[0]) then 1 + LeadingDigits(s[1..]) else 0
  }

  /** Replacing `^\d+\.\s*` by nothing: drops one leading ordinal such as
      `12. `; `\d+` is greedy and must be followed by a dot, so it cannot
      give back digits. */
  function StripOrdinal(s: string): (r: string)
    ensures |r| <= |s| && r == s[|s| - |r|..]
  {
    var d := LeadingDigits(s);
    if 0 < d < |s| && s[d] == '.' then TrimStart(s[d + 1..]) else s
  }

  /** The display name of an item: its trimmed text with every `**`
      removed and then one leading ordinal dropped. */
  function CleanItemName(text: string): string {
    StripOrdinal(RemoveAll(Trim(text), "**"))
  }

  /** A removed ordinal really was one: digits, then a dot, then the rest
      with its leading white space dropped. */
  lemma StripOrdinalShape(s: string)
    ensures StripOrdinal(s) == s
            || exists d :: 0 < d < |s| && (forall i :: 0 <= i < d ==> IsDigit(s[i]))
                           && s[d] == '.' && StripOrdinal(s) == TrimStart(s[d + 1..])
  {
  }

  /** A display name holds no `**`. */
  lemma CleanItemNameNoBold(text: string)
    ensures !Contains(CleanItemName(text), "**")
  {
    var u := RemoveAll(Trim(text), "**");
    RemoveBoldComplete(Trim(text));
    NotContainsSuffix(u, "**", |u| - |StripOrdinal(u)|);
  }

  /** Every character of a display name comes from the item text. */
  lemma CleanItemNameChars(text: string)
    ensures forall c :: c in CleanItemName(text) ==> c in text
  {
    var t := Trim(text);
    var lead, trail := TrimSplits(text);
    assert forall c :: c in t ==> c in text;
    var u := RemoveAll(t, "**");
    RemoveAllKeepsChars(t, "**");
    var r := StripOrdinal(u);
    assert forall c :: c in r ==> c in u;
  }

  /** A display name built from text without line terminators has none. */
  lemma CleanItemNameOneLine(text: string)
    requires NoLineTerminator(text)
    ensures NoLineTerminator(CleanItemName(text))
  {
    CleanItemNameChars(text);
    var r := CleanItemName(text);
    forall q | 0 <= q < |r|
      ensures !IsLineTerminator(r[q])
    {
      assert r[q] in text;
    }
  }

  /** Deleting occurrences never introduces a character. */
  lemma {:induction false} RemoveAllKeepsChars(s: string, p: string)
    requires |p| > 0
    ensures forall c :: c in RemoveAll(s, p) ==> c in s
    decreases |s|
  {
    if |s| > 0 {
      if StartsWith(s, p) {
        RemoveAllKeepsChars(s[|p|..], p);
      } else {
        RemoveAllKeepsChars(s[1..], p);
      }
    }
  }

  /** The item a line contributes, if it matches the item pattern. */
  function ItemOf(line: string): Option<Item> {
    match MatchItemLine(line)
    case None => None
    case Some((checked, g)) => Some(Item(CleanItemName(g), checked))
  }

  /** The items of a file's lines, in line order. */
  function ItemsOf(lines: seq<string>): (r: seq<Item>)
    ensures |r| <= |lines|
  {
    if |lines| == 0 then [] else LineItems(lines[0]) + ItemsOf(lines[1..])
  }

  /** The items one line contributes: none, or the one it matches. */
  function LineItems(line: string): (r: seq<Item>)
    ensures |r| <= 1
  {
    match ItemOf(line)
    case None => []
    case Some(it) => [it]
  }

  /** Items keep file order: the items of consecutive blocks of lines are
      the concatenation of each block's items. */
  lemma {:induction false} ItemsOfAppend(a: seq<string>, b: seq<string>)
    ensures ItemsOf(a + b) == ItemsOf(a) + ItemsOf(b)
    decreases |a|
  {
    if |a| > 0 {
      assert (a + b)[0] == a[0];
      assert (a + b)[1..] == a[1..] + b;
      ItemsOfAppend(a[1..], b);
    } else {
      assert a + b == b;
    }
  }

  /** The `nextItem` loop: an unchecked item becomes the candidate while the
      current candidate is null or the empty string, both of which are falsy. */
  function NextItemFrom(acc: Option<string>, items: seq<Item>): Option<string>
    decreases |items|
  {
    if |items| == 0 then acc
    else
      var acc' := if (acc == None || acc == Some("")) && !items[0].completed
                  then Some(items[0].name) else acc;
      NextItemFrom(acc', items[1..])
  }

  function NextItem(items: seq<Item>): Option<string> {
    NextItemFrom(None, items)
  }

  /** An unchecked item whose name is not the empty string. */
  predicate NamedOpen(it: Item) {
    !it.completed && it.name != ""
  }

  /** The loop over a candidate that is already a non-empty name keeps it. */
  lemma {:induction false} NextItemKeepsNamed(x: string, items: seq<Item>)
    requires x != ""
    ensures NextItemFrom(Some(x), items) == Some(x)
    decreases |items|
  {
    if |items| > 0 {
      NextItemKeepsNamed(x, items[1..]);
    }
  }

  /** What the loop computes from a falsy candidate: the name of the first
      unchecked item with a non-empty name; failing that, the empty string
      if some item is unchecked; failing that, the candidate itself. */
  lemma {:induction false} NextItemFromFalsy(acc: Option<string>, items: seq<Item>)
    requires acc == None || acc == Some("")
    ensures forall i :: 0 <= i < |items| && NamedOpen(items[i])
                        && (forall j :: 0 <= j < i ==> !NamedOpen(items[j]))
                        ==> NextItemFrom(acc, items) == Some(items[i].name)
    ensures (forall i :: 0 <= i < |items| ==> !NamedOpen(items[i]))
            ==> NextItemFrom(acc, items)
                == if exists i :: 0 <= i < |items| && !items[i].completed then Some("") else acc
    decreases |items|
  {
    if |items| > 0 {
      var acc' := if !items[0].completed then Some(items[0].name) else acc;
      assert NextItemFrom(acc, items) == NextItemFrom(acc', items[1..]);
      if NamedOpen(items[0]) {
        NextItemKeepsNamed(items[0].name, items[1..]);
      } else {
        assert acc' == None || acc' == Some("");
        NextItemFromFalsy(acc', items[1..]);
        forall i | 1 <= i < |items| && NamedOpen(items[i])
                   && (forall j :: 0 <= j < i ==> !NamedOpen(items[j]))
          ensures NextItemFrom(acc, items) == Some(items[i].name)
        {
          assert items[1..][i - 1] == items[i];
          assert forall j :: 0 <= j < i - 1 ==> items[1..][j] == items[j + 1];
        }
        if forall i :: 0 <= i < |items| ==> !NamedOpen(items[i]) {
          assert forall i :: 0 <= i < |items| - 1 ==> items[1..][i] == items[i + 1];
          if !items[0].completed {
            assert acc' == Some("");
          } else if exists i :: 1 <= i < |items| && !items[i].completed {
            var i :| 1 <= i < |items| && !items[i].completed;
            assert !items[1..][i - 1].completed;
          } else {
            assert forall i :: 0 <= i < |items| - 1 ==> items[1..][i].completed;
          }
        }
      }
    }
  }

  /** `nextItem` is null exactly when no item is unchecked; when the first
      unchecked item has a non-empty name, it is that name. */
  lemma NextItemSpec(items: seq<Item>)
    ensures NextItem(items) == None <==> forall i :: 0 <= i < |items| ==> items[i].completed
    ensures forall i :: 0 <= i < |items| && !items[i].completed && items[i].name != ""
                        && (forall j :: 0 <= j < i ==> items[j].completed)
                        ==> NextItem(items) == Some(items[i].name)
  {
    NextItemFromFalsy(None, items);
    if exists i :: 0 <= i < |items| && NamedOpen(items[i]) {
      var i := FirstNamedOpen(items);
      assert NextItem(items) == Some(items[i].name);
    }
  }

  /** Index of the first unchecked item with a non-empty name. */
  lemma FirstNamedOpen(items: seq<Item>) returns (i: nat)
    requires exists i :: 0 <= i < |items| && NamedOpen(items[i])
    ensures i < |items| && NamedOpen(items[i])
    ensures forall j :: 0 <= j < i ==> !NamedOpen(items[j])
  {
    i := 0;
    while !NamedOpen(items[i])
      invariant i < |items|
      invariant forall j :: 0 <= j < i ==> !NamedOpen(items[j])
      invariant exists k :: i <= k < |items| && NamedOpen(items[k])
      decreases |items| - i
    {
      i := i + 1;
    }
  }

  /** `parseStatus` on the content of an existing file. The counts decide
      completion by whether an empty or a ticked box occurs at all, and
      `nextItem` follows the items the line scan collects. */
  function Parse(content: string): (r: Status)
    ensures r.present
    ensures r.completed == CountOccurrences(content, CheckedBox)
    ensures r.total == CountOccurrences(content, UncheckedBox) + CountOccurrences(content, CheckedBox)
    ensures r.completed <= r.total
    ensures r.completed == r.total <==> !Contains(content, UncheckedBox)
    ensures r.total == 0 <==> !Contains(content, UncheckedBox) && !Contains(content, CheckedBox)
    ensures r.isBoilerplate <==> exists i :: 0 <= i < |BoilerplateMarkers|
                                            && Contains(content, BoilerplateMarkers[i])
    ensures r.items == ItemsOf(Split(content, '\n'))
    ensures r.nextItem.None? <==> forall i :: 0 <= i < |r.items| ==> r.items[i].completed
    ensures forall i :: 0 <= i < |r.items| && NamedOpen(r.items[i])
                        && (forall j :: 0 <= j < i ==> !NamedOpen(r.items[j]))
                        ==> r.nextItem == Some(r.items[i].name)
  {
    var completed := CountOccurrences(content, CheckedBox);
    var total := CountOccurrences(content, UncheckedBox) + completed;
    var items := ItemsOf(Split(content, '\n'));
    CountZeroIffAbsent(content, UncheckedBox);
    CountZeroIffAbsent(content, CheckedBox);
    NextItemSpec(items);
    NextItemFromFalsy(None, items);
    Status(true, IsBoilerplate(content), completed, total, NextItem(items), items)
  }

  /** The counts and the items come from different patterns, so they can
      disagree on one line. A dash glued to its box is an item but no
      count. */
  lemma GluedDashIsItemNotCount()
    ensures ItemOf("-[ ] a").Some? && CountOccurrences("-[ ] a", UncheckedBox) == 0
  {
    GluedDashMatches();
    GluedDashNotCounted();
  }

  lemma GluedDashMatches()
    ensures MatchItemLine("-[ ] a").Some?
  {
    var line := "-[ ] a";
    var rest := line[4..];
    assert rest == " a";
    assert AllSpace(rest[..1]) && NoLineTerminator(rest[1..]);
    assert line[0] == '-' && line[1] == '[' && line[2] == ' ' && line[3] == ']';
    ItemLineFound(line, 0, 1);
  }

  lemma GluedDashNotCounted()
    ensures CountOccurrences("-[ ] a", UncheckedBox) == 0
  {
    var line := "-[ ] a";
    assert line[..5][1] != UncheckedBox[1];
    assert line[1..][..5][0] != UncheckedBox[0];
    assert |line[1..][1..]| < 5;
  }

  /** A bare box with nothing after it is a count but no item, since `(.+)`
      needs a character. */
  lemma BareBoxIsCountNotItem()
    ensures ItemOf(UncheckedBox).None? && CountOccurrences(UncheckedBox, UncheckedBox) == 1
  {
    assert UncheckedBox[..5] == UncheckedBox && UncheckedBox[5..] == "";
    OpenBoxLineTail(UncheckedBox);
    CountAtFront(UncheckedBox, "");
    assert UncheckedBox + "" == UncheckedBox;
  }

  /** A box line ending in a carriage return, as every line but the last of
      a CRLF file does, is a count but no item: `.` and `$` stop at the
      `\r`. */
  lemma CrLineIsCountNotItem()
    ensures ItemOf(UncheckedBox + " a\r").None? && CountOccurrences(UncheckedBox + " a\r", UncheckedBox) == 1
  {
    CrLineUnmatched();
    CountAtFront(UncheckedBox, " a\r");
    assert CountOccurrences(" a\r", UncheckedBox) == 0;
  }

  lemma CrLineUnmatched()
    ensures MatchItemLine(UncheckedBox + " a\r").None?
  {
    var line := UncheckedBox + " a\r";
    assert line[..5] == UncheckedBox && line[5..] == " a\r";
    CrTailUnmatched();
    OpenBoxLineTail(line);
  }

  /** A line that starts with an open box is an item exactly when what
      follows the box matches `\s*(.+)$`. */
  lemma OpenBoxLineTail(line: string)
    requires |line| >= 5 && line[..5] == UncheckedBox
    ensures MatchItemLine(line).None? <==> MatchTail(line[5..]).None?
  {
    assert line[0] == UncheckedBox[0] && line[1] == UncheckedBox[1] && line[2] == UncheckedBox[2];
    assert line[3] == UncheckedBox[3] && line[4] == UncheckedBox[4];
    assert SkipSpace(line, 0) == 0;
    assert SkipSpace(line, 2) == 2;
    assert SkipSpace(line, 1) == 2;
  }

  lemma CrTailUnmatched()
    ensures MatchTail(" a\r").None?
  {
    var rest := " a\r";
    forall k | 0 <= k < |rest| ensures !NoLineTerminator(rest[k..]) {
      assert rest[k..][2 - k] == '\r';
    }
    MatchTailIsRegex(rest);
  }

  /** Text lacking the letters `Y`, `D`, `R`, `F`, `A`, `U` and `V` holds
      none of the markers: each marker has one of them. */
  lemma NotBoilerplateWithout(s: string)
    requires 'Y' !in s && 'D' !in s && 'R' !in s && 'F' !in s
    requires 'A' !in s && 'U' !in s && 'V' !in s
    ensures !IsBoilerplate(s)
  {
    var m := BoilerplateMarkers;
    NotContainsMissingChar(s, m[0], 1);
    NotContainsMissingChar(s, m[1], 1);
    NotContainsMissingChar(s, m[2], 1);
    NotContainsMissingChar(s, m[3], 1);
    NotContainsMissingChar(s, m[4], 8);
    NotContainsMissingChar(s, m[5], 1);
    NotContainsMissingChar(s, m[6], 1);
    NotContainsMissingChar(s, m[7], 0);
    NotContainsMissingChar(s, m[8], 0);
  }
}

=== FILE: dashboard.dfy ===
/**
 * The dashboard's own decisions around the status report: the product
 * panel's button, the spec name a roadmap item proposes, which roadmap items
 * are still listed as planned, the "generate specs" banner, the empty state,
 * and the name the create-spec dialog posts.
 */
module Dashboard {
  import opened Wrappers
  import opened JsText
  import opened Checklist
  import opened ProjectModel
  import opened Recommender
  import opened Fs
  import opened Server
  import opened SpecApi

  /** A copy-prompt button: its caption, the prompt it copies, and whether it
      is drawn as the primary action. */
  datatype PromptButton = PromptButton(caption: string, prompt: string, primary: bool)

  const NextDesignLabel: string := "Next: Design System"
  const PlanProductLabel: string := "Plan Product"

  /** The product panel's button: once mission, roadmap and tech stack are
      settled it moves on to the design sync. */
  function ProductButton(st: ProjectState): PromptButton {
    var settled := Settled(st.product.mission) && Settled(st.product.roadmap) && Settled(st.product.techStack);
    if settled then PromptButton(NextDesignLabel, SyncPrompt, true)
    else PromptButton(PlanProductLabel, PlanPrompt, false)
  }

  /** While the next-step card is still on product planning or the design
      sync, the product button copies the same prompt as the card, and it is
      primary exactly when planning is done. */
  lemma ProductButtonAgreesWithCard(st: ProjectState)
    requires NextKind(st) == PlanProduct || NextKind(st) == SyncDesign
    ensures ProductButton(st).prompt == Card(NextKind(st)).prompt
    ensures ProductButton(st).primary <==> NextKind(st) == SyncDesign
    ensures ProductButton(st).caption == (if NextKind(st) == SyncDesign then NextDesignLabel else PlanProductLabel)
  {
    var k := NextKind(st);
    assert Card(k).prompt == Prompt(k);
    assert k == SyncDesign <==> ProductComplete(st);
  }

  /** The characters a proposed spec name keeps. */
  predicate SlugChar(c: char) {
    ('a' <= c <= 'z') || ('0' <= c <= '9') || c == '-'
  }

  /** What the first character of `s` turns into when white space runs are
      collapsed: a white-space character emits the run's hyphen only when the
      run ends with it, any other character is kept. */
  function CollapsedHead(s: string): (r: string)
    requires |s| > 0
  {
    if IsSpace(s[0]) then (if |s| > 1 && IsSpace(s[1]) then "" else "-") else [s[0]]
  }

  /** `.replace(/\s+/g, '-')`: every run of white space becomes one hyphen,
      emitted by the run's last character. */
  function CollapseSpace(s: string): (r: string)
    decreases |s|
  {
    if |s| == 0 then "" else CollapsedHead(s) + CollapseSpace(s[1..])
  }

  /** No white space survives collapsing. */
  lemma {:induction false} CollapseSpaceLeavesNoSpace(s: string)
    ensures forall i :: 0 <= i < |CollapseSpace(s)| ==> !IsSpace(CollapseSpace(s)[i])
    decreases |s|
  {
    if |s| > 0 {
      CollapseSpaceLeavesNoSpace(s[1..]);
      var h, t := CollapsedHead(s), CollapseSpace(s[1..]);
      assert forall i :: 0 <= i < |h| ==> !IsSpace(h[i]);
      assert forall i :: |h| <= i < |h + t| ==> (h + t)[i] == t[i - |h|];
    }
  }

  /** `.replace(/[^a-z0-9-]/g, '')`. */
  function KeepSlugChars(s: string): (r: string)
    ensures |r| <= |s|
    ensures forall i :: 0 <= i < |r| ==> SlugChar(r[i])
    decreases |s|
  {
    if |s| == 0 then ""
    else (if SlugChar(s[0]) then [s[0]] else "") + KeepSlugChars(s[1..])
  }

  /** The spec name the "Shape Spec" button of a planned item proposes. */
  function Slug(name: string): string {
    KeepSlugChars(CollapseSpace(ToLower(name)))
  }

  /** The key a roadmap item is matched against spec names with: the same
      as the slug, but trimmed before the white space is collapsed. */
  function MatchKey(name: string): string {
    KeepSlugChars(CollapseSpace(Trim(ToLower(name))))
  }

  /** A non-empty proposed name passes the delete handler's name check, so
      the spec it creates can be deleted again by name. */
  lemma SlugIsSpecName(name: string)
    requires Slug(name) != ""
    ensures ValidSpecName(Slug(name))
  {
  }

  lemma {:induction false} LowerSlugNoop(s: string)
    requires forall i :: 0 <= i < |s| ==> SlugChar(s[i])
    ensures ToLower(s) == s
    decreases |s|
  {
    if |s| > 0 {
      LowerSlugNoop(s[1..]);
      assert [s[0]] + s[1..] == s;
    }
  }

  lemma {:induction false} CollapseSpaceNoop(s: string)
    requires forall i :: 0 <= i < |s| ==> !IsSpace(s[i])
    ensures CollapseSpace(s) == s
    decreases |s|
  {
    if |s| > 0 {
      CollapseSpaceNoop(s[1..]);
      assert [s[0]] + s[1..] == s;
    }
  }

  lemma {:induction false} KeepSlugCharsNoop(s: string)
    requires forall i :: 0 <= i < |s| ==> SlugChar(s[i])
    ensures KeepSlugChars(s) == s
    decreases |s|
  {
    if |s| > 0 {
      KeepSlugCharsNoop(s[1..]);
      assert [s[0]] + s[1..] == s;
    }
  }

  /** Proposing a name for a proposed name gives it back unchanged. */
  lemma SlugIdempotent(name: string)
    ensures Slug(Slug(name)) == Slug(name)
  {
    var s := Slug(name);
    LowerSlugNoop(s);
    CollapseSpaceNoop(s);
    KeepSlugCharsNoop(s);
  }

  lemma {:induction false} KeepSlugCharsAppend(a: string, b: string)
    ensures KeepSlugChars(a + b) == KeepSlugChars(a) + KeepSlugChars(b)
    decreases |a|
  {
    if |a| == 0 {
      assert a + b == b;
    } else {
      assert (a + b)[1..] == a[1..] + b;
      KeepSlugCharsAppend(a[1..], b);
    }
  }

  /** A cut that does not split a run of white space leaves the first
      character's contribution unchanged. */
  lemma CollapsedHeadAppend(a: string, b: string)
    requires |a| > 0
    requires |b| == 0 || !IsSpace(a[|a| - 1]) || !IsSpace(b[0])
    ensures CollapsedHead(a + b) == CollapsedHead(a)
  {
    assert (a + b)[0] == a[0];
    if |a| > 1 {
      assert (a + b)[1] == a[1];
    } else if |b| > 0 {
      assert (a + b)[1] == b[0];
    } else {
      assert a + b == a;
    }
  }

  /** Collapsing distributes over a cut that does not split a run of white
      space. */
  lemma {:induction false} CollapseSpaceAppend(a: string, b: string)
    requires |a| == 0 || |b| == 0 || !IsSpace(a[|a| - 1]) || !IsSpace(b[0])
    ensures CollapseSpace(a + b) == CollapseSpace(a) + CollapseSpace(b)
    decreases |a|
  {
    if |a| == 0 {
      assert a + b == b;
    } else {
      CollapsedHeadAppend(a, b);
      assert (a + b)[1..] == a[1..] + b;
      if |a| == 1 {
        assert a[1..] + b == b;
      }
      CollapseSpaceAppend(a[1..], b);
      assert CollapseSpace(a + b) == CollapsedHead(a) + CollapseSpace(a[1..] + b);
    }
  }

  /** White space around a core that starts and ends with other text
      collapses independently of the core. */
  lemma CollapseAroundCore(lead: string, core: string, trail: string)
    requires |core| > 0 && !IsSpace(core[0]) && !IsSpace(core[|core| - 1])
    ensures CollapseSpace(lead + core + trail)
            == CollapseSpace(lead) + CollapseSpace(core) + CollapseSpace(trail)
  {
    assert lead + core + trail == lead + (core + trail);
    assert (core + trail)[0] == core[0];
    CollapseSpaceAppend(lead, core + trail);
    CollapseSpaceAppend(core, trail);
  }

  /** Keeping slug characters distributes over a three-way cut. */
  lemma KeepSlugCharsAppend3(a: string, b: string, c: string)
    ensures KeepSlugChars(a + b + c) == KeepSlugChars(a) + KeepSlugChars(b) + KeepSlugChars(c)
  {
    assert a + b + c == a + (b + c);
    KeepSlugCharsAppend(a, b + c);
    KeepSlugCharsAppend(b, c);
  }

  /** Cleaning distributes over white space around such a core. */
  lemma CleanAroundCore(lead: string, core: string, trail: string)
    requires |core| > 0 && !IsSpace(core[0]) && !IsSpace(core[|core| - 1])
    ensures KeepSlugChars(CollapseSpace(lead + core + trail))
            == KeepSlugChars(CollapseSpace(lead)) + KeepSlugChars(CollapseSpace(core))
               + KeepSlugChars(CollapseSpace(trail))
  {
    CollapseAroundCore(lead, core, trail);
    KeepSlugCharsAppend3(CollapseSpace(lead), CollapseSpace(core), CollapseSpace(trail));
  }

  /** Cleaning a trimmed string gives a piece of the cleaned string. */
  lemma TrimmedCleanInside(x: string) returns (pre: string, post: string)
    ensures KeepSlugChars(CollapseSpace(x)) == pre + KeepSlugChars(CollapseSpace(Trim(x))) + post
  {
    var lead, trail := TrimSplits(x);
    var core := Trim(x);
    if |core| == 0 {
      pre, post := KeepSlugChars(CollapseSpace(x)), "";
      assert KeepSlugChars(CollapseSpace(core)) == "";
    } else {
      CleanAroundCore(lead, core, trail);
      pre, post := KeepSlugChars(CollapseSpace(lead)), KeepSlugChars(CollapseSpace(trail));
    }
  }

  /** The match key sits inside the proposed name: the slug differs from it
      at most by what the surrounding white space became. */
  lemma KeyInSlug(name: string) returns (pre: string, post: string)
    ensures Slug(name) == pre + MatchKey(name) + post
  {
    pre, post := TrimmedCleanInside(ToLower(name));
  }

  /** Some spec's lower-cased name contains the item's key. */
  predicate Covered(specs: seq<Spec>, item: Item) {
    exists k :: 0 <= k < |specs| && Contains(ToLower(specs[k].name), MatchKey(item.name))
  }

  /** The items the banner counts: open items of a filled-in roadmap. */
  function OpenItems(items: seq<Item>, boilerplate: bool): (r: seq<Item>)
    ensures |r| <= |items|
    ensures forall x :: x in r <==> x in items && !x.completed && !boilerplate
    decreases |items|
  {
    if |items| == 0 then []
    else (if !items[0].completed && !boilerplate then [items[0]] else []) + OpenItems(items[1..], boilerplate)
  }

  /** The items listed as planned: open, on a filled-in roadmap, and not yet
      covered by a spec. */
  function PlannedItems(items: seq<Item>, boilerplate: bool, specs: seq<Spec>): (r: seq<Item>)
    ensures |r| <= |items|
    ensures forall x :: x in r <==> x in items && !x.completed && !boilerplate && !Covered(specs, x)
    decreases |items|
  {
    if |items| == 0 then []
    else
      var keep := !items[0].completed && !boilerplate && !Covered(specs, items[0]);
      (if keep then [items[0]] else []) + PlannedItems(items[1..], boilerplate, specs)
  }

  /** Filtering keeps order and repeats: the banner's list of a
      concatenation is the lists of its parts, one after the other. */
  lemma {:induction false} OpenItemsAppend(a: seq<Item>, b: seq<Item>, boilerplate: bool)
    ensures OpenItems(a + b, boilerplate) == OpenItems(a, boilerplate) + OpenItems(b, boilerplate)
    decreases |a|
  {
    if |a| > 0 {
      assert (a + b)[0] == a[0] && (a + b)[1..] == a[1..] + b;
      OpenItemsAppend(a[1..], b, boilerplate);
    } else {
      assert a + b == b;
    }
  }

  /** The same for the planned list: it is the roadmap filtered in place. */
  lemma {:induction false} PlannedItemsAppend(a: seq<Item>, b: seq<Item>, boilerplate: bool, specs: seq<Spec>)
    ensures PlannedItems(a + b, boilerplate, specs)
            == PlannedItems(a, boilerplate, specs) + PlannedItems(b, boilerplate, specs)
    decreases |a|
  {
    if |a| > 0 {
      assert (a + b)[1..] == a[1..] + b;
      PlannedItemsAppend(a[1..], b, boilerplate, specs);
    } else {
      assert a + b == b;
    }
  }

  /** One item is listed exactly when it is open, the roadmap is filled in
      and no spec covers it. */
  lemma PlannedItemsSingle(x: Item, boilerplate: bool, specs: seq<Spec>)
    ensures PlannedItems([x], boilerplate, specs)
            == if !x.completed && !boilerplate && !Covered(specs, x) then [x] else []
  {
    assert [x][1..] == [];
  }

  function PendingRoadmap(st: ProjectState): seq<Item> {
    PlannedItems(st.product.roadmap.items, st.product.roadmap.isBoilerplate, st.specs)
  }

  /** The "Ready to generate specs from roadmap items?" banner. */
  predicate ShowBanner(st: ProjectState) {
    |OpenItems(st.product.roadmap.items, st.product.roadmap.isBoilerplate)| > 0 && |st.specs| == 0
  }

  /** The "No specs found yet." placeholder. */
  predicate ShowEmptyState(st: ProjectState) {
    |st.specs| == 0 && (|st.product.roadmap.items| == 0 || st.product.roadmap.isBoilerplate)
  }

  /** The banner shows exactly when there is no spec yet, the roadmap is
      filled in, and some roadmap item is still open. */
  lemma BannerCondition(st: ProjectState)
    ensures ShowBanner(st) <==> && |st.specs| == 0
                                && !st.product.roadmap.isBoilerplate
                                && exists i :: 0 <= i < |st.product.roadmap.items| && !st.product.roadmap.items[i].completed
  {
    var items := st.product.roadmap.items;
    var open := OpenItems(items, st.product.roadmap.isBoilerplate);
    if |open| > 0 {
      assert open[0] in open;
    }
    if exists i :: 0 <= i < |items| && !items[i].completed {
      var i :| 0 <= i < |items| && !items[i].completed;
      assert items[i] in items;
      if !st.product.roadmap.isBoilerplate {
        assert items[i] in open;
      }
    }
  }

  /** The banner and the placeholder never show together. */
  lemma BannerExcludesEmptyState(st: ProjectState)
    ensures !(ShowBanner(st) && ShowEmptyState(st))
  {
    var open := OpenItems(st.product.roadmap.items, st.product.roadmap.isBoilerplate);
    if |open| > 0 {
      assert open[0] in open;
    }
  }

  /** Without specs nothing is covered, so the planned list is exactly the
      open items the banner counts. */
  lemma {:induction false} NoSpecsPlannedIsOpen(items: seq<Item>, boilerplate: bool)
    ensures PlannedItems(items, boilerplate, []) == OpenItems(items, boilerplate)
    decreases |items|
  {
    if |items| > 0 {
      NoSpecsPlannedIsOpen(items[1..], boilerplate);
    }
  }

  /** A boilerplate roadmap lists nothing. */
  lemma {:induction false} BoilerplateListsNothing(items: seq<Item>, specs: seq<Spec>)
    ensures PlannedItems(items, true, specs) == [] && OpenItems(items, true) == []
    decreases |items|
  {
    if |items| > 0 {
      BoilerplateListsNothing(items[1..], specs);
    }
  }

  /** ... and so raises no banner. */
  lemma BoilerplateRoadmapListsNothing(st: ProjectState)
    requires st.product.roadmap.isBoilerplate
    ensures PendingRoadmap(st) == [] && !ShowBanner(st)
  {
    BoilerplateListsNothing(st.product.roadmap.items, st.specs);
  }

  /** An item whose key is empty matches every name, so it disappears from
      the planned list as soon as any spec exists. */
  lemma EmptyKeyIsAlwaysCovered(st: ProjectState, item: Item)
    requires |st.specs| > 0 && MatchKey(item.name) == ""
    ensures item !in PendingRoadmap(st)
  {
    ContainsEmpty(ToLower(st.specs[0].name));
  }

  /** Shaping a planned item under the proposed name takes it off the
      planned list. */
  lemma ShapedItemLeavesPlanned(st: ProjectState, item: Item, k: nat)
    requires k < |st.specs| && st.specs[k].name == Slug(item.name)
    ensures item !in PendingRoadmap(st)
  {
    var pre, post := KeyInSlug(item.name);
    ContainsMiddle(pre, MatchKey(item.name), post);
    LowerSlugNoop(Slug(item.name));
    assert Contains(ToLower(st.specs[k].name), MatchKey(item.name));
  }

  /** What the create-spec dialog posts: the trimmed input, or nothing when
      only white space was typed (the button is disabled and Enter does
      nothing). */
  function PostedSpecName(input: string): (r: Option<string>)
    ensures r.None? <==> AllSpace(input)
    ensures r.Some? ==> r.value == Trim(input) && r.value != ""
  {
    TrimEmptyIffAllSpace(input);
    var name := Trim(input);
    if name != "" then Some(name) else None
  }

  /** The posted name has no white space at either end, so posting it again
      would send the same name. */
  lemma PostedNameIsTrimmed(input: string)
    requires !AllSpace(input)
    ensures var name := PostedSpecName(input).value;
            !IsSpace(name[0]) && !IsSpace(name[|name| - 1]) && PostedSpecName(name) == Some(name)
  {
    TrimIdempotent(input);
    TrimEmptyIffAllSpace(Trim(input));
  }

  /** The dialog never trips the create handler's missing-name check. */
  lemma PostedNameNeverMissing(cfg: Config, fs: FileSystem, input: string)
    requires !AllSpace(input)
    ensures CreateSpec(cfg, fs, PostedSpecName(input)).0 != BadRequest(SpecNameRequired)
  {
    NamedCreateNotMissing(cfg, fs, PostedSpecName(input).value);
  }
}

=== FILE: fileapi.dfy ===
/**
 * `GET /api/files` and `POST /api/files`: read or overwrite a file named by
 * a path relative to the agent-os directory. The path is normalised, any
 * leading run of `..` components is stripped, the rest is joined onto the
 * agent-os directory, and the result must still start with that directory's
 * path string.
 */
module FileApi {
  import opened Wrappers
  import opened JsText
  import opened NodePath
  import opened Fs
  import opened Server

  /** The path the handlers touch for a caller-supplied `p`. */
  function Target(cfg: Config, p: string): Normal {
    JoinPath(AgentNormal(cfg), StripTraversal(Render(Normalize(p))))
  }

  /** The handlers' prefix check on the joined path. */
  predicate Inside(cfg: Config, p: string) {
    StartsWith(Render(Target(cfg, p)), AgentDirString(cfg))
  }

  /** The read handler; `path` is the `path` query parameter. */
  function GetFile(cfg: Config, fs: FileSystem, path: Option<string>): (r: Outcome<string>)
    ensures path == None || path == Some("") ==> r == BadRequest(FilePathRequired)
    ensures r.Success? ==>
              && path.Some?
              && IsFile(fs, Target(cfg, path.value).segs)
              && r.value == fs.files[Target(cfg, path.value).segs]
    ensures r.Success? ==> NulFree(Target(cfg, path.value).segs)
    ensures r.NotFound? ==>
              && r.message == FileNotFound
              && (!NulFree(Target(cfg, path.value).segs) || !ExistsSync(fs, Target(cfg, path.value)))
    ensures r.ServerError? ==> IsDir(fs, Target(cfg, path.value).segs)
  {
    if path.None? || path.value == "" then BadRequest(FilePathRequired)
    else
      var target := Target(cfg, path.value);
      if !StartsWith(Render(target), AgentDirString(cfg)) then Forbidden(AccessDenied)
      // `existsSync` answers false for a path holding U+0000.
      else if !NulFree(target.segs) || !ExistsSync(fs, target) then NotFound(FileNotFound)
      else
        match ReadFile(fs, target)
        case Ok(content) => Success(content)
        case Err(e) => ServerError(e)
  }

  /** The write handler; `content` is `None` when the body has no
      `content` field. */
  function PutFile(cfg: Config, fs: FileSystem, path: Option<string>, content: Option<string>)
    : (r: (Outcome<bool>, FileSystem))
    ensures path == None || path == Some("") || content == None
            ==> r == (BadRequest(PathAndContentRequired), fs)
    ensures r.0.Success? ==>
              && path.Some? && content.Some?
              && NulFree(Target(cfg, path.value).segs)
              && r.1.files == fs.files[Target(cfg, path.value).segs := content.value]
              && r.1.dirs == fs.dirs
    ensures path.Some? && path.value != "" && content.Some? && Inside(cfg, path.value)
            && !NulFree(Target(cfg, path.value).segs)
            ==> r == (ServerError(InvalidArgument), fs)
    ensures !r.0.Success? ==> r.1 == fs
  {
    if path.None? || path.value == "" || content.None? then (BadRequest(PathAndContentRequired), fs)
    else
      var target := Target(cfg, path.value);
      if !StartsWith(Render(target), AgentDirString(cfg)) then (Forbidden(AccessDenied), fs)
      // `writeFileSync` throws inside the handler's `try`.
      else if !NulFree(target.segs) then (ServerError(InvalidArgument), fs)
      else
        match WriteFile(fs, target, content.value)
        case Ok(fs') => (Success(true), fs')
        case Err(e) => (ServerError(e), fs)
  }

  /** Whatever the caller sends, the touched path lies inside the agent-os
      directory: the traversal strip and the join already confine it. */
  lemma TargetConfined(cfg: Config, p: string)
    requires ValidConfig(cfg)
    ensures |Target(cfg, p).segs| >= |AgentDir(cfg)|
    ensures Target(cfg, p).segs[..|AgentDir(cfg)|] == AgentDir(cfg)
    ensures Inside(cfg, p)
  {
    var a := AgentDir(cfg);
    AgentDirPlain(cfg);
    var rel := StripTraversal(Render(Normalize(p)));
    StrippedHasNoParent(p);
    JoinBelow(a, rel);
    var t := Target(cfg, p);
    assert t.segs == a + t.segs[|a|..];
    RenderPrefix(a, t.segs[|a|..], t.trailing);
  }

  /** Hence neither handler ever answers 403. */
  lemma NeverForbidden(cfg: Config, fs: FileSystem, path: Option<string>, content: Option<string>)
    requires ValidConfig(cfg)
    ensures !GetFile(cfg, fs, path).Forbidden?
    ensures !PutFile(cfg, fs, path, content).0.Forbidden?
  {
    if path.Some? {
      TargetConfined(cfg, path.value);
    }
  }

  /** A path that is one plain name not starting with `.` lands directly
      in the agent-os directory. */
  lemma PlainNameTarget(cfg: Config, name: string)
    requires ValidConfig(cfg) && PlainSegment(name) && name[0] != '.'
    ensures Target(cfg, name) == Normal(true, AgentDir(cfg) + [name], false)
  {
    SplitNoSeparator(name, '/');
    ResolvePlain([], [name], false);
    assert name[|name| - 1] in name;
    assert Normalize(name) == Normal(false, [name], false);
    assert Join([name], '/') == name;
    assert "" + name + "" == name;
    var rendered := Render(Normalize(name));
    assert rendered == name;
    assert StripTraversal(rendered) == name;
    AgentDirPlain(cfg);
    JoinPlainNames(AgentDir(cfg), [name]);
  }

  /** Node refuses a path holding U+0000 before any I/O: the write handler
      answers 500 and the read handler 404, and nothing changes. */
  lemma NulPathRefused(cfg: Config, fs: FileSystem, name: string, content: string)
    requires ValidConfig(cfg) && PlainSegment(name) && name[0] != '.' && '\0' in name
    ensures PutFile(cfg, fs, Some(name), Some(content)) == (ServerError(InvalidArgument), fs)
    ensures GetFile(cfg, fs, Some(name)) == NotFound(FileNotFound)
  {
    PlainNameTarget(cfg, name);
    TargetConfined(cfg, name);
    var segs := AgentDir(cfg) + [name];
    assert segs[|segs| - 1] == name;
  }

  /** What the read handler answers, case by case, once the prefix check is
      known to pass. */
  lemma GetFileCases(cfg: Config, fs: FileSystem, p: string)
    requires ValidConfig(cfg) && p != ""
    ensures var t := Target(cfg, p);
            var r := GetFile(cfg, fs, Some(p));
            && (r.Success? <==> NulFree(t.segs) && IsFile(fs, t.segs) && !IsDir(fs, t.segs) && !t.trailing)
            && (r.NotFound? <==> !NulFree(t.segs) || !ExistsSync(fs, t))
  {
    TargetConfined(cfg, p);
  }

  /** A successful write is read back unchanged. */
  lemma PutThenGet(cfg: Config, fs: FileSystem, p: string, content: string)
    requires PutFile(cfg, fs, Some(p), Some(content)).0.Success?
    ensures GetFile(cfg, PutFile(cfg, fs, Some(p), Some(content)).1, Some(p)) == Success(content)
  {
    var t := Target(cfg, p);
    assert !IsDir(fs, t.segs) && !t.trailing;
  }

  /** Writing the content a file already has changes nothing. */
  lemma PutSameContentIsNoop(cfg: Config, fs: FileSystem, p: string)
    requires WellFormed(fs)
    requires GetFile(cfg, fs, Some(p)).Success?
    ensures var content := GetFile(cfg, fs, Some(p)).value;
            PutFile(cfg, fs, Some(p), Some(content)) == (Success(true), fs)
  {
    var t := Target(cfg, p);
    assert fs.files[t.segs := fs.files[t.segs]] == fs.files;
  }
}

=== FILE: fs.dfy ===
/**
 * The filesystem the backend sees, as a value: regular files by absolute
 * segment path with their text, and the set of directories. The root (the
 * empty path) is always a directory. The operations mirror the synchronous
 * Node calls the backend makes, with their POSIX failure cases.
 */
module Fs {
  import opened Wrappers
  import opened NodePath

  type Path = seq<string>

  datatype FileSystem = FileSystem(files: map<Path, string>, dirs: set<Path>)

  /** The failures the modelled calls can raise: ENOENT, ENOTDIR, EISDIR,
      EEXIST, and ERR_INVALID_ARG_VALUE for a path holding U+0000. */
  datatype IoError = NoEntry | NotDirectory | IsDirectory | AlreadyExists | InvalidArgument

  /** Node checks a path argument before any I/O: a path string holding
      U+0000 makes `existsSync` answer false and every other call throw
      `ERR_INVALID_ARG_VALUE`. The separators are `/`, so the string holds
      U+0000 exactly when one of its segments does. */
  predicate NulFree(p: Path) {
    forall i :: 0 <= i < |p| ==> '\0' !in p[i]
  }

  predicate IsDir(fs: FileSystem, p: Path) { p == [] || p in fs.dirs }
  predicate IsFile(fs: FileSystem, p: Path) { p in fs.files }
  predicate Exists(fs: FileSystem, p: Path) { IsDir(fs, p) || IsFile(fs, p) }

  function Parent(p: Path): Path
    requires |p| > 0
  {
    p[..|p| - 1]
  }

  /** Every entry sits in an existing directory, and no path is both a file
      and a directory. */
  ghost predicate WellFormed(fs: FileSystem) {
    && (forall p :: p in fs.files ==> |p| > 0 && p !in fs.dirs && IsDir(fs, Parent(p)))
    && (forall p :: p in fs.dirs ==> |p| > 0 && IsDir(fs, Parent(p)))
  }

  /** `fs.existsSync(path)`: a path written with a trailing `/` names only
      a directory (stat of `file/` fails with ENOTDIR). */
  predicate ExistsSync(fs: FileSystem, n: Normal) {
    if n.trailing then IsDir(fs, n.segs) else Exists(fs, n.segs)
  }

  /** `fs.readFileSync(path, 'utf-8')`. */
  function ReadFile(fs: FileSystem, n: Normal): (r: Result<string, IoError>)
    ensures r.Ok? <==> IsFile(fs, n.segs) && !IsDir(fs, n.segs) && !n.trailing
    ensures r.Ok? ==> r.value == fs.files[n.segs]
    ensures IsDir(fs, n.segs) ==> r == Err(IsDirectory)
  {
    if IsDir(fs, n.segs) then Err(IsDirectory)
    else if IsFile(fs, n.segs) then (if n.trailing then Err(NotDirectory) else Ok(fs.files[n.segs]))
    else Err(NoEntry)
  }

  /** `fs.writeFileSync(path, content)`: creates or overwrites a regular file
      whose parent directory exists. */
  function WriteFile(fs: FileSystem, n: Normal, content: string): (r: Result<FileSystem, IoError>)
    ensures r.Ok? <==> !IsDir(fs, n.segs) && !n.trailing && IsDir(fs, Parent(n.segs))
    ensures r.Ok? ==> r.value.files == fs.files[n.segs := content] && r.value.dirs == fs.dirs
  {
    if IsDir(fs, n.segs) then Err(IsDirectory)
    else if n.trailing then (if IsFile(fs, n.segs) then Err(NotDirectory) else Err(IsDirectory))
    else if IsDir(fs, Parent(n.segs)) then Ok(fs.(files := fs.files[n.segs := content]))
    else if Exists(fs, Parent(n.segs)) then Err(NotDirectory)
    else Err(NoEntry)
  }

  /** Every non-empty prefix of `p`, that is `p` and its ancestors below the root. */
  function Prefixes(p: Path): set<Path> {
    set k | 1 <= k <= |p| :: p[..k]
  }

  /** `fs.mkdirSync(path, { recursive: true })`: fails when `p` or one of
      its ancestors is a regular file, and otherwise creates every missing
      directory along `p`. */
  function MakeDirs(fs: FileSystem, p: Path): (r: Result<FileSystem, IoError>)
    ensures r.Ok? <==> forall k :: 1 <= k <= |p| ==> p[..k] !in fs.files
    ensures r.Ok? ==> r.value.files == fs.files && r.value.dirs == fs.dirs + Prefixes(p)
  {
    if exists k :: 1 <= k <= |p| && p[..k] in fs.files then
      (if p in fs.files then Err(AlreadyExists) else Err(NotDirectory))
    else Ok(fs.(dirs := fs.dirs + Prefixes(p)))
  }

  /** `fs.rmSync(path, { recursive: true, force: true })`: the entry at `p`
      and everything below it disappear. */
  function RemoveTree(fs: FileSystem, p: Path): (r: FileSystem)
    ensures forall q :: q in r.files <==> q in fs.files && !(p <= q)
    ensures forall q :: q in r.files ==> r.files[q] == fs.files[q]
    ensures forall q :: q in r.dirs <==> q in fs.dirs && !(p <= q)
  {
    FileSystem(map q | q in fs.files && !(p <= q) :: fs.files[q],
               set q | q in fs.dirs && !(p <= q))
  }

  lemma WriteFileWellFormed(fs: FileSystem, n: Normal, content: string)
    requires WellFormed(fs) && WriteFile(fs, n, content).Ok?
    ensures WellFormed(WriteFile(fs, n, content).value)
  {
  }

  lemma MakeDirsWellFormed(fs: FileSystem, p: Path)
    requires WellFormed(fs) && MakeDirs(fs, p).Ok?
    ensures WellFormed(MakeDirs(fs, p).value)
  {
    var r := MakeDirs(fs, p).value;
    forall q | q in r.dirs ensures |q| > 0 && IsDir(r, Parent(q)) {
      if q !in fs.dirs {
        var k :| 1 <= k <= |p| && q == p[..k];
        if k > 1 {
          assert Parent(q) == p[..k - 1];
        }
      }
    }
    forall q | q in r.files ensures q !in r.dirs {
      assert forall k :: 1 <= k <= |p| ==> p[..k] != q;
    }
  }

  lemma RemoveTreeWellFormed(fs: FileSystem, p: Path)
    requires WellFormed(fs)
    ensures WellFormed(RemoveTree(fs, p))
  {
    var r := RemoveTree(fs, p);
    forall q | q in r.dirs || q in r.files ensures |q| > 0 && IsDir(r, Parent(q)) {
      if |p| <= |Parent(q)| {
        assert q[..|p|] == Parent(q)[..|p|];
      }
    }
  }

  /** In a well-formed filesystem nothing lies below a path that does not
      exist. */
  lemma {:induction false} NothingBelowMissing(fs: FileSystem, p: Path, q: Path)
    requires WellFormed(fs) && !Exists(fs, p) && p <= q
    ensures !Exists(fs, q)
    decreases |q|
  {
    if |q| > |p| {
      assert p <= Parent(q) by { assert Parent(q)[..|p|] == q[..|p|]; }
      NothingBelowMissing(fs, p, Parent(q));
    } else {
      assert q == p;
    }
  }

  /** A path `existsSync` denies and `mkdirSync` can create holds nothing:
      with a trailing `/` it is no directory, and the creation rules out a
      file there. */
  lemma MissingBeforeMakeDirs(fs: FileSystem, n: Normal)
    requires !ExistsSync(fs, n) && MakeDirs(fs, n.segs).Ok?
    ensures !Exists(fs, n.segs)
  {
    assert |n.segs| > 0;
    assert n.segs[..|n.segs|] == n.segs;
  }

  /** A child of a missing directory is no directory, even after the
      directory and its ancestors are created. */
  lemma NewChildIsNoDir(fs: FileSystem, dir: Path, f: string)
    requires WellFormed(fs) && !Exists(fs, dir)
    ensures dir + [f] !in fs.dirs + Prefixes(dir)
    ensures dir + [f] !in fs.files
  {
    NothingBelowMissing(fs, dir, dir + [f]);
    assert forall q :: q in Prefixes(dir) ==> |q| <= |dir|;
  }

  /** Removing the tree at `dir` undoes any change confined to that tree,
      when nothing existed there before. */
  lemma RemoveTreeRestores(fs: FileSystem, fs': FileSystem, dir: Path)
    requires WellFormed(fs) && !Exists(fs, dir)
    requires forall q :: q in fs.files ==> q in fs'.files && fs'.files[q] == fs.files[q]
    requires forall q :: q in fs'.files && !(dir <= q) ==> q in fs.files
    requires fs.dirs <= fs'.dirs
    requires forall q :: q in fs'.dirs && !(dir <= q) ==> q in fs.dirs
    ensures RemoveTree(fs', dir) == fs
  {
    var back := RemoveTree(fs', dir);
    forall q | dir <= q ensures q !in fs.files && q !in fs.dirs {
      NothingBelowMissing(fs, dir, q);
    }
    assert back.files.Keys == fs.files.Keys;
    assert back.files == fs.files;
    assert back.dirs == fs.dirs;
  }
}

=== FILE: jstext.dfy ===
/**
 * The JavaScript string primitives the control center relies on: the `\s`
 * character class and `trim`, `includes`, `startsWith`, `split`, global
 * `match`/`replace` with a literal pattern, and `toLowerCase`. Strings are
 * sequences of characters; every function here is total.
 */
module JsText {
  import opened Wrappers

  /** JavaScript's white space: what `\s` matches and what `trim` removes
      (WhiteSpace and LineTerminator of ECMA-262). */
  predicate IsSpace(c: char) {
    || c == '\t' || c == '\n' || c == '\U{000B}' || c == '\U{000C}' || c == '\r'
    || c == ' ' || c == '\U{00A0}' || c == '\U{1680}'
    || ('\U{2000}' <= c <= '\U{200A}')
    || c == '\U{2028}' || c == '\U{2029}' || c == '\U{202F}' || c == '\U{205F}'
    || c == '\U{3000}' || c == '\U{FEFF}'
  }

  /** The characters a regular-expression `.` does not match (no `s` flag). */
  predicate IsLineTerminator(c: char) {
    c == '\n' || c == '\r' || c == '\U{2028}' || c == '\U{2029}'
  }

  /** `\d`: an ASCII decimal digit. */
  predicate IsDigit(c: char) {
    '0' <= c <= '9'
  }

  predicate AllSpace(s: string) {
    forall i :: 0 <= i < |s| ==> IsSpace(s[i])
  }

  predicate NoLineTerminator(s: string) {
    forall i :: 0 <= i < |s| ==> !IsLineTerminator(s[i])
  }

  lemma LineTerminatorIsSpace(c: char)
    ensures IsLineTerminator(c) ==> IsSpace(c)
  {
  }

  /** `s.trimStart()`: drops the longest all-space prefix. */
  function TrimStart(s: string): (r: string)
    ensures |r| <= |s| && r == s[|s| - |r|..]
    ensures |r| == 0 || !IsSpace(r[0])
  {
    if |s| > 0 && IsSpace(s[0]) then TrimStart(s[1..]) else s
  }

  /** `s.trimEnd()`: drops the longest all-space suffix. */
  function TrimEnd(s: string): (r: string)
    ensures |r| <= |s| && r == s[..|r|]
    ensures |r| == 0 || !IsSpace(r[|r| - 1])
  {
    if |s| > 0 && IsSpace(s[|s| - 1]) then TrimEnd(s[..|s| - 1]) else s
  }

  /** What `trimStart` drops is white space. */
  lemma {:induction false} TrimStartDropsSpace(s: string)
    ensures AllSpace(s[..|s| - |TrimStart(s)|])
    decreases |s|
  {
    if |s| > 0 && IsSpace(s[0]) {
      TrimStartDropsSpace(s[1..]);
      var k := |s| - |TrimStart(s)|;
      assert forall i :: 1 <= i < k ==> s[..k][i] == s[1..][..k - 1][i - 1];
    }
  }

  /** What `trimEnd` drops is white space. */
  lemma {:induction false} TrimEndDropsSpace(s: string)
    ensures AllSpace(s[|TrimEnd(s)|..])
    decreases |s|
  {
    if |s| > 0 && IsSpace(s[|s| - 1]) {
      var p := s[..|s| - 1];
      TrimEndDropsSpace(p);
      var k := |TrimEnd(s)|;
      assert forall i :: 0 <= i < |s| - 1 - k ==> s[k..][i] == p[k..][i];
    }
  }

  /** `s.trim()`. */
  function Trim(s: string): string {
    TrimEnd(TrimStart(s))
  }

  /** Trimming keeps a contiguous piece `s[i..j]` of the input, removes only
      white space, and leaves no white space at either end. */
  lemma TrimIsCore(s: string) returns (i: nat, j: nat)
    ensures i <= j <= |s| && Trim(s) == s[i..j]
    ensures AllSpace(s[..i]) && AllSpace(s[j..])
    ensures |Trim(s)| == 0 || (!IsSpace(Trim(s)[0]) && !IsSpace(Trim(s)[|Trim(s)| - 1]))
  {
    var a := TrimStart(s);
    var t := TrimEnd(a);
    TrimStartDropsSpace(s);
    TrimEndDropsSpace(a);
    i := |s| - |a|;
    j := i + |t|;
    assert t == a[..|t|];
    assert s[j..] == a[|t|..];
    if |t| > 0 {
      assert t[0] == a[0];
    }
  }

  lemma AllSpaceConcat(x: string, y: string)
    requires AllSpace(x) && AllSpace(y)
    ensures AllSpace(x + y)
  {
    assert forall i :: |x| <= i < |x + y| ==> (x + y)[i] == y[i - |x|];
  }

  lemma AllSpaceSuffix(s: string, k: nat)
    requires AllSpace(s) && k <= |s|
    ensures AllSpace(s[k..])
  {
    assert forall i :: 0 <= i < |s| - k ==> s[k..][i] == s[k + i];
  }

  /** A white-space prefix ends at or before any other character. */
  lemma SpacePrefixEndsBefore(s: string, k: nat, i: nat)
    requires k <= |s| && AllSpace(s[..k]) && i < |s| && !IsSpace(s[i])
    ensures k <= i
  {
    forall j | 0 <= j < k
      ensures IsSpace(s[j])
    {
      assert s[..k][j] == s[j];
    }
  }

  /** `trim` leaves nothing exactly when the string is all white space. */
  lemma TrimEmptyIffAllSpace(s: string)
    ensures Trim(s) == "" <==> AllSpace(s)
  {
    var a := TrimStart(s);
    var k := |s| - |a|;
    TrimStartSplits(s);
    if AllSpace(s) {
      AllSpaceSuffix(s, k);
    }
    if Trim(s) == "" {
      TrimStartDropsSpace(s);
      TrimEndDropsSpace(a);
      assert a[0..] == a;
      AllSpaceConcat(s[..k], a);
    }
  }

  /** Cutting the second piece of a cut string cuts the string in three. */
  lemma SplitPieceAgain(s: string, lead: string, a: string, t: string, trail: string)
    requires s == lead + a && a == t + trail
    ensures s == lead + t + trail
  {
    assert lead + (t + trail) == lead + t + trail;
  }

  lemma TrimStartSplits(s: string)
    ensures s == s[..|s| - |TrimStart(s)|] + TrimStart(s)
  {
    assert s == s[..|s| - |TrimStart(s)|] + s[|s| - |TrimStart(s)|..];
  }

  lemma TrimEndSplits(s: string)
    ensures s == TrimEnd(s) + s[|TrimEnd(s)|..]
  {
    assert s == s[..|TrimEnd(s)|] + s[|TrimEnd(s)|..];
  }

  /** A string is its trimmed core with something before and after it. */
  lemma TrimSplits(s: string) returns (lead: string, trail: string)
    ensures s == lead + Trim(s) + trail
    ensures |Trim(s)| == 0 || (!IsSpace(Trim(s)[0]) && !IsSpace(Trim(s)[|Trim(s)| - 1]))
  {
    var a := TrimStart(s);
    var t := TrimEnd(a);
    lead, trail := s[..|s| - |a|], a[|t|..];
    TrimStartSplits(s);
    TrimEndSplits(a);
    SplitPieceAgain(s, lead, a, t, trail);
    if |t| > 0 {
      assert t[0] == a[0];
    }
  }

  /** `trim` leaves no white space at either end, so trimming twice is
      trimming once. */
  lemma TrimIdempotent(s: string)
    ensures |Trim(s)| == 0 || (!IsSpace(Trim(s)[0]) && !IsSpace(Trim(s)[|Trim(s)| - 1]))
    ensures Trim(Trim(s)) == Trim(s)
  {
    var i, j := TrimIsCore(s);
    var t := Trim(s);
    assert TrimStart(t) == t;
    assert TrimEnd(t) == t;
  }

  /** A string that does not start with white space is unchanged by `trimStart`. */
  lemma TrimStartNoop(s: string)
    requires |s| == 0 || !IsSpace(s[0])
    ensures TrimStart(s) == s
  {
  }

  /** Dropping some leading white space does not change `trim`'s result. */
  lemma {:induction false} TrimAfterSpacePrefix(s: string, k: nat)
    requires k <= |s| && AllSpace(s[..k])
    ensures TrimStart(s[k..]) == TrimStart(s)
    ensures Trim(s[k..]) == Trim(s)
    decreases k
  {
    if k > 0 {
      assert IsSpace(s[0]);
      assert s[1..][k - 1..] == s[k..];
      assert s[1..][..k - 1] == s[1..k];
      TrimAfterSpacePrefix(s[1..], k - 1);
    }
  }

  predicate StartsWith(s: string, p: string) {
    |p| <= |s| && s[..|p|] == p
  }

  /** `p` occurs in `s` starting at index `i`. */
  predicate OccursAt(s: string, p: string, i: int) {
    0 <= i && i + |p| <= |s| && s[i..i + |p|] == p
  }

  /** `s.includes(p)`. */
  function Contains(s: string, p: string): (r: bool)
    ensures r <==> exists i :: OccursAt(s, p, i)
    decreases |s|
  {
    if StartsWith(s, p) then
      assert OccursAt(s, p, 0);
      true
    else if |s| == 0 then
      assert forall i :: !OccursAt(s, p, i);
      false
    else
      var r := Contains(s[1..], p);
      assert r ==> exists i :: OccursAt(s, p, i) by {
        if r {
          var i :| OccursAt(s[1..], p, i);
          assert s[1..][i..i + |p|] == s[i + 1..i + 1 + |p|];
          assert OccursAt(s, p, i + 1);
        }
      }
      assert (exists i :: OccursAt(s, p, i)) ==> r by {
        if exists i :: OccursAt(s, p, i) {
          var i :| OccursAt(s, p, i);
          assert i != 0;
          assert s[1..][i - 1..i - 1 + |p|] == s[i..i + |p|];
          assert OccursAt(s[1..], p, i - 1);
        }
      }
      r
  }

  /** The empty string is contained in every string. */
  lemma ContainsEmpty(s: string)
    ensures Contains(s, "")
  {
    assert OccursAt(s, "", 0);
  }

  /** A pattern with a character the string lacks is not contained in it. */
  lemma NotContainsMissingChar(s: string, p: string, k: nat)
    requires k < |p| && p[k] !in s
    ensures !Contains(s, p)
  {
    forall i ensures !OccursAt(s, p, i) {
      if 0 <= i && i + |p| <= |s| {
        assert s[i..i + |p|][k] == s[i + k];
        assert s[i + k] in s;
      }
    }
  }

  /** A string contains every middle piece of itself. */
  lemma ContainsMiddle(a: string, b: string, c: string)
    ensures Contains(a + b + c, b)
  {
    assert (a + b + c)[|a|..|a| + |b|] == b;
    assert OccursAt(a + b + c, b, |a|);
  }

  /** `p` not occurring in `s` does not occur in any suffix either. */
  lemma NotContainsTail(s: string, p: string)
    requires |s| > 0 && !Contains(s, p)
    ensures !Contains(s[1..], p)
  {
    forall i ensures !OccursAt(s[1..], p, i) {
      if 0 <= i && i + |p| <= |s| - 1 {
        assert s[1..][i..i + |p|] == s[i + 1..i + 1 + |p|];
        assert !OccursAt(s, p, i + 1);
      }
    }
  }

  /** `p` not occurring in `s` does not occur in any slice of it. */
  lemma NotContainsSlice(s: string, p: string, i: nat, j: nat)
    requires i <= j <= |s| && !Contains(s, p)
    ensures !Contains(s[i..j], p)
  {
    var t := s[i..j];
    forall k ensures !OccursAt(t, p, k) {
      if 0 <= k && k + |p| <= |t| {
        var a, b := t[k..k + |p|], s[i + k..i + k + |p|];
        forall m | 0 <= m < |p| ensures a[m] == b[m] {
          assert t[k + m] == s[i + k + m];
        }
        assert a == b;
        assert !OccursAt(s, p, i + k);
      }
    }
  }

  /** A pattern missing from a text is missing from each of its suffixes. */
  lemma NotContainsSuffix(s: string, p: string, k: nat)
    requires k <= |s| && !Contains(s, p)
    ensures !Contains(s[k..], p)
  {
    NotContainsSlice(s, p, k, |s|);
    assert s[k..|s|] == s[k..];
  }

  /** Number of left-to-right, non-overlapping occurrences of `p` in `s`:
      the length of `s.match(/p/g) || []` for a literal pattern `p`. */
  function CountOccurrences(s: string, p: string): nat
    requires |p| > 0
    decreases |s|
  {
    if |s| < |p| then 0
    else if s[..|p|] == p then 1 + CountOccurrences(s[|p|..], p)
    else CountOccurrences(s[1..], p)
  }

  /** Only an actual occurrence is counted. */
  lemma {:induction false} CountZeroWhenAbsent(s: string, p: string)
    requires |p| > 0 && !Contains(s, p)
    ensures CountOccurrences(s, p) == 0
    decreases |s|
  {
    if |s| >= |p| {
      assert !OccursAt(s, p, 0);
      NotContainsTail(s, p);
      CountZeroWhenAbsent(s[1..], p);
    }
  }

  /** An actual occurrence is always counted, even when an earlier match
      swallows it. */
  lemma {:induction false} CountPositiveWhenPresent(s: string, p: string)
    requires |p| > 0 && Contains(s, p)
    ensures CountOccurrences(s, p) > 0
    decreases |s|
  {
    var i :| OccursAt(s, p, i);
    if s[..|p|] != p {
      assert OccursAt(s[1..], p, i - 1) by {
        assert s[1..][i - 1..i - 1 + |p|] == s[i..i + |p|];
      }
      CountPositiveWhenPresent(s[1..], p);
    }
  }

  /** The `match` count is zero exactly when the pattern does not occur. */
  lemma CountZeroIffAbsent(s: string, p: string)
    requires |p| > 0
    ensures CountOccurrences(s, p) == 0 <==> !Contains(s, p)
  {
    if Contains(s, p) {
      CountPositiveWhenPresent(s, p);
    } else {
      CountZeroWhenAbsent(s, p);
    }
  }

  /** A prefix holding no first character of `p` adds no occurrence. */
  lemma {:induction false} CountSkipsPrefix(a: string, s: string, p: string)
    requires |p| > 0 && p[0] !in a
    ensures CountOccurrences(a + s, p) == CountOccurrences(s, p)
    decreases |a|
  {
    if |a| > 0 {
      var t := a + s;
      assert t[1..] == a[1..] + s;
      assert p[0] !in a[1..] by {
        forall i | 0 <= i < |a| - 1 ensures a[1..][i] != p[0] {
          assert a[1..][i] == a[i + 1];
        }
      }
      CountSkipsPrefix(a[1..], s, p);
      if |t| >= |p| {
        assert t[..|p|][0] == a[0];
        assert a[0] in a;
        assert t[..|p|] != p;
        assert CountOccurrences(t, p) == CountOccurrences(t[1..], p);
      } else {
        assert CountOccurrences(s, p) == 0;
      }
    } else {
      assert a + s == s;
    }
  }

  /** An occurrence at the front is counted once and skipped whole. */
  lemma CountAtFront(p: string, s: string)
    requires |p| > 0
    ensures CountOccurrences(p + s, p) == 1 + CountOccurrences(s, p)
  {
    assert (p + s)[..|p|] == p;
    assert (p + s)[|p|..] == s;
  }

  /** `s.replace(/p/g, '')` for a literal pattern `p`: every left-to-right,
      non-overlapping occurrence is deleted. */
  function RemoveAll(s: string, p: string): (r: string)
    requires |p| > 0
    ensures |r| <= |s|
    decreases |s|
  {
    if |s| == 0 then ""
    else if StartsWith(s, p) then RemoveAll(s[|p|..], p)
    else [s[0]] + RemoveAll(s[1..], p)
  }

  /** Deleting a pattern whose first character is absent changes nothing. */
  lemma {:induction false} RemoveAllNoop(s: string, p: string)
    requires |p| > 0 && p[0] !in s
    ensures RemoveAll(s, p) == s
    decreases |s|
  {
    if |s| > 0 {
      RemoveAllNoop(s[1..], p);
    }
  }

  /** A string that does not start with `*` keeps its first character when
      every `**` is deleted. */
  lemma RemoveBoldKeepsHead(s: string)
    requires |s| > 0 && s[0] != '*'
    ensures |RemoveAll(s, "**")| > 0 && RemoveAll(s, "**")[0] == s[0]
  {
  }

  /** `**` occurs at `i` exactly when two stars stand there. */
  lemma BoldAt(s: string, i: int)
    ensures OccursAt(s, "**", i) <==> 0 <= i && i + 2 <= |s| && s[i] == '*' && s[i + 1] == '*'
  {
    if 0 <= i && i + 2 <= |s| {
      assert s[i..i + 2][0] == s[i] && s[i..i + 2][1] == s[i + 1];
      if s[i] == '*' && s[i + 1] == '*' {
        assert s[i..i + 2] == "**";
      }
    }
  }

  /** Putting one character in front of a text without `**` creates no
      `**` unless both are stars. */
  lemma ConsNoBold(c: char, t: string)
    requires !Contains(t, "**")
    requires c != '*' || |t| == 0 || t[0] != '*'
    ensures !Contains([c] + t, "**")
  {
    var r := [c] + t;
    forall i | 0 <= i
      ensures !OccursAt(r, "**", i)
    {
      BoldAt(r, i);
      if i > 0 {
        BoldAt(t, i - 1);
        if i + 2 <= |r| {
          assert r[i] == t[i - 1] && r[i + 1] == t[i];
        }
      } else if 2 <= |r| {
        assert r[1] == t[0];
      }
    }
  }

  /** After deleting every `**` pair no `**` is left: of every run of stars
      at most one survives. */
  lemma {:induction false} RemoveBoldComplete(s: string)
    ensures !Contains(RemoveAll(s, "**"), "**")
    decreases |s|
  {
    if |s| > 0 && StartsWith(s, "**") {
      RemoveBoldComplete(s[2..]);
    } else if |s| > 0 {
      RemoveBoldComplete(s[1..]);
      var t := RemoveAll(s[1..], "**");
      if s[0] == '*' && |t| > 0 {
        assert s[..2][0] == s[0] && s[..2][1] == s[1];
        RemoveBoldKeepsHead(s[1..]);
      }
      ConsNoBold(s[0], t);
    }
  }

  /** `s.split(sep)` for a one-character separator. */
  function Split(s: string, sep: char): (r: seq<string>)
    ensures |r| >= 1
    ensures forall i :: 0 <= i < |r| ==> sep !in r[i]
    decreases |s|
  {
    if |s| == 0 then [""]
    else
      var rest := Split(s[1..], sep);
      if s[0] == sep then [""] + rest
      else [[s[0]] + rest[0]] + rest[1..]
  }

  /** `parts.join(sep)`. */
  function Join(parts: seq<string>, sep: char): string
    requires |parts| >= 1
  {
    if |parts| == 1 then parts[0] else parts[0] + [sep] + Join(parts[1..], sep)
  }

  /** Splitting a string that holds no separator gives the string alone. */
  lemma {:induction false} SplitNoSeparator(s: string, sep: char)
    requires sep !in s
    ensures Split(s, sep) == [s]
    decreases |s|
  {
    if |s| > 0 {
      SplitNoSeparator(s[1..], sep);
      assert [s[0]] + s[1..] == s;
    }
  }

  /** Splitting at one separator splits both halves independently. */
  lemma {:induction false} SplitAppend(a: string, b: string, sep: char)
    ensures Split(a + [sep] + b, sep) == Split(a, sep) + Split(b, sep)
    decreases |a|
  {
    if |a| == 0 {
      assert a + [sep] + b == [sep] + b;
      assert ([sep] + b)[1..] == b;
    } else {
      assert (a + [sep] + b)[1..] == a[1..] + [sep] + b;
      SplitAppend(a[1..], b, sep);
    }
  }

  /** `join` then `split` is the identity when no part holds the separator. */
  lemma {:induction false} SplitJoin(parts: seq<string>, sep: char)
    requires |parts| >= 1
    requires forall i :: 0 <= i < |parts| ==> sep !in parts[i]
    ensures Split(Join(parts, sep), sep) == parts
    decreases |parts|
  {
    SplitNoSeparator(parts[0], sep);
    if |parts| > 1 {
      SplitJoin(parts[1..], sep);
      SplitAppend(parts[0], Join(parts[1..], sep), sep);
      assert [parts[0]] + parts[1..] == parts;
    }
  }

  /** `split` then `join` is the identity. */
  lemma {:induction false} JoinSplit(s: string, sep: char)
    ensures Join(Split(s, sep), sep) == s
    decreases |s|
  {
    if |s| > 0 {
      JoinSplit(s[1..], sep);
      var rest := Split(s[1..], sep);
      if s[0] == sep {
        assert ([""] + rest)[1..] == rest;
      } else if |rest| == 1 {
        assert [s[0]] + s[1..] == s;
      } else {
        var r := [[s[0]] + rest[0]] + rest[1..];
        assert r[1..] == rest[1..];
        assert Join(r, sep) == [s[0]] + rest[0] + [sep] + Join(rest[1..], sep);
        assert [s[0]] + s[1..] == s;
      }
    }
  }

  /** The first piece of a split is the text before the first separator. */
  lemma {:induction false} SplitFirstIsPrefix(s: string, sep: char)
    ensures |Split(s, sep)[0]| <= |s|
    ensures Split(s, sep)[0] == s[..|Split(s, sep)[0]|]
    decreases |s|
  {
    if |s| > 0 && s[0] != sep {
      SplitFirstIsPrefix(s[1..], sep);
    }
  }

  /** A pattern missing from a text is missing from the text's first line. */
  lemma NotContainsFirstPiece(s: string, sep: char, p: string)
    requires !Contains(s, p)
    ensures !Contains(Split(s, sep)[0], p)
  {
    SplitFirstIsPrefix(s, sep);
    NotContainsSlice(s, p, 0, |Split(s, sep)[0]|);
  }

  /** A leading empty part joins to a leading separator. */
  lemma JoinAfterEmpty(xs: seq<string>, sep: char)
    requires |xs| >= 1
    ensures Join([""] + xs, sep) == [sep] + Join(xs, sep)
  {
    assert ([""] + xs)[1..] == xs;
    assert Join([""] + xs, sep) == "" + [sep] + Join(xs, sep);
  }

  /** Joining two non-empty lists joins their joins. */
  lemma {:induction false} JoinAppend(a: seq<string>, b: seq<string>, sep: char)
    requires |a| >= 1 && |b| >= 1
    ensures Join(a + b, sep) == Join(a, sep) + [sep] + Join(b, sep)
    decreases |a|
  {
    if |a| == 1 {
      assert (a + b)[1..] == b;
    } else {
      assert (a + b)[1..] == a[1..] + b;
      JoinAppend(a[1..], b, sep);
    }
  }

  /** `toLowerCase` on one character. ASCII capitals map to small letters;
      U+212A KELVIN SIGN maps to `k` and U+0130 to `i` followed by U+0307,
      the only case mappings that produce ASCII from non-ASCII. Every other
      character is kept: its real lower-case form is non-ASCII as well, and
      the control center only ever compares lower-cased text against ASCII. */
  function LowerChar(c: char): (r: string)
    ensures |r| >= 1
  {
    if 'A' <= c <= 'Z' then [(c as int + 32) as char]
    else if c == '\U{212A}' then "k"
    else if c == '\U{0130}' then "i\U{0307}"
    else [c]
  }

  /** `s.toLowerCase()`. */
  function ToLower(s: string): string
  {
    if |s| == 0 then "" else LowerChar(s[0]) + ToLower(s[1..])
  }

  function DigitChar(d: nat): (c: char)
    requires d < 10
    ensures IsDigit(c)
  {
    ('0' as int + d) as char
  }

  function DigitValue(c: char): nat
    requires IsDigit(c)
  {
    c as int - '0' as int
  }

  /** A non-negative integer in a template literal: its decimal digits,
      without leading zeros. */
  function NatToString(n: nat): (r: string)
    ensures |r| >= 1
    ensures forall i :: 0 <= i < |r| ==> IsDigit(r[i])
    ensures |r| > 1 ==> r[0] != '0'
    decreases n
  {
    if n < 10 then [DigitChar(n)] else NatToString(n / 10) + [DigitChar(n % 10)]
  }

  /** An integer in a template literal: a minus sign before the digits of a
      negative value. */
  function IntToString(n: int): (r: string)
    ensures |r| >= 1
    ensures '/' !in r
  {
    if n < 0 then "-" + NatToString(-n) else NatToString(n)
  }

  /** The value of a string of decimal digits. */
  function DecimalValue(s: string): nat
    requires forall i :: 0 <= i < |s| ==> IsDigit(s[i])
    decreases |s|
  {
    if |s| == 0 then 0 else DecimalValue(s[..|s| - 1]) * 10 + DigitValue(s[|s| - 1])
  }

  /** The value of a rendered integer: an optional minus sign, then digits. */
  function ReadInt(s: string): Option<int> {
    if |s| > 0 && s[0] == '-' then
      if |s| > 1 && forall i :: 1 <= i < |s| ==> IsDigit(s[i]) then Some(-(DecimalValue(s[1..]) as int)) else None
    else if |s| > 0 && forall i :: 0 <= i < |s| ==> IsDigit(s[i]) then Some(DecimalValue(s) as int)
    else None
  }

  /** Reading the digits back gives the number. */
  lemma {:induction false} NatToStringRoundTrip(n: nat)
    ensures DecimalValue(NatToString(n)) == n
    decreases n
  {
    if n >= 10 {
      NatToStringRoundTrip(n / 10);
      var s := NatToString(n);
      assert s[..|s| - 1] == NatToString(n / 10);
    }
  }

  /** Reading a rendered integer back gives the integer. */
  lemma IntToStringRoundTrip(n: int)
    ensures ReadInt(IntToString(n)) == Some(n)
  {
    if n < 0 {
      var d := NatToString(-n);
      var s := "-" + d;
      assert s[1..] == d;
      assert forall i :: 1 <= i < |s| ==> s[i] == d[i - 1];
      NatToStringRoundTrip(-n);
      assert ReadInt(s) == Some(-(DecimalValue(d) as int));
    } else {
      var d := NatToString(n);
      assert d[0] != '-';
      NatToStringRoundTrip(n);
      assert ReadInt(d) == Some(DecimalValue(d) as int);
    }
  }
}

=== FILE: lifecycle.dfy ===
/**
 * How the handlers fit together: a spec created through the API shows up in
 * the next status report as an incomplete spec holding one open task, which
 * is what makes the next-step card ask for it to be implemented.
 */
module Lifecycle {
  import opened Wrappers
  import opened JsText
  import opened NodePath
  import opened Fs
  import opened Checklist
  import opened ProjectModel
  import opened Server
  import opened StatusApi
  import opened SpecApi
  import opened Recommender

  /** When nothing is in the way, a create leaves the new spec's two files
      as plain files holding the starter texts. */
  lemma CreatedFilesAreFiles(cfg: Config, fs: FileSystem, name: string)
    requires ValidConfig(cfg) && PlainSegment(name) && WellFormed(fs)
    requires Creatable(fs, AgentDir(cfg) + ["specs", name])
    ensures var fs' := CreateSpec(cfg, fs, Some(name)).1;
            && IsFile(fs', SpecFilePath(cfg, name)) && !IsDir(fs', SpecFilePath(cfg, name))
            && IsFile(fs', TasksFilePath(cfg, name)) && !IsDir(fs', TasksFilePath(cfg, name))
            && fs'.files[SpecFilePath(cfg, name)] == SpecStub(name)
            && fs'.files[TasksFilePath(cfg, name)] == SeedTasks
  {
    var dir := AgentDir(cfg) + ["specs", name];
    CreateSpecSucceeds(cfg, fs, name);
    CreatePlainSpecEffect(cfg, fs, name);
    StartersLandAsFiles(fs, CreateSpec(cfg, fs, Some(name)).1, dir, name);
    SpecFilesInSpecDir(cfg, name);
  }

  /** The new spec directory exists after the create, so a spec glob that
      does not skip it as hidden lists it. */
  lemma CreatedDirIsListed(cfg: Config, fs: FileSystem, name: string)
    requires ValidConfig(cfg) && PlainSegment(name) && WellFormed(fs)
    requires Creatable(fs, AgentDir(cfg) + ["specs", name])
    ensures AgentDir(cfg) + ["specs", name] in CreateSpec(cfg, fs, Some(name)).1.dirs
  {
    var dir := AgentDir(cfg) + ["specs", name];
    CreateSpecSucceeds(cfg, fs, name);
    CreatePlainSpecEffect(cfg, fs, name);
    assert dir[..|dir|] == dir;
    assert dir in Prefixes(dir);
  }

  /** After such a create, the next status report lists the new spec as
      incomplete, with its spec file present and one open task. */
  lemma CreatedSpecIsOpen(cfg: Config, fs: FileSystem, name: string)
    requires ValidConfig(cfg) && PlainSegment(name) && WellFormed(fs)
    requires Creatable(fs, AgentDir(cfg) + ["specs", name])
    ensures var r := ReadSpec(cfg, CreateSpec(cfg, fs, Some(name)).1, name);
            && r.Ok?
            && r.value.name == name
            && r.value.spec.present
            && r.value.tasks.present && r.value.tasks.total == 1 && r.value.tasks.completed == 0
            && SpecIncomplete(r.value)
    ensures name[0] != '.' ==> SpecDirNamed(cfg, CreateSpec(cfg, fs, Some(name)).1, name)
  {
    CreatedFilesAreFiles(cfg, fs, name);
    CreatedDirIsListed(cfg, fs, name);
    SeedTasksStatus();
  }
}

=== FILE: nodepath.dfy ===
/**
 * Node's POSIX `path.normalize` and `path.join`, and the traversal strip
 * the file endpoints apply, over paths written as strings. A normalised path
 * is kept as its segments, whether it is absolute, and whether it keeps a
 * trailing `/`; `Render` gives back the exact string Node would return.
 */
module NodePath {
  import opened JsText

  /** What `path.normalize` returns, as parts. */
  datatype Normal = Normal(absolute: bool, segs: seq<string>, trailing: bool)

  /** A directory or file name: not empty, not `.` or `..`, no separator. */
  predicate PlainSegment(s: string) {
    s != "" && s != "." && s != ".." && '/' !in s
  }

  /** One step of Node's `normalizeString`: empty and `.` segments vanish;
      `..` removes the previous segment unless there is none or it is itself
      `..`, and is then kept for a relative path and dropped for an absolute
      one; any other segment is appended. */
  function Step(stack: seq<string>, seg: string, absolute: bool): seq<string> {
    if seg == "" || seg == "." then stack
    else if seg == ".." then
      if |stack| > 0 && stack[|stack| - 1] != ".." then stack[..|stack| - 1]
      else if absolute then stack
      else stack + [".."]
    else stack + [seg]
  }

  /** `normalizeString` over a list of segments, starting from `stack`. */
  function Resolve(stack: seq<string>, segs: seq<string>, absolute: bool): seq<string>
    decreases |segs|
  {
    if |segs| == 0 then stack else Resolve(Step(stack, segs[0], absolute), segs[1..], absolute)
  }

  /** `path.normalize(p)`. */
  function Normalize(p: string): Normal {
    if |p| == 0 then Normal(false, [], false)
    else Normal(p[0] == '/', Resolve([], Split(p, '/'), p[0] == '/'), p[|p| - 1] == '/')
  }

  /** The string `path.normalize` returns. */
  function Render(n: Normal): string {
    if |n.segs| == 0 then
      if n.absolute then "/" else if n.trailing then "./" else "."
    else
      (if n.absolute then "/" else "") + Join(n.segs, '/') + (if n.trailing then "/" else "")
  }

  /** `path.join(base, rel)` for a second argument that is a string:
      an empty one is skipped, otherwise both are joined with `/` and the
      result normalised. */
  function JoinPath(base: Normal, rel: string): Normal {
    if |rel| == 0 then Normalize(Render(base)) else Normalize(Render(base) + "/" + rel)
  }

  /** The traversal strip of the file endpoints: repeatedly remove a
      leading `..` that is followed by `/`, by a backslash or by the end of
      the string (the pattern `^(\.\.(\/|\\|$))+` replaced by nothing). */
  function StripTraversal(s: string): (r: string)
    ensures |r| <= |s|
    decreases |s|
  {
    if |s| >= 3 && s[0] == '.' && s[1] == '.' && (s[2] == '/' || s[2] == '\\') then
      StripTraversal(s[3..])
    else if s == ".." then ""
    else s
  }

  /** A path string none of whose `/`-separated components is `..`. */
  predicate NoParentSegment(s: string) {
    forall i :: 0 <= i < |Split(s, '/')| ==> Split(s, '/')[i] != ".."
  }

  /** Segments that `..` can only occupy at the front. */
  ghost predicate ParentsFirst(segs: seq<string>) {
    forall i, j :: 0 <= i < j < |segs| && segs[j] == ".." ==> segs[i] == ".."
  }

  /** The shape of every normalised path: no empty, `.` or separator-holding
      segment; `..` only at the front, and never in an absolute path. */
  ghost predicate Canonical(segs: seq<string>, absolute: bool) {
    && (forall i :: 0 <= i < |segs| ==> segs[i] != "" && segs[i] != "." && '/' !in segs[i])
    && ParentsFirst(segs)
    && (absolute ==> forall i :: 0 <= i < |segs| ==> segs[i] != "..")
  }

  lemma StepCanonical(stack: seq<string>, seg: string, absolute: bool)
    requires Canonical(stack, absolute) && '/' !in seg
    ensures Canonical(Step(stack, seg, absolute), absolute)
  {
    var r := Step(stack, seg, absolute);
    if seg != "" && seg != "." && seg != ".." {
      assert forall i :: 0 <= i < |stack| ==> r[i] == stack[i];
      if |stack| > 0 && stack[|stack| - 1] == ".." {
        assert forall i :: 0 <= i < |stack| ==> stack[i] == "..";
      }
    }
  }

  lemma {:induction false} ResolveCanonical(stack: seq<string>, segs: seq<string>, absolute: bool)
    requires Canonical(stack, absolute)
    requires forall i :: 0 <= i < |segs| ==> '/' !in segs[i]
    ensures Canonical(Resolve(stack, segs, absolute), absolute)
    decreases |segs|
  {
    if |segs| > 0 {
      StepCanonical(stack, segs[0], absolute);
      ResolveCanonical(Step(stack, segs[0], absolute), segs[1..], absolute);
    }
  }

  /** `path.normalize` always yields a canonical path. */
  lemma NormalizeCanonical(p: string)
    ensures Canonical(Normalize(p).segs, Normalize(p).absolute)
  {
    if |p| > 0 {
      ResolveCanonical([], Split(p, '/'), p[0] == '/');
    }
  }

  /** Normalising in two pieces is normalising the whole. */
  lemma {:induction false} ResolveAppend(stack: seq<string>, xs: seq<string>, ys: seq<string>, absolute: bool)
    ensures Resolve(stack, xs + ys, absolute) == Resolve(Resolve(stack, xs, absolute), ys, absolute)
    decreases |xs|
  {
    if |xs| == 0 {
      assert xs + ys == ys;
    } else {
      assert (xs + ys)[0] == xs[0];
      assert (xs + ys)[1..] == xs[1..] + ys;
      ResolveAppend(Step(stack, xs[0], absolute), xs[1..], ys, absolute);
    }
  }

  /** Plain segments are appended as they are. */
  lemma {:induction false} ResolvePlain(stack: seq<string>, segs: seq<string>, absolute: bool)
    requires forall i :: 0 <= i < |segs| ==> PlainSegment(segs[i])
    ensures Resolve(stack, segs, absolute) == stack + segs
    decreases |segs|
  {
    if |segs| > 0 {
      ResolvePlain(stack + [segs[0]], segs[1..], absolute);
      assert stack + [segs[0]] + segs[1..] == stack + segs;
    }
  }

  /** Without `..` segments, normalising never climbs out of `stack`. */
  lemma {:induction false} ResolveNoParent(stack: seq<string>, segs: seq<string>, absolute: bool)
    requires forall i :: 0 <= i < |segs| ==> segs[i] != ".."
    ensures |Resolve(stack, segs, absolute)| >= |stack|
    ensures Resolve(stack, segs, absolute)[..|stack|] == stack
    decreases |segs|
  {
    if |segs| > 0 {
      var next := Step(stack, segs[0], absolute);
      ResolveNoParent(next, segs[1..], absolute);
      assert next[..|stack|] == stack;
    }
  }

  /** The pieces `Render` joins with `/`: a leading empty piece for an
      absolute path and a final empty piece for a trailing separator. */
  function RenderParts(n: Normal): seq<string> {
    if |n.segs| == 0 then
      if n.absolute then ["", ""] else if n.trailing then [".", ""] else ["."]
    else
      (if n.absolute then [""] else []) + n.segs + (if n.trailing then [""] else [])
  }

  lemma RenderIsJoin(n: Normal)
    ensures |RenderParts(n)| >= 1
    ensures Render(n) == Join(RenderParts(n), '/')
  {
    if |n.segs| > 0 {
      var core := (if n.absolute then [""] else []) + n.segs;
      if n.absolute {
        JoinAppend([""], n.segs, '/');
        assert Join(core, '/') == "/" + Join(n.segs, '/');
      } else {
        assert core == n.segs;
      }
      if n.trailing {
        JoinAppend(core, [""], '/');
        assert RenderParts(n) == core + [""];
      } else {
        assert RenderParts(n) == core;
      }
    }
  }

  /** The pieces of a canonical path keep `..` at the front. */
  lemma RenderPartsShape(n: Normal)
    requires Canonical(n.segs, n.absolute)
    ensures ParentsFirst(RenderParts(n))
    ensures forall i :: 0 <= i < |RenderParts(n)| ==> '/' !in RenderParts(n)[i]
  {
    var r := RenderParts(n);
    if |n.segs| > 0 {
      var a := if n.absolute then [""] else [];
      var t := if n.trailing then [""] else [];
      assert r == a + n.segs + t;
      forall i, j | 0 <= i < j < |r| && r[j] == ".."
        ensures r[i] == ".."
      {
        assert !n.absolute;
        assert r[j] == n.segs[j];
        assert r[i] == n.segs[i];
      }
    }
  }

  /** After the traversal strip, the pieces of a joined path with `..` only
      at the front hold no `..` at all. */
  lemma {:induction false} StripJoinNoParent(parts: seq<string>)
    requires |parts| >= 1 && ParentsFirst(parts)
    requires forall i :: 0 <= i < |parts| ==> '/' !in parts[i]
    ensures NoParentSegment(StripTraversal(Join(parts, '/')))
    decreases |Join(parts, '/')|
  {
    var x := parts[0];
    var j := Join(parts, '/');
    var backslashed := |x| >= 3 && x[0] == '.' && x[1] == '.' && x[2] == '\\';
    if |parts| == 1 {
      assert j == x;
      if backslashed {
        StripJoinNoParent([x[3..]]);
        assert Join([x[3..]], '/') == j[3..];
      } else if x == ".." {
        assert StripTraversal(j) == "";
      } else {
        assert StripTraversal(j) == j;
        SplitNoSeparator(x, '/');
      }
    } else {
      var rest := parts[1..];
      assert j == x + "/" + Join(rest, '/');
      assert forall i :: 0 <= i < |rest| ==> rest[i] == parts[i + 1];
      if x == ".." {
        assert j[3..] == Join(rest, '/');
        StripJoinNoParent(rest);
      } else {
        assert forall i :: 0 <= i < |rest| ==> rest[i] != "..";
        if backslashed {
          var parts' := [x[3..]] + rest;
          assert parts'[1..] == rest;
          assert Join(parts', '/') == j[3..];
          StripJoinNoParent(parts');
        } else {
          assert j[..|x|] == x && j[|x|] == '/';
          if |x| >= 3 {
            assert x[2] in x;
            assert j[0] == x[0] && j[1] == x[1] && j[2] == x[2];
          } else if |x| == 2 {
            assert j[0] == x[0] && j[1] == x[1];
          }
          assert StripTraversal(j) == j;
          SplitJoin(parts, '/');
        }
      }
    }
  }

  /** After normalising and stripping, a caller-supplied path has no `..`
      segment left. */
  lemma StrippedHasNoParent(p: string)
    ensures NoParentSegment(StripTraversal(Render(Normalize(p))))
  {
    var n := Normalize(p);
    NormalizeCanonical(p);
    RenderIsJoin(n);
    RenderPartsShape(n);
    StripJoinNoParent(RenderParts(n));
  }

  /** A non-empty prefix of segments renders to a prefix of the string. */
  lemma RenderPrefix(root: seq<string>, tail: seq<string>, trailing: bool)
    requires |root| > 0
    ensures StartsWith(Render(Normal(true, root + tail, trailing)), Render(Normal(true, root, false)))
  {
    var pre := "/" + Join(root, '/');
    if |tail| > 0 {
      JoinAppend(root, tail, '/');
    } else {
      assert root + tail == root;
    }
    assert Render(Normal(true, root + tail, trailing))[..|pre|] == pre;
  }

  /** The rendering of an absolute path of plain names splits back into
      its names after a leading empty piece, and normalises to itself. */
  lemma RootRoundTrip(root: seq<string>)
    requires |root| > 0 && forall i :: 0 <= i < |root| ==> PlainSegment(root[i])
    ensures Render(Normal(true, root, false)) == "/" + Join(root, '/')
    ensures Split(Render(Normal(true, root, false)), '/') == [""] + root
    ensures Resolve([], [""] + root, true) == root
  {
    RootSplits(root);
    ResolveAppend([], [""], root, true);
    ResolvePlain([], root, true);
  }

  /** No part of `[""] + root` holds a slash. */
  lemma PlainPartsAfterEmpty(root: seq<string>)
    requires forall i :: 0 <= i < |root| ==> PlainSegment(root[i])
    ensures forall i :: 0 <= i < |[""] + root| ==> '/' !in ([""] + root)[i]
  {
    assert forall i :: 1 <= i < |[""] + root| ==> ([""] + root)[i] == root[i - 1];
  }

  lemma RootSplits(root: seq<string>)
    requires |root| > 0 && forall i :: 0 <= i < |root| ==> PlainSegment(root[i])
    ensures Split("/" + Join(root, '/'), '/') == [""] + root
  {
    JoinAfterEmpty(root, '/');
    PlainPartsAfterEmpty(root);
    SplitJoin([""] + root, '/');
  }

  /** Joining a directory of plain names with a path free of `..` segments
      stays below that directory. */
  lemma JoinBelow(root: seq<string>, rel: string)
    requires |root| > 0 && forall i :: 0 <= i < |root| ==> PlainSegment(root[i])
    requires NoParentSegment(rel)
    ensures var r := JoinPath(Normal(true, root, false), rel);
            r.absolute && |r.segs| >= |root| && r.segs[..|root|] == root
  {
    var rb := Render(Normal(true, root, false));
    RootRoundTrip(root);
    if |rel| > 0 {
      var xs := Split(rel, '/');
      SplitAppend(rb, rel, '/');
      assert rb + "/" + rel == rb + ['/'] + rel;
      assert Split(rb + "/" + rel, '/') == ([""] + root) + xs;
      ResolveAppend([], [""] + root, xs, true);
      ResolveNoParent(root, xs, true);
    }
  }

  lemma {:induction false} JoinLastChar(parts: seq<string>, sep: char)
    requires |parts| >= 1 && |parts[|parts| - 1]| > 0
    ensures |Join(parts, sep)| > 0
    ensures Join(parts, sep)[|Join(parts, sep)| - 1] == parts[|parts| - 1][|parts[|parts| - 1]| - 1]
    decreases |parts|
  {
    if |parts| > 1 {
      JoinLastChar(parts[1..], sep);
    }
  }

  /** `path.join(dir, "a/b/c")` with plain names appends those names to an
      absolute directory of plain names. */
  lemma JoinPlainNames(root: seq<string>, names: seq<string>)
    requires forall i :: 0 <= i < |root| ==> PlainSegment(root[i])
    requires |names| >= 1 && forall i :: 0 <= i < |names| ==> PlainSegment(names[i])
    ensures JoinPath(Normal(true, root, false), Join(names, '/')) == Normal(true, root + names, false)
  {
    var whole := Render(Normal(true, root, false)) + "/" + Join(names, '/');
    JoinedSegments(root, names);
    ResolvePlainNames(root, names);
    JoinedEnds(root, names);
    assert JoinPath(Normal(true, root, false), Join(names, '/')) == Normalize(whole);
  }

  lemma JoinedSegments(root: seq<string>, names: seq<string>)
    requires forall i :: 0 <= i < |root| ==> PlainSegment(root[i])
    requires |names| >= 1 && forall i :: 0 <= i < |names| ==> PlainSegment(names[i])
    ensures Resolve([], Split(Render(Normal(true, root, false)) + "/" + Join(names, '/'), '/'), true)
            == Resolve([], root + names, true)
  {
    var lead := JoinedSplit(root, names);
    ResolveAppend([], lead, root + names, true);
    ResolveEmpties(lead);
  }

  lemma {:induction false} ResolveEmpties(xs: seq<string>)
    requires forall i :: 0 <= i < |xs| ==> xs[i] == ""
    ensures Resolve([], xs, true) == []
    decreases |xs|
  {
    if |xs| > 0 {
      ResolveEmpties(xs[1..]);
    }
  }

  lemma JoinedSplit(root: seq<string>, names: seq<string>) returns (lead: seq<string>)
    requires forall i :: 0 <= i < |root| ==> PlainSegment(root[i])
    requires |names| >= 1 && forall i :: 0 <= i < |names| ==> PlainSegment(names[i])
    ensures forall i :: 0 <= i < |lead| ==> lead[i] == ""
    ensures Split(Render(Normal(true, root, false)) + "/" + Join(names, '/'), '/') == lead + (root + names)
  {
    var rb := Render(Normal(true, root, false));
    var rel := Join(names, '/');
    SplitJoin(names, '/');
    SplitSlash(rb, rel);
    lead := RootLead(root);
    assert (lead + root) + names == lead + (root + names);
  }

  lemma SplitSlash(a: string, b: string)
    ensures Split(a + "/" + b, '/') == Split(a, '/') + Split(b, '/')
  {
    assert a + "/" + b == a + ['/'] + b;
    SplitAppend(a, b, '/');
  }

  lemma RootLead(root: seq<string>) returns (lead: seq<string>)
    requires forall i :: 0 <= i < |root| ==> PlainSegment(root[i])
    ensures forall i :: 0 <= i < |lead| ==> lead[i] == ""
    ensures Split(Render(Normal(true, root, false)), '/') == lead + root
  {
    if |root| > 0 {
      RootSplits(root);
      lead := [""];
      assert Render(Normal(true, root, false)) == "/" + Join(root, '/');
    } else {
      SplitSlash("", "");
      assert "" + "/" + "" == "/";
      assert Split("", '/') == [""];
      lead := ["", ""];
      assert lead + root == lead;
    }
  }

  lemma JoinedEnds(root: seq<string>, names: seq<string>)
    requires |names| >= 1 && forall i :: 0 <= i < |names| ==> PlainSegment(names[i])
    ensures var whole := Render(Normal(true, root, false)) + "/" + Join(names, '/');
            whole[0] == '/' && whole[|whole| - 1] != '/'
  {
    var rel := Join(names, '/');
    JoinLastChar(names, '/');
    var last := names[|names| - 1];
    assert last[|last| - 1] in last;
  }

  lemma ResolvePlainNames(root: seq<string>, names: seq<string>)
    requires forall i :: 0 <= i < |root| ==> PlainSegment(root[i])
    requires forall i :: 0 <= i < |names| ==> PlainSegment(names[i])
    ensures Resolve([], root + names, true) == root + names
  {
    var all := root + names;
    assert forall i :: 0 <= i < |all| ==> PlainSegment(all[i]) by {
      forall i | 0 <= i < |all| ensures PlainSegment(all[i]) {
        if i >= |root| { assert all[i] == names[i - |root|]; }
      }
    }
    ResolvePlain([], all, true);
  }

  /** A normalised absolute path is made of plain names only. */
  lemma NormalizeAbsolutePlain(p: string)
    requires |p| > 0 && p[0] == '/'
    ensures Normalize(p).absolute
    ensures forall i :: 0 <= i < |Normalize(p).segs| ==> PlainSegment(Normalize(p).segs[i])
  {
    NormalizeCanonical(p);
  }

  /** Joining onto an absolute path gives an absolute path of plain names. */
  lemma JoinPathAbsolute(base: Normal, rel: string)
    requires base.absolute
    ensures JoinPath(base, rel).absolute
    ensures forall i :: 0 <= i < |JoinPath(base, rel).segs| ==> PlainSegment(JoinPath(base, rel).segs[i])
  {
    var rb := Render(base);
    assert rb[0] == '/';
    if |rel| == 0 {
      NormalizeAbsolutePlain(rb);
    } else {
      NormalizeAbsolutePlain(rb + "/" + rel);
    }
  }

  /** A trailing separator on the directory does not change what joining a
      non-empty path onto it gives. */
  lemma JoinIgnoresTrailing(base: Normal, rel: string)
    requires base.absolute && |rel| > 0
    ensures JoinPath(base, rel) == JoinPath(base.(trailing := false), rel)
  {
    if base.trailing && |base.segs| > 0 {
      var rf := Render(base.(trailing := false));
      assert Render(base) == rf + "/";
      var st := rf + "/" + ("/" + rel);
      var sf := rf + "/" + rel;
      assert Render(base) + "/" + rel == st;
      SplitSlash(rf, "/" + rel);
      SplitSlash("", rel);
      assert "" + "/" + rel == "/" + rel;
      assert Split("", '/') == [""];
      SplitSlash(rf, rel);
      ResolveAppend([], Split(rf, '/'), [""] + Split(rel, '/'), true);
      ResolveAppend([], Split(rf, '/'), Split(rel, '/'), true);
      var mid := Resolve([], Split(rf, '/'), true);
      assert Resolve(mid, [""] + Split(rel, '/'), true) == Resolve(mid, Split(rel, '/'), true) by {
        assert ([""] + Split(rel, '/'))[1..] == Split(rel, '/');
      }
      assert st[0] == '/' && sf[0] == '/';
      assert st[|st| - 1] == rel[|rel| - 1] == sf[|sf| - 1];
    }
  }
}

=== FILE: project.dfy ===
/**
 * The shape of the status report the control-center backend returns and the
 * frontend consumes: product files, design progress, implementation, specs
 * and service health.
 */
module ProjectModel {
  import opened Checklist

  /** The markdown files of the `agent-os` layout are named with this
      extension; each spec directory holds a spec file and a task file. */
  const MarkdownExt: string := ".md"
  const SpecFileName: string := "spec" + MarkdownExt
  const TasksFileName: string := "tasks" + MarkdownExt

  datatype ProductStatus = ProductStatus(mission: Status, roadmap: Status, techStack: Status)

  /** One directory under `agent-os/specs` with its two parsed files. */
  datatype Spec = Spec(name: string, spec: Status, tasks: Status)

  datatype ExportPrompts = ExportPrompts(oneShot: bool, section: bool)

  datatype QaReports = QaReports(audit: bool, polish: bool)

  /** Design progress; `present` is the report's `exists` flag. */
  datatype Design = Design(
    present: bool,
    initialized: bool,
    tokens: bool,
    shell: bool,
    exported: bool,
    exportPrompts: ExportPrompts,
    qa: QaReports)

  datatype Implementation = Implementation(scaffolded: bool)

  datatype Services = Services(api: bool, design: bool, app: bool)

  datatype ProjectState = ProjectState(
    product: ProductStatus,
    design: Design,
    implementation: Implementation,
    specs: seq<Spec>,
    services: Services,
    projectRoot: string)
}

=== FILE: recommender.dfy ===
/**
 * The "next step" card: a first-match decision tree from the status report to
 * one recommended step. Product planning comes first, then the design
 * system, then scaffolding, then feature specs.
 */
module Recommender {
  import opened Wrappers
  import opened JsText
  import opened Checklist
  import opened ProjectModel

  /** What the card's action button does: nothing, or open the Design OS
      overlay. */
  datatype Action = NoAction | OpenDesign

  datatype Step = Step(
    phase: string,
    title: string,
    description: string,
    prompt: string,
    link: string,
    actionLabel: string,
    action: Action)

  const ProductPhase: string := "Phase 1: Product Strategy"
  const DesignPhase: string := "Phase 2: Design System"
  const ImplementationPhase: string := "Phase 3: Implementation"
  const SpecsPhase: string := "Phase 4: Feature Specs"

  const PlanTitle: string := "Plan Your Product"
  const SyncTitle: string := "Sync Product to Design OS"
  const VisualsTitle: string := "Define Your Visuals"
  const ScaffoldTitle: string := "Scaffold Application"
  const FirstSpecTitle: string := "Shape Your First Spec"
  const VerifyTitle: string := "Verify or Plan Next"

  const PlanPrompt: string :=
    "Antigravity, let's start Phase 1: Product Planning. Please read 'agent-os/commands/plan-product/plan-product.md' and guide me."
  const SyncPrompt: string :=
    "Antigravity, please sync my product plan to Design OS. Read 'agent-os/commands/initialize-design/initialize-design.md'."
  const ScaffoldPrompt: string :=
    "Antigravity, scaffold the implementation. Read 'agent-os/commands/scaffold-implementation/scaffold-implementation.md'."
  const ShapeSpecPrompt: string :=
    "Antigravity, let's shape the spec for a new feature. Please read 'agent-os/commands/shape-spec/shape-spec" + MarkdownExt + "'."
  const VerifyPrompt: string :=
    "Antigravity, let's verify the implementation. Read 'agent-os/commands/implement-tasks/3-verify-implementation.md'."

  /** The prompts of the two steps that name a spec or a roadmap item
      surround the name with these. */
  const ImplementPromptHead: string := "Antigravity, implement the tasks for '"
  const ImplementPromptTail: string := "'. Read commands/implement-tasks/implement-tasks.md."
  const ShapePromptHead: string := "Antigravity, let's shape the spec for '"
  const ShapePromptTail: string := "'. Please read 'agent-os/commands/shape-spec/shape-spec" + MarkdownExt + "'."

  const ImplementTitleHead: string := "Implement '"
  const ShapeTitleHead: string := "Shape '"
  const Quote: string := "'"

  const PlanDescription: string := "Define your Mission, Roadmap, and Tech Stack to build a solid foundation."
  const SyncDescription: string := "Transfer your Product Mission and Roadmap to Design OS to automate the setup."
  const VisualsDescription: string := "Defining the visuals now prevents generic UI later. Export your system when ready."
  const ScaffoldDescription: string := "Your design is exported. Now, scaffold the production app with the design system."
  const FirstSpecDescription: string := "Your app is ready! Create a spec for the first feature in your roadmap."
  const ImplementDescription: string := "Active spec detected. Write the code!"
  const ShapeNextDescription: string := "Ready to start the next feature? Shape the spec now."
  const VerifyDescription: string := "Verify implementation or start a new feature."

  const OpenDesignLabel: string := "Open Design OS"

  /** A product file that is there and filled in. */
  predicate Settled(s: Status) { s.present && !s.isBoilerplate }

  /** Mission, tech stack and roadmap are all settled. */
  predicate ProductComplete(st: ProjectState) {
    Settled(st.product.mission) && Settled(st.product.techStack) && Settled(st.product.roadmap)
  }

  /** A spec still to implement: open tasks, or no task file at all. A task
      file without boxes counts as finished. */
  predicate SpecIncomplete(sp: Spec) {
    sp.tasks.completed < sp.tasks.total || !sp.tasks.present
  }

  /** `specs.find(...)`: the position of the first incomplete spec. */
  function FirstIncomplete(specs: seq<Spec>): (r: Option<nat>)
    ensures r.None? <==> forall i :: 0 <= i < |specs| ==> !SpecIncomplete(specs[i])
    ensures r.Some? ==> && r.value < |specs|
                        && SpecIncomplete(specs[r.value])
                        && forall j :: 0 <= j < r.value ==> !SpecIncomplete(specs[j])
    decreases |specs|
  {
    if |specs| == 0 then None
    else if SpecIncomplete(specs[0]) then Some(0)
    else
      match FirstIncomplete(specs[1..])
      case None => None
      case Some(i) => Some(i + 1)
  }

  /** The roadmap item as the card shows it: every `**` removed, one leading
      ordinal dropped, only the first line kept, and white space trimmed. */
  function CleanRoadmapName(raw: string): string {
    Trim(RoadmapLine(raw))
  }

  /** Which step the card recommends; `Implement` carries the spec's name and
      `ShapeNext` the cleaned roadmap item. */
  datatype StepKind =
    | PlanProduct
    | SyncDesign
    | DefineVisuals
    | ScaffoldApp
    | ShapeFirstSpec
    | Implement(spec: string)
    | ShapeNext(item: string)
    | VerifyOrPlan

  /** The card's decision: the first unmet milestone, then the first
      incomplete spec, then the roadmap's next item. */
  function NextKind(st: ProjectState): StepKind {
    if !ProductComplete(st) then PlanProduct
    else if !st.design.initialized then SyncDesign
    else if !st.design.exported then DefineVisuals
    else if !st.implementation.scaffolded then ScaffoldApp
    else if |st.specs| == 0 then ShapeFirstSpec
    else
      match FirstIncomplete(st.specs)
      case Some(i) => Implement(st.specs[i].name)
      case None =>
        var roadmap := st.product.roadmap;
        if roadmap.nextItem.Some? && roadmap.nextItem.value != "" && !roadmap.isBoilerplate then
          ShapeNext(CleanRoadmapName(roadmap.nextItem.value))
        else VerifyOrPlan
  }

  function Phase(k: StepKind): string {
    match k
    case PlanProduct => ProductPhase
    case SyncDesign | DefineVisuals => DesignPhase
    case ScaffoldApp => ImplementationPhase
    case _ => SpecsPhase
  }

  function Title(k: StepKind): string {
    match k
    case PlanProduct => PlanTitle
    case SyncDesign => SyncTitle
    case DefineVisuals => VisualsTitle
    case ScaffoldApp => ScaffoldTitle
    case ShapeFirstSpec => FirstSpecTitle
    case Implement(name) => ImplementTitleHead + name + Quote
    case ShapeNext(clean) => ShapeTitleHead + clean + Quote
    case VerifyOrPlan => VerifyTitle
  }

  function Description(k: StepKind): string {
    match k
    case PlanProduct => PlanDescription
    case SyncDesign => SyncDescription
    case DefineVisuals => VisualsDescription
    case ScaffoldApp => ScaffoldDescription
    case ShapeFirstSpec => FirstSpecDescription
    case Implement(_) => ImplementDescription
    case ShapeNext(_) => ShapeNextDescription
    case VerifyOrPlan => VerifyDescription
  }

  /** The text the card's copy button puts on the clipboard. */
  function Prompt(k: StepKind): string {
    match k
    case PlanProduct => PlanPrompt
    case SyncDesign => SyncPrompt
    case DefineVisuals => ""
    case ScaffoldApp => ScaffoldPrompt
    case ShapeFirstSpec => ShapeSpecPrompt
    case Implement(name) => ImplementPromptHead + name + ImplementPromptTail
    case ShapeNext(clean) => ShapePromptHead + clean + ShapePromptTail
    case VerifyOrPlan => VerifyPrompt
  }

  function ActionLabel(k: StepKind): string {
    if k.DefineVisuals? then OpenDesignLabel else ""
  }

  function ActionOf(k: StepKind): Action {
    if k.DefineVisuals? then OpenDesign else NoAction
  }

  /** The text and button the card shows for each kind of step; no step
      carries a link. */
  function Card(k: StepKind): Step {
    Step(Phase(k), Title(k), Description(k), Prompt(k), "", ActionLabel(k), ActionOf(k))
  }

  /** The card as rendered for a status report. */
  function NextStep(st: ProjectState): Step { Card(NextKind(st)) }

  /** The milestones the card checks, in order. */
  function Milestones(st: ProjectState): seq<bool> {
    [ProductComplete(st), st.design.initialized, st.design.exported,
     st.implementation.scaffolded, |st.specs| > 0]
  }

  /** The step belonging to each unmet milestone. */
  const SetupKinds: seq<StepKind> := [PlanProduct, SyncDesign, DefineVisuals, ScaffoldApp, ShapeFirstSpec]

  /** The first unmet milestone decides the step, whatever comes after it. */
  lemma FirstUnmetMilestoneDecides(st: ProjectState, i: nat)
    requires i < |Milestones(st)| && !Milestones(st)[i]
    requires forall j :: 0 <= j < i ==> Milestones(st)[j]
    ensures NextKind(st) == SetupKinds[i]
  {
    var m := Milestones(st);
    if i > 0 { assert m[0]; }
    if i > 1 { assert m[1]; }
    if i > 2 { assert m[2]; }
    if i > 3 { assert m[3]; }
  }

  /** Once every milestone is met the card stays in the feature-spec phase:
      it names the first incomplete spec; with none, the roadmap's next item
      unless the roadmap is boilerplate or has none; else it asks to verify. */
  lemma SpecsPhaseAfterSetup(st: ProjectState)
    requires forall j :: 0 <= j < |Milestones(st)| ==> Milestones(st)[j]
    ensures NextStep(st).phase == SpecsPhase
    ensures forall i :: 0 <= i < |st.specs| && SpecIncomplete(st.specs[i])
                        && (forall j :: 0 <= j < i ==> !SpecIncomplete(st.specs[j]))
                        ==> NextKind(st) == Implement(st.specs[i].name)
    ensures (forall i :: 0 <= i < |st.specs| ==> !SpecIncomplete(st.specs[i]))
            ==> NextKind(st) == (
                  var roadmap := st.product.roadmap;
                  if roadmap.nextItem.Some? && roadmap.nextItem.value != "" && !roadmap.isBoilerplate
                  then ShapeNext(CleanRoadmapName(roadmap.nextItem.value))
                  else VerifyOrPlan)
  {
    var m := Milestones(st);
    assert m[0] && m[1] && m[2] && m[3] && m[4];
    forall i | 0 <= i < |st.specs| && SpecIncomplete(st.specs[i])
               && (forall j :: 0 <= j < i ==> !SpecIncomplete(st.specs[j]))
      ensures NextKind(st) == Implement(st.specs[i].name)
    {
      var f := FirstIncomplete(st.specs);
      assert f.Some?;
      assert !(f.value < i) && !(i < f.value);
    }
  }

  /** An unsettled product file always sends the user back to planning,
      whatever the design, app and specs look like. */
  lemma PlanningDominates(st: ProjectState)
    requires !Settled(st.product.mission) || !Settled(st.product.techStack) || !Settled(st.product.roadmap)
    ensures NextStep(st).title == PlanTitle && NextStep(st).prompt == PlanPrompt
  {
    assert NextKind(st) == PlanProduct;
    assert NextStep(st).title == Title(PlanProduct) && NextStep(st).prompt == Prompt(PlanProduct);
  }

  lemma PromptEmptyOnlyForVisuals(k: StepKind)
    ensures Prompt(k) == "" <==> k.DefineVisuals?
  {
    match k
    case PlanProduct => assert |PlanPrompt| > 0;
    case SyncDesign => assert |SyncPrompt| > 0;
    case DefineVisuals =>
    case ScaffoldApp => assert |ScaffoldPrompt| > 0;
    case ShapeFirstSpec => assert |ShapeSpecPrompt| > 0;
    case Implement(_) =>
    case ShapeNext(_) =>
    case VerifyOrPlan => assert |VerifyPrompt| > 0;
  }

  lemma VisualsTitleOnlyForVisuals(k: StepKind)
    ensures Title(k) == VisualsTitle <==> k.DefineVisuals?
  {
    var d := VisualsTitle[0];
    assert d == 'D';
    match k
    case PlanProduct => assert PlanTitle[0] != d;
    case SyncDesign => assert SyncTitle[0] != d;
    case DefineVisuals =>
    case ScaffoldApp => assert ScaffoldTitle[0] != d;
    case ShapeFirstSpec => assert FirstSpecTitle[0] != d;
    case Implement(_) => assert Title(k)[0] != d;
    case ShapeNext(_) => assert Title(k)[0] != d;
    case VerifyOrPlan => assert VerifyTitle[0] != d;
  }

  /** "Define Your Visuals" is the one card without a prompt. */
  lemma OnlyVisualsLacksPrompt(k: StepKind)
    ensures Card(k).prompt == "" <==> Card(k).title == VisualsTitle
  {
    PromptEmptyOnlyForVisuals(k);
    VisualsTitleOnlyForVisuals(k);
  }

  /** ... and the one card with an action button, which opens Design OS. */
  lemma OnlyVisualsHasAction(k: StepKind)
    ensures Card(k).actionLabel != "" <==> Card(k).title == VisualsTitle
    ensures Card(k).title == VisualsTitle ==> Card(k).action == OpenDesign && Card(k).actionLabel == OpenDesignLabel
    ensures Card(k).title != VisualsTitle ==> Card(k).action == NoAction
  {
    VisualsTitleOnlyForVisuals(k);
    assert |OpenDesignLabel| > 0;
    assert Card(k).title == Title(k) && Card(k).actionLabel == ActionLabel(k) && Card(k).action == ActionOf(k);
  }

  /** The line CleanRoadmapName trims. */
  function RoadmapLine(raw: string): string {
    Split(StripOrdinal(RemoveAll(raw, "**")), '\n')[0]
  }

  /** The line keeps no bold marker: removal is complete, and dropping the
      ordinal and the later lines only takes slices. */
  lemma RoadmapLineNoBold(raw: string)
    ensures !Contains(RoadmapLine(raw), "**")
  {
    var u := RemoveAll(raw, "**");
    RemoveBoldComplete(raw);
    var o := StripOrdinal(u);
    NotContainsSuffix(u, "**", |u| - |o|);
    NotContainsFirstPiece(o, '\n', "**");
  }

  /** The shown name is one line, trimmed, without bold markers. */
  lemma CleanRoadmapNameShape(raw: string)
    ensures !Contains(CleanRoadmapName(raw), "**")
    ensures '\n' !in CleanRoadmapName(raw)
    ensures var c := CleanRoadmapName(raw);
            |c| == 0 || (!IsSpace(c[0]) && !IsSpace(c[|c| - 1]))
  {
    var line := RoadmapLine(raw);
    RoadmapLineNoBold(raw);
    var i, j := TrimIsCore(line);
    NotContainsSlice(line, "**", i, j);
    assert '\n' !in line;
  }
}

=== FILE: server.dfy ===
/**
 * What the backend handlers share: where the project lives, the agent-os
 * directory under it, and the shape of a handler's answer.
 */
module Server {
  import opened NodePath
  import opened Fs

  /** `PROJECT_ROOT` as the segments of an absolute, resolved path. */
  datatype Config = Config(projectRoot: seq<string>)

  /** `path.resolve` yields plain segments only, and the path of an actual
      directory holds no U+0000. */
  ghost predicate ValidConfig(cfg: Config) {
    && (forall i :: 0 <= i < |cfg.projectRoot| ==> PlainSegment(cfg.projectRoot[i]))
    && NulFree(cfg.projectRoot)
  }

  /** `AGENT_OS_DIR`, as segments and as the string the handlers compare against. */
  function AgentDir(cfg: Config): Path { cfg.projectRoot + ["agent-os"] }
  function AgentNormal(cfg: Config): Normal { Normal(true, AgentDir(cfg), false) }
  function AgentDirString(cfg: Config): string { Render(AgentNormal(cfg)) }

  /** The project's other top-level directories the status report looks into. */
  function DesignDir(cfg: Config): Path { cfg.projectRoot + ["design-system"] }
  function AppDir(cfg: Config): Path { cfg.projectRoot + ["app"] }
  function PlanDir(cfg: Config): Path { cfg.projectRoot + ["product-plan"] }

  /** A handler's reply: a JSON body with status 200, or one of the error
      statuses with the message the handler sends. A 500 carries the error
      the filesystem raised. */
  datatype Outcome<+T> =
    | Success(value: T)
    | BadRequest(message: string)
    | Forbidden(message: string)
    | NotFound(message: string)
    | ServerError(error: IoError)
  {
    function Code(): int {
      match this
      case Success(_) => 200
      case BadRequest(_) => 400
      case Forbidden(_) => 403
      case NotFound(_) => 404
      case ServerError(_) => 500
    }
  }

  const SpecNameRequired: string := "Spec name required"
  const SpecExists: string := "Spec already exists"
  const InvalidSpecName: string := "Invalid spec name"
  const SpecNotFound: string := "Spec not found"
  const FilePathRequired: string := "File path required"
  const PathAndContentRequired: string := "File path and content required"
  const AccessDenied: string := "Access denied"
  const FileNotFound: string := "File not found"

  lemma AgentNameIsPlain()
    ensures PlainSegment("agent-os")
  {
    assert "agent-os"[0] == 'a';
  }

  /** `AGENT_OS_DIR = path.join(PROJECT_ROOT, 'agent-os')` names the
      directory `agent-os` directly below the project root. */
  lemma AgentDirIsJoin(cfg: Config)
    requires ValidConfig(cfg)
    ensures JoinPath(Normal(true, cfg.projectRoot, false), "agent-os") == AgentNormal(cfg)
  {
    AgentNameIsPlain();
    JoinPlainNames(cfg.projectRoot, ["agent-os"]);
  }

  /** The agent-os directory is made of plain names. */
  lemma AgentDirPlain(cfg: Config)
    requires ValidConfig(cfg)
    ensures |AgentDir(cfg)| > 0
    ensures forall i :: 0 <= i < |AgentDir(cfg)| ==> PlainSegment(AgentDir(cfg)[i])
  {
    AgentNameIsPlain();
    var a := AgentDir(cfg);
    forall i | 0 <= i < |a| ensures PlainSegment(a[i]) {
      if i < |cfg.projectRoot| { assert a[i] == cfg.projectRoot[i]; }
    }
  }
}

=== FILE: specapi.dfy ===
/**
 * `POST /api/scaffold/spec` and `DELETE /api/scaffold/spec/:name`: create a
 * spec directory with its two starter files, and delete one by name.
 * Creation joins the name onto `agent-os/specs` without any check beyond
 * non-emptiness; deletion first restricts the name to letters, digits, `-`
 * and `_`.
 */
module SpecApi {
  import opened Wrappers
  import opened JsText
  import opened NodePath
  import opened Fs
  import opened Checklist
  import opened Server
  import opened ProjectModel

  /** The starter task list: a heading, a blank line and one open task. */
  const SeedHeading: string := "# Tasks\n\n"
  const SeedTaskText: string := " Initial task"
  const SeedTasks: string := SeedHeading + UncheckedBox + SeedTaskText

  /** The starter spec file for `name`. */
  function SpecStub(name: string): string { "# Spec: " + name }

  /** `path.join(AGENT_OS_DIR, 'specs', name)` for a non-empty name. */
  function SpecDirFor(cfg: Config, name: string): Normal {
    JoinPath(AgentNormal(cfg), "specs/" + name)
  }

  /** One character of `^[a-zA-Z0-9-_]+$`. */
  predicate SpecNameChar(c: char) {
    ('a' <= c <= 'z') || ('A' <= c <= 'Z') || ('0' <= c <= '9') || c == '-' || c == '_'
  }

  /** The delete handler's name check. */
  predicate ValidSpecName(name: string) {
    |name| > 0 && forall i :: 0 <= i < |name| ==> SpecNameChar(name[i])
  }

  /** The create handler. `name` is the request body's `name` field, `None`
      when it is absent. The reply carries the new directory's path. */
  function CreateSpec(cfg: Config, fs: FileSystem, name: Option<string>): (r: (Outcome<string>, FileSystem))
    ensures name == None || name == Some("") ==> r == (BadRequest(SpecNameRequired), fs)
    ensures name.Some? && name.value != "" && !NulFree(SpecDirFor(cfg, name.value).segs)
            ==> r == (ServerError(InvalidArgument), fs)
    ensures name.Some? && name.value != "" && NulFree(SpecDirFor(cfg, name.value).segs)
            && ExistsSync(fs, SpecDirFor(cfg, name.value))
            ==> r == (BadRequest(SpecExists), fs)
    ensures r.0.Success? ==>
              && name.Some?
              && r.0.value == Render(SpecDirFor(cfg, name.value))
              && NulFree(SpecDirFor(cfg, name.value).segs)
              && !ExistsSync(fs, SpecDirFor(cfg, name.value))
    ensures r.0.BadRequest? ==> r.1 == fs
  {
    if name.None? || name.value == "" then (BadRequest(SpecNameRequired), fs)
    else
      var dir := SpecDirFor(cfg, name.value);
      // `existsSync` answers false for such a path, and `mkdirSync` throws.
      if !NulFree(dir.segs) then (ServerError(InvalidArgument), fs)
      else if ExistsSync(fs, dir) then (BadRequest(SpecExists), fs)
      else
        match MakeDirs(fs, dir.segs)
        case Err(e) => (ServerError(e), fs)
        case Ok(fs1) => WriteStarters(fs1, dir, name.value)
  }

  /** Where the two starter files of a spec directory go. */
  function SpecFileIn(dir: Normal): Normal { JoinPath(dir, SpecFileName) }
  function TasksFileIn(dir: Normal): Normal { JoinPath(dir, TasksFileName) }

  /** The create handler's two writes once the directory exists: the spec
      file, then the task file. The first failing write is answered with a 500 and
      leaves the filesystem as it stands at that point. */
  function WriteStarters(fs: FileSystem, dir: Normal, name: string): (r: (Outcome<string>, FileSystem))
    ensures r.0.Success? || r.0.ServerError?
    ensures r.1.dirs == fs.dirs
    ensures forall p :: p != SpecFileIn(dir).segs && p != TasksFileIn(dir).segs ==>
              && (p in r.1.files <==> p in fs.files)
              && (p in fs.files ==> r.1.files[p] == fs.files[p])
    ensures r.0.Success? ==>
              && r.0.value == Render(dir)
              && r.1.files == fs.files[SpecFileIn(dir).segs := SpecStub(name)][TasksFileIn(dir).segs := SeedTasks]
  {
    match WriteFile(fs, SpecFileIn(dir), SpecStub(name))
    case Err(e) => (ServerError(e), fs)
    case Ok(fs1) =>
      match WriteFile(fs1, TasksFileIn(dir), SeedTasks)
      case Err(e) => (ServerError(e), fs1)
      case Ok(fs2) => (Success(Render(dir)), fs2)
  }

  /** The delete handler; `name` is the decoded route parameter. */
  function DeleteSpec(cfg: Config, fs: FileSystem, name: string): (r: (Outcome<bool>, FileSystem))
    ensures name == "" ==> r == (BadRequest(SpecNameRequired), fs)
    ensures name != "" && !ValidSpecName(name) ==> r == (BadRequest(InvalidSpecName), fs)
    ensures ValidSpecName(name) && !ExistsSync(fs, SpecDirFor(cfg, name)) ==> r == (NotFound(SpecNotFound), fs)
    ensures r.0.Success? <==> ValidSpecName(name) && ExistsSync(fs, SpecDirFor(cfg, name))
    ensures r.0.Success? ==>
              && ValidSpecName(name)
              && ExistsSync(fs, SpecDirFor(cfg, name))
              && r.1 == RemoveTree(fs, SpecDirFor(cfg, name).segs)
    ensures !r.0.Success? ==> r.1 == fs
  {
    if name == "" then (BadRequest(SpecNameRequired), fs)
    else if !ValidSpecName(name) then (BadRequest(InvalidSpecName), fs)
    else
      var dir := SpecDirFor(cfg, name);
      if !ExistsSync(fs, dir) then (NotFound(SpecNotFound), fs)
      else (Success(true), RemoveTree(fs, dir.segs))
  }

  /** A non-empty name is never answered with "Spec name required". */
  lemma NamedCreateNotMissing(cfg: Config, fs: FileSystem, name: string)
    requires name != ""
    ensures CreateSpec(cfg, fs, Some(name)).0 != BadRequest(SpecNameRequired)
  {
    assert SpecNameRequired != SpecExists by { assert SpecNameRequired[5] != SpecExists[5]; }
  }

  /** A name that passes the delete check is one plain path segment
      without U+0000. */
  lemma ValidSpecNameIsPlain(name: string)
    requires ValidSpecName(name)
    ensures PlainSegment(name) && '\0' !in name
  {
    assert !SpecNameChar('.') && !SpecNameChar('/') && !SpecNameChar('\0');
    assert name[0] != '.';
    assert '/' !in name && '\0' !in name by {
      forall i | 0 <= i < |name| ensures name[i] != '/' && name[i] != '\0' {
        assert SpecNameChar(name[i]);
      }
    }
  }

  /** For a name that passes the delete check, the spec directory is
      `agent-os/specs/<name>`: it can neither climb out nor reach deeper. */
  lemma SpecDirOfValidName(cfg: Config, name: string)
    requires ValidConfig(cfg) && ValidSpecName(name)
    ensures SpecDirFor(cfg, name) == Normal(true, AgentDir(cfg) + ["specs", name], false)
  {
    ValidSpecNameIsPlain(name);
    SpecDirOfPlainName(cfg, name);
  }

  /** The same for any name that is one plain path segment, which is what
      the create handler's join needs to stay at `specs/<name>`. */
  lemma SpecDirOfPlainName(cfg: Config, name: string)
    requires ValidConfig(cfg) && PlainSegment(name)
    ensures SpecDirFor(cfg, name) == Normal(true, AgentDir(cfg) + ["specs", name], false)
  {
    AgentDirPlain(cfg);
    assert PlainSegment("specs") by { assert "specs"[0] == 's'; }
    assert Join(["specs", name], '/') == "specs/" + name;
    JoinPlainNames(AgentDir(cfg), ["specs", name]);
    assert AgentDir(cfg) + ["specs", name] == AgentDir(cfg) + ["specs", name];
  }

  /** Where the two starter files of a created spec go. */
  lemma StarterFilePaths(dir: Normal, file: string)
    requires dir.absolute && forall i :: 0 <= i < |dir.segs| ==> PlainSegment(dir.segs[i])
    requires PlainSegment(file)
    ensures JoinPath(dir, file) == Normal(true, dir.segs + [file], false)
  {
    JoinIgnoresTrailing(dir, file);
    JoinPlainNames(dir.segs, [file]);
  }

  lemma StarterNamesPlain()
    ensures PlainSegment(SpecFileName) && PlainSegment(TasksFileName)
  {
    assert SpecFileName[0] == 's' && TasksFileName[0] == 't';
  }

  /** The starter files of an absolute directory of plain names are its
      children `SpecFileName` and `TasksFileName`. */
  lemma StarterFilesBelow(dir: Normal)
    requires dir.absolute && forall i :: 0 <= i < |dir.segs| ==> PlainSegment(dir.segs[i])
    ensures SpecFileIn(dir) == Normal(true, dir.segs + [SpecFileName], false)
    ensures TasksFileIn(dir) == Normal(true, dir.segs + [TasksFileName], false)
  {
    StarterNamesPlain();
    StarterFilePaths(dir, SpecFileName);
    StarterFilePaths(dir, TasksFileName);
  }

  /** A successful create leaves a directory holding exactly the two starter
      files on top of the previous filesystem, with the ancestors created. */
  lemma CreateSpecEffect(cfg: Config, fs: FileSystem, name: string)
    requires CreateSpec(cfg, fs, Some(name)).0.Success?
    ensures var dir := SpecDirFor(cfg, name).segs;
            var fs' := CreateSpec(cfg, fs, Some(name)).1;
            && fs'.files == fs.files[dir + [SpecFileName] := SpecStub(name)][dir + [TasksFileName] := SeedTasks]
            && fs'.dirs == fs.dirs + Prefixes(dir)
  {
    JoinPathAbsolute(AgentNormal(cfg), "specs/" + name);
    StarterFilesBelow(SpecDirFor(cfg, name));
  }

  /** Below a missing directory, neither starter file exists yet. */
  lemma StartersAreNew(fs: FileSystem, dir: Normal)
    requires WellFormed(fs) && !Exists(fs, dir.segs)
    requires dir.absolute && forall i :: 0 <= i < |dir.segs| ==> PlainSegment(dir.segs[i])
    ensures SpecFileIn(dir).segs !in fs.files && TasksFileIn(dir).segs !in fs.files
  {
    StarterFilesBelow(dir);
    NothingBelowMissing(fs, dir.segs, dir.segs + [SpecFileName]);
    NothingBelowMissing(fs, dir.segs, dir.segs + [TasksFileName]);
  }

  /** Writing the starters over two fresh paths changes no existing file. */
  lemma WriteStartersKeepsFiles(fs: FileSystem, dir: Normal, name: string)
    requires SpecFileIn(dir).segs !in fs.files && TasksFileIn(dir).segs !in fs.files
    ensures var fs' := WriteStarters(fs, dir, name).1;
            forall p :: p in fs.files ==> p in fs'.files && fs'.files[p] == fs.files[p]
  {
  }

  /** For a name that is one plain segment, the effect of a successful
      create in terms of the plain directory path. */
  lemma CreatePlainSpecEffect(cfg: Config, fs: FileSystem, name: string)
    requires ValidConfig(cfg) && PlainSegment(name)
    requires CreateSpec(cfg, fs, Some(name)).0.Success?
    ensures var dir := AgentDir(cfg) + ["specs", name];
            var fs' := CreateSpec(cfg, fs, Some(name)).1;
            && !Exists(fs, dir)
            && fs'.files == fs.files[dir + [SpecFileName] := SpecStub(name)][dir + [TasksFileName] := SeedTasks]
            && fs'.dirs == fs.dirs + Prefixes(dir)
  {
    SpecDirOfPlainName(cfg, name);
    CreateSpecEffect(cfg, fs, name);
  }

  /** The two starter files land as files: their paths are no directories,
      before or after the spec directory is created. */
  lemma StartersLandAsFiles(fs: FileSystem, fs': FileSystem, dir: Path, name: string)
    requires WellFormed(fs) && !Exists(fs, dir)
    requires fs'.files == fs.files[dir + [SpecFileName] := SpecStub(name)][dir + [TasksFileName] := SeedTasks]
    requires fs'.dirs == fs.dirs + Prefixes(dir)
    ensures IsFile(fs', dir + [SpecFileName]) && !IsDir(fs', dir + [SpecFileName])
    ensures IsFile(fs', dir + [TasksFileName]) && !IsDir(fs', dir + [TasksFileName])
    ensures fs'.files[dir + [SpecFileName]] == SpecStub(name)
    ensures fs'.files[dir + [TasksFileName]] == SeedTasks
  {
    NewChildIsNoDir(fs, dir, SpecFileName);
    NewChildIsNoDir(fs, dir, TasksFileName);
    assert dir + [SpecFileName] != dir + [TasksFileName] by {
      assert (dir + [SpecFileName])[|dir|] == SpecFileName;
      assert SpecFileName[0] != TasksFileName[0];
    }
  }

  /** Creation never changes a file that was already there, whatever the
      outcome. */
  lemma CreateSpecKeepsFiles(cfg: Config, fs: FileSystem, name: Option<string>)
    requires WellFormed(fs)
    ensures var fs' := CreateSpec(cfg, fs, name).1;
            forall p :: p in fs.files ==> p in fs'.files && fs'.files[p] == fs.files[p]
  {
    if name.Some? && name.value != "" {
      var dir := SpecDirFor(cfg, name.value);
      if NulFree(dir.segs) && !ExistsSync(fs, dir) && MakeDirs(fs, dir.segs).Ok? {
        JoinPathAbsolute(AgentNormal(cfg), "specs/" + name.value);
        MissingBeforeMakeDirs(fs, dir);
        StartersAreNew(fs, dir);
        WriteStartersKeepsFiles(MakeDirs(fs, dir.segs).value, dir, name.value);
      }
    }
  }

  lemma WriteStartersWellFormed(fs: FileSystem, dir: Normal, name: string)
    requires WellFormed(fs)
    ensures WellFormed(WriteStarters(fs, dir, name).1)
  {
    var first := WriteFile(fs, SpecFileIn(dir), SpecStub(name));
    if first.Ok? {
      WriteFileWellFormed(fs, SpecFileIn(dir), SpecStub(name));
      if WriteFile(first.value, TasksFileIn(dir), SeedTasks).Ok? {
        WriteFileWellFormed(first.value, TasksFileIn(dir), SeedTasks);
      }
    }
  }

  /** Creation and deletion keep the filesystem well formed. */
  lemma CreateSpecWellFormed(cfg: Config, fs: FileSystem, name: Option<string>)
    requires WellFormed(fs)
    ensures WellFormed(CreateSpec(cfg, fs, name).1)
  {
    if name.Some? && name.value != "" {
      var dir := SpecDirFor(cfg, name.value);
      var made := MakeDirs(fs, dir.segs);
      if NulFree(dir.segs) && !ExistsSync(fs, dir) && made.Ok? {
        MakeDirsWellFormed(fs, dir.segs);
        WriteStartersWellFormed(made.value, dir, name.value);
        assert CreateSpec(cfg, fs, name) == WriteStarters(made.value, dir, name.value);
      }
    }
  }

  lemma DeleteSpecWellFormed(cfg: Config, fs: FileSystem, name: string)
    requires WellFormed(fs)
    ensures WellFormed(DeleteSpec(cfg, fs, name).1)
  {
    if DeleteSpec(cfg, fs, name).0.Success? {
      RemoveTreeWellFormed(fs, SpecDirFor(cfg, name).segs);
    }
  }

  /** In a well-formed filesystem every ancestor of a directory is one. */
  lemma {:induction false} AncestorsAreDirs(fs: FileSystem, p: Path, k: nat)
    requires WellFormed(fs) && IsDir(fs, p) && k <= |p|
    ensures IsDir(fs, p[..k])
    decreases |p| - k
  {
    if k < |p| {
      AncestorsAreDirs(fs, Parent(p), k);
      assert Parent(p)[..k] == p[..k];
    } else {
      assert p[..k] == p;
    }
  }

  lemma SpecDirBelowSpecs(cfg: Config, name: string)
    ensures AgentDir(cfg) + ["specs", name] == (AgentDir(cfg) + ["specs"]) + [name]
  {
  }

  /** Adding the starter files and the directories along `specs/<name>`,
      when `specs` exists and `specs/<name>` does not, adds entries only at
      or below `specs/<name>`. */
  lemma StartersAddOnlyBelow(fs: FileSystem, fs': FileSystem, specs: Path, name: string)
    requires WellFormed(fs) && IsDir(fs, specs)
    requires fs'.files == fs.files[specs + [name] + [SpecFileName] := SpecStub(name)][specs + [name] + [TasksFileName] := SeedTasks]
    requires fs'.dirs == fs.dirs + Prefixes(specs + [name])
    ensures IsDir(fs', specs + [name])
    ensures forall q :: q in fs'.files && !(specs + [name] <= q) ==> q in fs.files
    ensures fs.dirs <= fs'.dirs
    ensures forall q :: q in fs'.dirs && !(specs + [name] <= q) ==> q in fs.dirs
  {
    var dir := specs + [name];
    assert IsDir(fs', dir) by { assert dir[..|dir|] == dir; }
    forall q | q in fs'.dirs && !(dir <= q) ensures q in fs.dirs {
      if q in Prefixes(dir) {
        NewAncestorsExisted(fs, specs, name, q);
      }
    }
  }

  /** Nothing is in the way of a new directory at `dir`: Node accepts its
      path, it does not exist yet, and no regular file sits on one of its
      ancestors. */
  predicate Creatable(fs: FileSystem, dir: Path) {
    NulFree(dir) && !Exists(fs, dir) && forall k :: 1 <= k < |dir| ==> dir[..k] !in fs.files
  }

  /** Under a valid project root, the spec directory's path holds U+0000
      exactly when the name does. */
  lemma SpecDirNulFree(cfg: Config, name: string)
    requires ValidConfig(cfg)
    ensures NulFree(AgentDir(cfg) + ["specs", name]) <==> '\0' !in name
  {
    var dir := AgentDir(cfg) + ["specs", name];
    assert dir[|dir| - 1] == name;
    if '\0' !in name {
      forall i | 0 <= i < |dir| ensures '\0' !in dir[i] {
        if i < |cfg.projectRoot| { assert dir[i] == cfg.projectRoot[i]; }
      }
    }
  }

  /** A name holding U+0000 is answered with a 500 and creates nothing. */
  lemma NulNameIsServerError(cfg: Config, fs: FileSystem, name: string)
    requires ValidConfig(cfg) && PlainSegment(name) && '\0' in name
    ensures CreateSpec(cfg, fs, Some(name)) == (ServerError(InvalidArgument), fs)
  {
    SpecDirOfPlainName(cfg, name);
    SpecDirNulFree(cfg, name);
  }

  /** For a valid name, a create succeeds exactly when nothing is in the way
      of the new spec directory: the recursive `mkdirSync` and both writes
      then go through. */
  lemma CreateSpecSucceeds(cfg: Config, fs: FileSystem, name: string)
    requires ValidConfig(cfg) && WellFormed(fs) && PlainSegment(name)
    ensures CreateSpec(cfg, fs, Some(name)).0.Success? <==> Creatable(fs, AgentDir(cfg) + ["specs", name])
  {
    var dir := AgentDir(cfg) + ["specs", name];
    SpecDirOfPlainName(cfg, name);
    if CreateSpec(cfg, fs, Some(name)).0.Success? {
      assert dir[..|dir|] == dir;
    } else if Creatable(fs, dir) {
      CreatableCreates(cfg, fs, name);
    }
  }

  /** The forward half: the directories are made and both writes land. */
  lemma CreatableCreates(cfg: Config, fs: FileSystem, name: string)
    requires ValidConfig(cfg) && WellFormed(fs) && PlainSegment(name)
    requires SpecDirFor(cfg, name) == Normal(true, AgentDir(cfg) + ["specs", name], false)
    requires Creatable(fs, AgentDir(cfg) + ["specs", name])
    ensures CreateSpec(cfg, fs, Some(name)).0.Success?
  {
    var dir := AgentDir(cfg) + ["specs", name];
    var n := SpecDirFor(cfg, name);
    assert dir[..|dir|] == dir;
    assert MakeDirs(fs, dir).Ok?;
    var fs1 := MakeDirs(fs, dir).value;
    assert CreateSpec(cfg, fs, Some(name)) == WriteStarters(fs1, n, name);
    JoinPathAbsolute(AgentNormal(cfg), "specs/" + name);
    NewChildIsNoDir(fs, dir, SpecFileName);
    NewChildIsNoDir(fs, dir, TasksFileName);
    assert dir in Prefixes(dir);
    StartersGoThrough(fs1, n, name);
  }

  /** Both starter writes succeed in an existing directory that has no
      subdirectory under either starter name. */
  lemma StartersGoThrough(fs: FileSystem, dir: Normal, name: string)
    requires dir.absolute && !dir.trailing && forall i :: 0 <= i < |dir.segs| ==> PlainSegment(dir.segs[i])
    requires IsDir(fs, dir.segs)
    requires dir.segs + [SpecFileName] !in fs.dirs && dir.segs + [TasksFileName] !in fs.dirs
    ensures WriteStarters(fs, dir, name).0.Success?
  {
    StarterFilesBelow(dir);
    assert Parent(dir.segs + [SpecFileName]) == dir.segs;
    assert Parent(dir.segs + [TasksFileName]) == dir.segs;
  }

  /** Inside an existing `agent-os/specs`, a valid name that is not taken
      yet is creatable. */
  lemma FreeNameIsCreatable(cfg: Config, fs: FileSystem, name: string)
    requires ValidConfig(cfg) && WellFormed(fs) && IsDir(fs, AgentDir(cfg) + ["specs"])
    requires !Exists(fs, AgentDir(cfg) + ["specs", name])
    ensures Creatable(fs, AgentDir(cfg) + ["specs", name]) <==> '\0' !in name
  {
    SpecDirNulFree(cfg, name);
    var specs := AgentDir(cfg) + ["specs"];
    var dir := AgentDir(cfg) + ["specs", name];
    forall k | 1 <= k < |dir| ensures dir[..k] !in fs.files {
      AncestorsAreDirs(fs, specs, k);
      assert dir[..k] == specs[..k];
    }
  }

  /** Inside an existing `agent-os/specs`, a create under a valid, untaken
      name succeeds and adds entries only at or below the new spec's
      directory. */
  lemma CreateAddsOnlyBelow(cfg: Config, fs: FileSystem, name: string)
    requires ValidConfig(cfg) && WellFormed(fs) && PlainSegment(name) && '\0' !in name
    requires IsDir(fs, AgentDir(cfg) + ["specs"]) && !Exists(fs, AgentDir(cfg) + ["specs", name])
    ensures CreateSpec(cfg, fs, Some(name)).0.Success?
    ensures var dir := AgentDir(cfg) + ["specs", name];
            var fs' := CreateSpec(cfg, fs, Some(name)).1;
            && IsDir(fs', dir)
            && (forall q :: q in fs'.files && !(dir <= q) ==> q in fs.files)
            && fs.dirs <= fs'.dirs
            && (forall q :: q in fs'.dirs && !(dir <= q) ==> q in fs.dirs)
  {
    FreeNameIsCreatable(cfg, fs, name);
    CreateSpecSucceeds(cfg, fs, name);
    CreatePlainSpecEffect(cfg, fs, name);
    SpecDirBelowSpecs(cfg, name);
    StartersAddOnlyBelow(fs, CreateSpec(cfg, fs, Some(name)).1, AgentDir(cfg) + ["specs"], name);
  }

  /** Creating a spec under a valid, untaken name inside an existing
      `agent-os/specs` and deleting it again gives back the filesystem as
      it was. */
  lemma DeleteUndoesCreate(cfg: Config, fs: FileSystem, name: string)
    requires ValidConfig(cfg) && WellFormed(fs) && ValidSpecName(name)
    requires IsDir(fs, AgentDir(cfg) + ["specs"]) && !Exists(fs, AgentDir(cfg) + ["specs", name])
    ensures DeleteSpec(cfg, CreateSpec(cfg, fs, Some(name)).1, name) == (Success(true), fs)
  {
    var dir := AgentDir(cfg) + ["specs", name];
    SpecDirOfValidName(cfg, name);
    ValidSpecNameIsPlain(name);
    CreateAddsOnlyBelow(cfg, fs, name);
    CreateSpecKeepsFiles(cfg, fs, Some(name));
    RemoveTreeRestores(fs, CreateSpec(cfg, fs, Some(name)).1, dir);
  }

  /** The create handler accepts names the delete handler refuses: a plain
      name outside `[a-zA-Z0-9-_]+` is created, and deleting it by that
      name answers 400 and removes nothing. */
  lemma CreatedButNotDeletable(cfg: Config, fs: FileSystem, name: string)
    requires ValidConfig(cfg) && WellFormed(fs) && PlainSegment(name) && !ValidSpecName(name)
    requires Creatable(fs, AgentDir(cfg) + ["specs", name])
    ensures CreateSpec(cfg, fs, Some(name)).0.Success?
    ensures var fs' := CreateSpec(cfg, fs, Some(name)).1;
            DeleteSpec(cfg, fs', name) == (BadRequest(InvalidSpecName), fs')
  {
    CreateSpecSucceeds(cfg, fs, name);
  }

  /** Such names exist: the dialog posts "User Profile" as typed. */
  lemma SpacedNameIsPlainButInvalid()
    ensures PlainSegment("User Profile") && !ValidSpecName("User Profile")
  {
    assert "User Profile"[4] == ' ';
    assert !SpecNameChar(' ');
  }

  /** The create handler checks nothing but emptiness, so `..` segments in
      a name climb out of `agent-os/specs`: "../../x" names the directory
      `x` beside `agent-os` itself. */
  lemma CreateNameCanClimbOut(cfg: Config)
    requires ValidConfig(cfg)
    ensures SpecDirFor(cfg, "../../x") == Normal(true, cfg.projectRoot + ["x"], false)
  {
    var rb := Render(AgentNormal(cfg));
    var rel := "specs/../../x";
    var p := rb + "/" + rel;
    assert "specs/" + "../../x" == rel;
    assert SpecDirFor(cfg, "../../x") == Normalize(p);
    ClimbingPathSplits(cfg);
    ClimbingResolves(cfg.projectRoot);
    assert p[0] == '/' && p[|p| - 1] == 'x';
  }

  /** The joined string splits into the agent-os segments and the name's. */
  lemma ClimbingPathSplits(cfg: Config)
    requires ValidConfig(cfg)
    ensures Resolve([], Split(Render(AgentNormal(cfg)) + "/" + "specs/../../x", '/'), true)
            == Resolve(AgentDir(cfg), ["specs", "..", "..", "x"], true)
  {
    AgentDirPlain(cfg);
    ClimbingNameSplits();
    SegmentsAfterRoot(AgentDir(cfg), "specs/../../x", ["specs", "..", "..", "x"]);
  }

  /** Joining `rel` onto a plain absolute root resolves `rel`'s segments from
      the root. */
  lemma SegmentsAfterRoot(root: seq<string>, rel: string, names: seq<string>)
    requires forall i :: 0 <= i < |root| ==> PlainSegment(root[i])
    requires Split(rel, '/') == names
    ensures Resolve([], Split(Render(Normal(true, root, false)) + "/" + rel, '/'), true)
            == Resolve(root, names, true)
  {
    var lead := RootLead(root);
    var rb := Render(Normal(true, root, false));
    SplitSlash(rb, rel);
    var segs := Split(rb + "/" + rel, '/');
    assert segs == lead + (root + names);
    ResolveAppend([], lead, root + names, true);
    ResolveEmpties(lead);
    assert Resolve([], segs, true) == Resolve([], root + names, true);
    ResolveAppend([], root, names, true);
    ResolvePlain([], root, true);
    assert Resolve([], root, true) == root;
  }

  /** `specs`, `..`, `..` and `x` step into `specs`, back out of it and of
      `agent-os`, and into `x`. */
  lemma ClimbingResolves(root: seq<string>)
    ensures Resolve(root + ["agent-os"], ["specs", "..", "..", "x"], true) == root + ["x"]
  {
    var a := root + ["agent-os"];
    assert Resolve(a, ["specs", "..", "..", "x"], true) == Resolve(a + ["specs"], ["..", "..", "x"], true);
    assert (a + ["specs"])[..|a|] == a;
    assert Resolve(a + ["specs"], ["..", "..", "x"], true) == Resolve(a, ["..", "x"], true);
    assert a[..|root|] == root;
    assert Resolve(a, ["..", "x"], true) == Resolve(root, ["x"], true);
  }

  lemma ClimbingNameSplits()
    ensures Split("specs/../../x", '/') == ["specs", "..", "..", "x"]
  {
    var names := ["specs", "..", "..", "x"];
    assert Join(names, '/') == "specs/../../x";
    assert forall i :: 0 <= i < |names| ==> '/' !in names[i];
    SplitJoin(names, '/');
  }

  /** Every ancestor of `specs/<name>` other than itself is an existing
      directory when `specs` is one. */
  lemma NewAncestorsExisted(fs: FileSystem, specs: Path, name: string, q: Path)
    requires WellFormed(fs) && IsDir(fs, specs)
    requires q in Prefixes(specs + [name]) && !(specs + [name] <= q)
    ensures q in fs.dirs
  {
    var dir := specs + [name];
    var k :| 1 <= k <= |dir| && q == dir[..k];
    assert dir[..|dir|] == dir;
    assert k < |dir|;
    assert dir[..k] == specs[..k];
    AncestorsAreDirs(fs, specs, k);
  }

  /** The starter task list of a new spec counts one open task and no
      finished one. */
  lemma SeedTasksStatus()
    ensures CountOccurrences(SeedTasks, UncheckedBox) == 1
    ensures CountOccurrences(SeedTasks, CheckedBox) == 0
  {
    assert UncheckedBox[0] == '-' && CheckedBox[3] == 'x';
    assert '-' !in SeedHeading && '-' !in SeedTaskText;
    assert 'x' !in SeedHeading && 'x' !in UncheckedBox && 'x' !in SeedTaskText;
    assert SeedTasks == SeedHeading + (UncheckedBox + SeedTaskText);
    NotContainsMissingChar(SeedTasks, CheckedBox, 3);
    CountZeroWhenAbsent(SeedTasks, CheckedBox);
    CountSkipsPrefix(SeedHeading, UncheckedBox + SeedTaskText, UncheckedBox);
    CountAtFront(UncheckedBox, SeedTaskText);
    NotContainsMissingChar(SeedTaskText, UncheckedBox, 0);
    CountZeroWhenAbsent(SeedTaskText, UncheckedBox);
  }
}

=== FILE: statusapi.dfy ===
/**
 * `GET /api/status`: parse the product files with their legacy fallbacks,
 * parse the spec file and the task file of every spec directory, and report the
 * design and implementation milestones as existence checks. The health of
 * the two dev servers is an input; the API itself is up by construction.
 * Reading a path that is a directory throws, which turns the whole request
 * into a 500.
 */
module StatusApi {
  import opened Wrappers
  import opened NodePath
  import opened Fs
  import opened Checklist
  import opened ProjectModel
  import opened Server

  /** `parseStatus` on an already joined path: a missing file is reported
      absent and never fails; an existing file is read and parsed. */
  function ParseStatusAt(fs: FileSystem, p: Path): (r: Result<Status, IoError>)
    ensures !Exists(fs, p) ==> r == Ok(MissingStatus())
    ensures IsFile(fs, p) && !IsDir(fs, p) ==> r == Ok(Parse(fs.files[p]))
    ensures r.Err? <==> IsDir(fs, p)
    ensures r.Ok? ==> (r.value.present <==> Exists(fs, p))
  {
    var n := Normal(true, p, false);
    if !ExistsSync(fs, n) then Ok(MissingStatus())
    else match ReadFile(fs, n)
      case Ok(content) => Ok(Parse(content))
      case Err(e) => Err(e)
  }

  /** Whether a primary-then-legacy lookup reads only files. */
  ghost predicate FallbackReadable(fs: FileSystem, primary: Path, legacy: Path) {
    !IsDir(fs, primary) && (IsFile(fs, primary) || !IsDir(fs, legacy))
  }

  /** The primary file's status if it exists, else the legacy file's. */
  function WithFallback(fs: FileSystem, primary: Path, legacy: Path): (r: Result<Status, IoError>)
    ensures r.Ok? <==> FallbackReadable(fs, primary, legacy)
    ensures IsFile(fs, primary) && !IsDir(fs, primary) ==> r == Ok(Parse(fs.files[primary]))
    ensures !Exists(fs, primary) ==> r == ParseStatusAt(fs, legacy)
  {
    match ParseStatusAt(fs, primary)
    case Err(e) => Err(e)
    case Ok(s) => if s.present then Ok(s) else ParseStatusAt(fs, legacy)
  }

  function MissionPath(cfg: Config): Path { AgentDir(cfg) + ["product", "mission.md"] }
  function OverviewPath(cfg: Config): Path { AgentDir(cfg) + ["product", "product-overview.md"] }
  function RoadmapPath(cfg: Config): Path { AgentDir(cfg) + ["product", "roadmap.md"] }
  function LegacyRoadmapPath(cfg: Config): Path { AgentDir(cfg) + ["product", "product-roadmap.md"] }
  function TechStackPath(cfg: Config): Path { AgentDir(cfg) + ["product", "tech-stack.md"] }

  function SpecFilePath(cfg: Config, name: string): Path { AgentDir(cfg) + ["specs", name, SpecFileName] }
  function TasksFilePath(cfg: Config, name: string): Path { AgentDir(cfg) + ["specs", name, TasksFileName] }

  /** Both files of a spec sit directly in its directory. */
  lemma SpecFilesInSpecDir(cfg: Config, name: string)
    ensures SpecFilePath(cfg, name) == (AgentDir(cfg) + ["specs", name]) + [SpecFileName]
    ensures TasksFilePath(cfg, name) == (AgentDir(cfg) + ["specs", name]) + [TasksFileName]
  {
  }

  ghost predicate ProductReadable(cfg: Config, fs: FileSystem) {
    && FallbackReadable(fs, MissionPath(cfg), OverviewPath(cfg))
    && FallbackReadable(fs, RoadmapPath(cfg), LegacyRoadmapPath(cfg))
    && !IsDir(fs, TechStackPath(cfg))
  }

  function ReadProduct(cfg: Config, fs: FileSystem): (r: Result<ProductStatus, IoError>)
    ensures r.Ok? <==> ProductReadable(cfg, fs)
    ensures r.Ok? ==> r.value.mission == WithFallback(fs, MissionPath(cfg), OverviewPath(cfg)).value
    ensures r.Ok? ==> r.value.roadmap == WithFallback(fs, RoadmapPath(cfg), LegacyRoadmapPath(cfg)).value
    ensures r.Ok? ==> r.value.techStack == ParseStatusAt(fs, TechStackPath(cfg)).value
  {
    var mission :- WithFallback(fs, MissionPath(cfg), OverviewPath(cfg));
    var roadmap :- WithFallback(fs, RoadmapPath(cfg), LegacyRoadmapPath(cfg));
    var techStack :- ParseStatusAt(fs, TechStackPath(cfg));
    Ok(ProductStatus(mission, roadmap, techStack))
  }

  ghost predicate SpecReadable(cfg: Config, fs: FileSystem, name: string) {
    !IsDir(fs, SpecFilePath(cfg, name)) && !IsDir(fs, TasksFilePath(cfg, name))
  }

  /** The entry for one spec directory. */
  function ReadSpec(cfg: Config, fs: FileSystem, name: string): (r: Result<Spec, IoError>)
    ensures r.Ok? <==> SpecReadable(cfg, fs, name)
    ensures r.Ok? ==> && r.value.name == name
                      && r.value.spec == ParseStatusAt(fs, SpecFilePath(cfg, name)).value
                      && r.value.tasks == ParseStatusAt(fs, TasksFilePath(cfg, name)).value
  {
    var spec :- ParseStatusAt(fs, SpecFilePath(cfg, name));
    var tasks :- ParseStatusAt(fs, TasksFilePath(cfg, name));
    Ok(Spec(name, spec, tasks))
  }

  /** The entries for the listed spec directories, in listing order; the
      first unreadable one fails the whole list. */
  function ReadSpecs(cfg: Config, fs: FileSystem, names: seq<string>): (r: Result<seq<Spec>, IoError>)
    ensures r.Ok? <==> forall i :: 0 <= i < |names| ==> SpecReadable(cfg, fs, names[i])
    ensures r.Ok? ==> |r.value| == |names|
    ensures r.Ok? ==> forall i :: 0 <= i < |names| ==> r.value[i] == ReadSpec(cfg, fs, names[i]).value
  {
    MapAll(names, name => ReadSpec(cfg, fs, name))
  }

  /** A directory the spec glob reports: a visible child directory of
      `agent-os/specs`. */
  predicate SpecDirNamed(cfg: Config, fs: FileSystem, name: string) {
    PlainSegment(name) && name[0] != '.' && AgentDir(cfg) + ["specs", name] in fs.dirs
  }

  /** The listing the glob returns: every spec directory exactly once, in an
      order the filesystem chooses. */
  ghost predicate IsSpecListing(cfg: Config, fs: FileSystem, listing: seq<string>) {
    && (forall i, j :: 0 <= i < j < |listing| ==> listing[i] != listing[j])
    && (forall i :: 0 <= i < |listing| ==> SpecDirNamed(cfg, fs, listing[i]))
    && (forall name :: SpecDirNamed(cfg, fs, name) ==> name in listing)
  }

  /** The design milestones, each an existence check. */
  function DesignOf(cfg: Config, fs: FileSystem): (d: Design)
    ensures d.present == d.tokens
    ensures d.tokens <==> Exists(fs, DesignDir(cfg) + ["product", "design-system", "colors.json"])
    ensures d.initialized <==> Exists(fs, DesignDir(cfg) + ["product", "product-overview.md"])
                               || Exists(fs, DesignDir(cfg) + ["product", "mission.md"])
    ensures d.shell <==> Exists(fs, DesignDir(cfg) + ["product", "shell", SpecFileName])
    ensures d.exported <==> Exists(fs, PlanDir(cfg))
    ensures d.exportPrompts.oneShot <==> Exists(fs, PlanDir(cfg) + ["prompts", "one-shot-prompt.md"])
    ensures d.exportPrompts.section <==> Exists(fs, PlanDir(cfg) + ["prompts", "section-prompt.md"])
    ensures d.qa.audit <==> Exists(fs, DesignDir(cfg) + ["QA", "audit-report.md"])
    ensures d.qa.polish <==> Exists(fs, DesignDir(cfg) + ["QA", "polish-report.md"])
  {
    var dd := DesignDir(cfg);
    var hasTokens := Exists(fs, dd + ["product", "design-system", "colors.json"]);
    var hasInit := Exists(fs, dd + ["product", "product-overview.md"]);
    Design(
      hasTokens,
      hasInit || Exists(fs, dd + ["product", "mission.md"]) || Exists(fs, dd + ["product", "product-overview.md"]),
      hasTokens,
      Exists(fs, dd + ["product", "shell", SpecFileName]),
      Exists(fs, PlanDir(cfg)),
      ExportPrompts(
        Exists(fs, PlanDir(cfg) + ["prompts", "one-shot-prompt.md"]),
        Exists(fs, PlanDir(cfg) + ["prompts", "section-prompt.md"])),
      QaReports(
        Exists(fs, dd + ["QA", "audit-report.md"]),
        Exists(fs, dd + ["QA", "polish-report.md"])))
  }

  /** The whole report. `designUp` and `appUp` are the answers of the two
      health probes; `listing` is what the spec glob returned. */
  function GetStatus(cfg: Config, fs: FileSystem, designUp: bool, appUp: bool, listing: seq<string>)
    : (r: Result<ProjectState, IoError>)
    requires IsSpecListing(cfg, fs, listing)
    ensures r.Ok? <==> ProductReadable(cfg, fs)
                       && forall i :: 0 <= i < |listing| ==> SpecReadable(cfg, fs, listing[i])
    ensures r.Ok? ==> r.value.product == ReadProduct(cfg, fs).value
    ensures r.Ok? ==> r.value.design == DesignOf(cfg, fs)
    ensures r.Ok? ==> r.value.services == Services(true, designUp, appUp)
    ensures r.Ok? ==> r.value.specs == ReadSpecs(cfg, fs, listing).value
    ensures r.Ok? ==> (r.value.implementation.scaffolded <==> Exists(fs, AppDir(cfg) + ["src", "lib", "utils.ts"]))
    ensures r.Ok? ==> r.value.projectRoot == Render(Normal(true, cfg.projectRoot, false))
  {
    var product :- ReadProduct(cfg, fs);
    var specs :- ReadSpecs(cfg, fs, listing);
    Ok(ProjectState(
      product,
      DesignOf(cfg, fs),
      Implementation(Exists(fs, AppDir(cfg) + ["src", "lib", "utils.ts"])),
      specs,
      Services(true, designUp, appUp),
      Render(Normal(true, cfg.projectRoot, false))))
  }

  /** The report lists every spec directory exactly once: `specs` is the
      list `GetStatus` puts in the report. */
  lemma StatusListsEverySpecOnce(cfg: Config, fs: FileSystem, listing: seq<string>, specs: seq<Spec>)
    requires IsSpecListing(cfg, fs, listing)
    requires ReadSpecs(cfg, fs, listing) == Ok(specs)
    ensures |specs| == |listing|
    ensures forall i, j :: 0 <= i < j < |specs| ==> specs[i].name != specs[j].name
    ensures forall name :: SpecDirNamed(cfg, fs, name) <==> exists i :: 0 <= i < |specs| && specs[i].name == name
  {
    assert forall i :: 0 <= i < |specs| ==> specs[i].name == listing[i];
    forall name | SpecDirNamed(cfg, fs, name)
      ensures exists i :: 0 <= i < |specs| && specs[i].name == name
    {
      var i :| 0 <= i < |listing| && listing[i] == name;
      assert specs[i].name == name;
    }
  }
}

=== FILE: wrappers.dfy ===
/** Failure-compatible wrappers shared by every module of the model. */
module Wrappers {

  /** A value that may be absent: JavaScript's `null` / `undefined`. */
  datatype Option<+T> = None | Some(value: T)

  /** Either a value or an error; usable with `:-`. */
  datatype Result<+T, +E> = Ok(value: T) | Err(error: E) {

    predicate IsFailure() {
      Err?
    }

    function PropagateFailure<U>(): Result<U, E>
      requires Err?
    {
      Err(error)
    }

    function Extract(): T
      requires Ok?
    {
      value
    }
  }

  /** Applies `f` to every element in order and stops at the first error,
      as a loop whose body may throw does. */
  function MapAll<A, B, E>(xs: seq<A>, f: A -> Result<B, E>): (r: Result<seq<B>, E>)
    ensures r.Ok? <==> forall i :: 0 <= i < |xs| ==> f(xs[i]).Ok?
    ensures r.Ok? ==> |r.value| == |xs| && forall i :: 0 <= i < |xs| ==> f(xs[i]) == Ok(r.value[i])
    ensures r.Err? ==> exists i :: 0 <= i < |xs| && f(xs[i]) == Err(r.error)
    decreases |xs|
  {
    if |xs| == 0 then Ok([])
    else
      var first :- f(xs[0]);
      var rest :- MapAll(xs[1..], f);
      assert forall i :: 1 <= i < |xs| ==> xs[i] == xs[1..][i - 1];
      Ok([first] + rest)
  }
}
